=== FILE: README.md ===
# Block storage and section encoding of the FastAsyncWorldEdit edit queue

This project models, in Dafny, the part of FastAsyncWorldEdit's edit queue that
stores block states and turns them into game chunk sections. It has four parts.

- **Dense section array** (`DataArray` and its two backings, `CharDataArray` and
  `IntDataArray`): 4096 block-state ordinals, stored as 16-bit `char` values or
  as 32-bit `int` values. Module `DataArrays`, file `data_array.dfy`.
- **Per-chunk edit overlay** (`DataArraySetBlocks`): a column of sections whose
  range only grows. Each section has an `EMPTY`/`FULL` tag, an optional array
  and a lock object. Biomes, block light and sky light are kept in lazily
  allocated side grids, next to tiles, entities, entity removals and height
  maps. Module `SetBlocks`, file `set_blocks.dfy`.
- **Section encoder**: the two `NMSAdapter.createPalette` overloads (module
  `Palette`) and the block-writing path of
  `FabricPlatformAdapter.newChunkSection` (module `ChunkSection`). The palette
  lists distinct states in first-seen order. The code then picks bits per
  entry, packs entries into 64-bit words, emits the palette list and restores
  the per-thread scratch buffers. The width arithmetic is in module `BitWidth`
  and the word layout in module `Packing`.
- **Read-side snapshot** (`FabricGetBlocks_Copy`): one optional array per
  section of the world's height, with `get`, `hasSection`, `load`,
  `loadIfPresent`, `storeSection` and the min/max section positions. Module
  `GetCopy`, file `get_copy.dfy`.

Module `BlockIds` holds the reserved ordinals and the in-section index formulas.
Module `Wrappers` holds `Option` and `Result`.

## How the model is built

**Values instead of objects.** Every Java object is an immutable datatype and
every mutator is a function that returns the new value. A Java exception is a
`Result` failure:

- `IndexOutOfBounds` or `NullSection` in the snapshot;
- `BackingMismatch` when `copyInto` casts to the other backing class.

**Narrowing.** The char backing keeps `value % 65536`. This is Java's `(char)`
cast: Dafny's Euclidean `%` matches it for negative values too.

**Bit operations** are arithmetic:

- `y >> 4` is floor division by 16.
- `& 15` is the least non-negative residue.
- An OR of disjoint shifted fields is their weighted sum. `BlockIndexBitsAreSum`
  and `GetIndexIsBlockIndex` prove this on `bv32`.

**Assumptions about code outside this model:**

- The reserved ordinals are `__RESERVED__ = 0`, `AIR = 1`, `CAVE_AIR = 2` and
  `VOID_AIR = 3`.
- `MathMan.log2nlz` is the bit length, so `log2nlz(0) == 0`.
- `Block.BLOCK_STATE_REGISTRY.size()` is `IdTables.StateCount()`, the length of
  the ordinal-to-id table. FabricFaweAdapter.java:110-117 sizes both id tables
  by the number of block states, one registry id per state.
- The size of the `FaweCache` scratch buffers is not part of this model. The
  encoder requires a word buffer of at least 2048 words
  (`ChunkSection.MaxWords`). That is the most any section needs, because
  entries are at most 31 bits wide (`BitWidth.BitLengthOfInt` and
  `BitWidth.WordCountBounded`). The packing
  step itself only needs `blockBitArrayEnd` words.
- `FaweCache.EMPTY_*_4096` are all-zero arrays.
- The game's id tables are parameters (`IdTables`). Looking up a state's id and
  then that id's state gives the state back.
- `BitArrayUnstretched` is not part of this model. Its layout is taken to be
  `floor(64 / bits)` entries per word, lowest bits first, with no entry split
  across two words.

**What round-trips mean here.**

- For the encoder: reading the encoded section back through its storage and
  palette (`ChunkSection.Decode`, the game's reading rule) gives every entry of
  the section as written, with the placeholder read as `AIR`.
- For the overlay: growing the range keeps every layer's content at the same
  logical layer, and every setter changes only what it names.

**Code followed over the javadoc.** The `DataArray.setRange` javadoc says an
`end` with `end + 1 > 4096` throws. The code calls `Arrays.fill(data, start,
end, v)`, which takes an exclusive `end` and accepts `end == 4096`. The model
follows the code.

## Model

| member | source | states |
|---|---|---|
| BlockIds.SectionOf | worldedit-core/src/main/java/com/fastasyncworldedit/core/queue/implementation/blocks/DataArraySetBlocks.java:95-96 | `y >> 4` is the section holding level `y`: `16 * layer <= y < 16 * layer + 16`, for negative levels too |
| BlockIds.BlockIndex | worldedit-core/src/main/java/com/fastasyncworldedit/core/queue/implementation/blocks/DataArraySetBlocks.java:151 | the light index is below 4096, and its three base-16 digits are the local `y`, `z` and `x` |
| BlockIds.BlockIndexInjective | worldedit-core/src/main/java/com/fastasyncworldedit/core/queue/implementation/blocks/DataArraySetBlocks.java:151 | two positions share a light slot if and only if their local coordinates agree |
| BlockIds.BiomeIndex | worldedit-core/src/main/java/com/fastasyncworldedit/core/queue/implementation/blocks/DataArraySetBlocks.java:103 | the biome cell index is below 64, and its base-4 digits are the upper two bits of the local `y`, `z` and `x` |
| BlockIds.BlockIndexBitsAreSum | worldedit-core/src/main/java/com/fastasyncworldedit/core/queue/implementation/blocks/DataArraySetBlocks.java:151 | on 32-bit words, the shift-and-OR light index (and the biome index of line 103) equals the weighted digit sum used everywhere else |
| DataArrays.Store | worldedit-core/src/main/java/com/fastasyncworldedit/core/queue/implementation/blocks/CharDataArray.java:22-24 | a char slot keeps a value congruent to the written one mod 65536 and in 0..65535; a value that fits, or any value in an int slot, is kept exactly |
| DataArrays.BackingForIsLossless | worldedit-core/src/main/java/com/fastasyncworldedit/core/queue/implementation/blocks/CharDataArray.java:9 | the backing chosen from the state count never alters a state ordinal: the char backing is picked only when every ordinal fits a char |
| DataArrays.CreateEmpty | worldedit-core/src/main/java/com/fastasyncworldedit/core/queue/implementation/blocks/DataArray.java:19-24 | a new array of the process-wide backing has 4096 entries, all 0 |
| DataArrays.SetAt | worldedit-core/src/main/java/com/fastasyncworldedit/core/queue/implementation/blocks/CharDataArray.java:21-24 | reading index `i` back gives the stored value (narrowed for the char backing, exact for the int backing of IntDataArray.java:19-22); every other index is unchanged |
| DataArrays.SetRange | worldedit-core/src/main/java/com/fastasyncworldedit/core/queue/implementation/blocks/CharDataArray.java:26-29 | exactly the indices in `[start, end)`, `end` exclusive, hold the stored value, for either backing; all others are unchanged |
| DataArrays.SetAll | worldedit-core/src/main/java/com/fastasyncworldedit/core/queue/implementation/blocks/IntDataArray.java:29-32 | all 4096 entries hold the stored value |
| DataArrays.SetAllIsFullRange | worldedit-core/src/main/java/com/fastasyncworldedit/core/queue/implementation/blocks/DataArray.java:75-81 | `setAll(v)` equals `setRange(0, 4096, v)`, as the interface documents |
| DataArrays.IsEmpty | worldedit-core/src/main/java/com/fastasyncworldedit/core/queue/implementation/blocks/CharDataArray.java:43-46 | comparing with the zero template holds if and only if every one of the 4096 entries is 0, for either backing |
| DataArrays.Equals | worldedit-core/src/main/java/com/fastasyncworldedit/core/queue/implementation/blocks/CharDataArray.java:48-54 | true if and only if both arrays have the same backing class and agree at every index |
| DataArrays.CopyInto | worldedit-core/src/main/java/com/fastasyncworldedit/core/queue/implementation/blocks/CharDataArray.java:36-41 | succeeds exactly when the destination has the same backing class (either cast fails otherwise), and the destination then equals the source |
| DataArrays.CreateFilled | worldedit-core/src/main/java/com/fastasyncworldedit/core/queue/implementation/blocks/DataArray.java:30-34 | every entry of the new array reads as the stored fill value |
| DataArrays.CreateCopy | worldedit-core/src/main/java/com/fastasyncworldedit/core/queue/implementation/blocks/DataArray.java:40-44 | the copy equals the original entry by entry; it fails exactly when the original has the other backing |
| DataArrays.CreatedEmptiness | worldedit-core/src/main/java/com/fastasyncworldedit/core/queue/implementation/blocks/DataArray.java:19-34 | a new empty array is empty; a filled one is empty if and only if the stored fill value is 0 (65536 narrows to 0 in a char array) |
| DataArrays.SetAtNonZeroIsNotEmpty | worldedit-core/src/main/java/com/fastasyncworldedit/core/queue/implementation/blocks/DataArray.java:90-93 | after storing a value kept as non-zero, `isEmpty` is false |
| DataArrays.CopyIsIndependent | worldedit-core/src/main/java/com/fastasyncworldedit/core/queue/implementation/blocks/DataArray.java:40-44 | a write into the copy leaves every other entry equal to the original's |
| BitWidth.BitLength | worldedit-fabric/src/main/java/com/sk89q/worldedit/fabric/fawe/NMSAdapter.java:43 | the bit length `n` of `x` satisfies `2^(n-1) <= x < 2^n`, and it is 0 exactly for 0 |
| BitWidth.BitLengthUnique | worldedit-fabric/src/main/java/com/sk89q/worldedit/fabric/fawe/NMSAdapter.java:43 | any width satisfying those bounds is the bit length, so the bounds define it |
| BitWidth.GlobalPaletteThreshold | worldedit-fabric/src/main/java/com/sk89q/worldedit/fabric/fawe/NMSAdapter.java:43-45 | `log2nlz(num_palette - 1) > 8` holds if and only if there are more than 256 distinct states |
| BitWidth.BitsPerEntry | worldedit-fabric/src/main/java/com/sk89q/worldedit/fabric/fawe/FabricPlatformAdapter.java:212-217 | 0 bits exactly for a single state; up to 256 states get between 4 and 8 bits, the fewest that index them (4 at least); more states get the fewest bits that index the whole registry |
| BitWidth.NonZero | worldedit-fabric/src/main/java/com/sk89q/worldedit/fabric/fawe/FabricPlatformAdapter.java:218 | the packing width is at least 1 and equals the entry width whenever that is positive |
| BitWidth.BlocksPerLong | worldedit-fabric/src/main/java/com/sk89q/worldedit/fabric/fawe/FabricPlatformAdapter.java:219 | the largest number of whole entries that fit in 64 bits (between 1 and 64) |
| BitWidth.WordCount | worldedit-fabric/src/main/java/com/sk89q/worldedit/fabric/fawe/FabricPlatformAdapter.java:220 | enough words for 4096 entries at that density, and one word fewer would not be enough |
| BitWidth.WordCountIsLeast | worldedit-fabric/src/main/java/com/sk89q/worldedit/fabric/fawe/FabricPlatformAdapter.java:220 | every word count that holds a section is at least `WordCount` |
| BitWidth.WordCountBounded | worldedit-fabric/src/main/java/com/sk89q/worldedit/fabric/fawe/FabricPlatformAdapter.java:220 | a section needs between 64 and 4096 words, and at most 2048 when entries are at most 32 bits wide, as they are for any registry of fewer than 2^31 states (`BitLengthOfInt`) |
| Packing.PackWordFields | worldedit-fabric/src/main/java/com/sk89q/worldedit/fabric/fawe/FabricPlatformAdapter.java:227-228 | shifting and masking entry `j` out of a packed word gives back the `j`-th packed value |
| Packing.Pack | worldedit-fabric/src/main/java/com/sk89q/worldedit/fabric/fawe/FabricPlatformAdapter.java:227-228 | packing uses one word per run of `BlocksPerLong` entries, and every word fits in 64 bits |
| Packing.RunsIsCeiling | worldedit-fabric/src/main/java/com/sk89q/worldedit/fabric/fawe/FabricPlatformAdapter.java:220 | counting runs one by one gives `ceil(len / blocksPerLong)`, the rounding `ceilZero` performs |
| Packing.UnpackPack | worldedit-fabric/src/main/java/com/sk89q/worldedit/fabric/fawe/FabricPlatformAdapter.java:227-228 | unpacking entry `i` of the packed words gives back entry `i` of the input, for every `i` |
| Packing.PackedSectionLength | worldedit-fabric/src/main/java/com/sk89q/worldedit/fabric/fawe/FabricPlatformAdapter.java:220-231 | a 4096-entry section packs into exactly `blockBitArrayEnd` words, the prefix `copyOfRange` keeps |
| Palette.Normalise | worldedit-fabric/src/main/java/com/sk89q/worldedit/fabric/fawe/NMSAdapter.java:52-56 | the placeholder becomes `AIR` and every other ordinal is kept; the result is never the placeholder |
| Palette.AirCountIsAirPositions | worldedit-fabric/src/main/java/com/sk89q/worldedit/fabric/fawe/NMSAdapter.java:25-35 | the decrements of `nonAir` count exactly the positions holding the placeholder or one of the three airs |
| Palette.AirCountNormalised | worldedit-fabric/src/main/java/com/sk89q/worldedit/fabric/fawe/NMSAdapter.java:30-34 | mapping the placeholder to `AIR` does not change the air count |
| Palette.FirstSeen | worldedit-fabric/src/main/java/com/sk89q/worldedit/fabric/fawe/NMSAdapter.java:36-41 | the palette has no duplicates and holds exactly the states that occur |
| Palette.FirstSeenOrdered | worldedit-fabric/src/main/java/com/sk89q/worldedit/fabric/fawe/NMSAdapter.java:36-41 | palette slots are in order of each state's first occurrence |
| Palette.FirstSeenExtends | worldedit-fabric/src/main/java/com/sk89q/worldedit/fabric/fawe/NMSAdapter.java:27-42 | the palette of a prefix is a prefix of the palette: slots once given are never renumbered |
| Palette.PaletteBounded | worldedit-fabric/src/main/java/com/sk89q/worldedit/fabric/fawe/NMSAdapter.java:36-41 | the palette never has more entries than the registry has states |
| Palette.TrackedLookup | worldedit-fabric/src/main/java/com/sk89q/worldedit/fabric/fawe/NMSAdapter.java:36-41 | for a state already seen, `blockToPalette` gives a slot below `num_palette` whose `paletteToBlock` entry is that state |
| Palette.Insert | worldedit-fabric/src/main/java/com/sk89q/worldedit/fabric/fawe/NMSAdapter.java:36-41 | after one lookup-or-insert, the two tables and the counter describe the palette extended by the state, if it is new |
| Palette.ReadEntry | worldedit-fabric/src/main/java/com/sk89q/worldedit/fabric/fawe/NMSAdapter.java:28-35 | the ordinal used is the normalised entry, and the entry counts as air exactly when it is the placeholder or an air |
| Palette.ReadPass | worldedit-fabric/src/main/java/com/sk89q/worldedit/fabric/fawe/NMSAdapter.java:25-42 | after the first loop the tables describe the first-seen palette of the normalised section, and `nonAir` is 4096 minus the air count |
| Palette.Translate | worldedit-fabric/src/main/java/com/sk89q/worldedit/fabric/fawe/NMSAdapter.java:43-59 | up to 256 states: each `blocksCopy[i]` is a slot below `num_palette` whose palette entry is the normalised entry `i`; more states: `paletteToBlock` starts with the id-to-state table and `blocksCopy[i]` is the entry's global id |
| Palette.CreatePalette | worldedit-fabric/src/main/java/com/sk89q/worldedit/fabric/fawe/NMSAdapter.java:17-65 | the returned count is the number of distinct normalised states, the tables encode the section losslessly as above, and `nonAir` is 4096 minus the air count |
| Palette.MergeEntry | worldedit-fabric/src/main/java/com/sk89q/worldedit/fabric/fawe/NMSAdapter.java:81-102 | a placeholder entry is replaced in the set array by the existing array's entry, itself mapped from placeholder to `AIR`; other entries are kept |
| Palette.Merge | worldedit-fabric/src/main/java/com/sk89q/worldedit/fabric/fawe/NMSAdapter.java:83-100 | the merged array keeps the backing and contains no placeholder |
| Palette.MergeIsOverlay | worldedit-fabric/src/main/java/com/sk89q/worldedit/fabric/fawe/NMSAdapter.java:83-100 | set entries win, placeholders show the existing entry (or `AIR`), and a set array without placeholders is returned unchanged |
| Palette.MergeIdempotent | worldedit-fabric/src/main/java/com/sk89q/worldedit/fabric/fawe/NMSAdapter.java:83-100 | merging an already merged array with the same existing array changes nothing |
| Palette.MergePass | worldedit-fabric/src/main/java/com/sk89q/worldedit/fabric/fawe/NMSAdapter.java:77-110 | the first loop of the second overload writes the merge into the set array and leaves the tables describing the merged array's first-seen palette, with the matching non-air count |
| Palette.CreatePaletteMerging | worldedit-fabric/src/main/java/com/sk89q/worldedit/fabric/fawe/NMSAdapter.java:67-133 | the set array becomes the merge, and the count, tables and `nonAir` encode the merged array losslessly |
| Palette.NoPlaceholderMeansNoMerge | worldedit-fabric/src/main/java/com/sk89q/worldedit/fabric/fawe/NMSAdapter.java:80-103 | without placeholders the existing array is never consulted: both overloads see the same entries |
| ChunkSection.BuildPalette | worldedit-fabric/src/main/java/com/sk89q/worldedit/fabric/fawe/FabricPlatformAdapter.java:205-210 | without a getter the section is encoded as is; with one it is first merged; either way the tables encode the written section losslessly |
| ChunkSection.PaletteSize | worldedit-fabric/src/main/java/com/sk89q/worldedit/fabric/fawe/FabricPlatformAdapter.java:205-212 | a section has between 1 and `StateCount` distinct states, so `num_palette - 1` is never negative |
| ChunkSection.EntriesFit | worldedit-fabric/src/main/java/com/sk89q/worldedit/fabric/fawe/FabricPlatformAdapter.java:212-229 | every palette index or global id in `blocksCopy` fits in the chosen width |
| ChunkSection.PackWords | worldedit-fabric/src/main/java/com/sk89q/worldedit/fabric/fawe/FabricPlatformAdapter.java:222-231 | given a word buffer of at least `blockBitArrayEnd` words, a single state yields `blockBitArrayEnd` zero words; otherwise the words are the packing of the 4096 entries at the non-zero width |
| ChunkSection.EmitPalette | worldedit-fabric/src/main/java/com/sk89q/worldedit/fabric/fawe/FabricPlatformAdapter.java:238-249 | up to 8 bits: the list is the palette in first-seen order, and every used `blockToPalette` slot is back to the sentinel; otherwise the list is empty and the table is untouched |
| ChunkSection.SingleState | worldedit-fabric/src/main/java/com/sk89q/worldedit/fabric/fawe/FabricPlatformAdapter.java:222-225 | with one distinct state the palette is exactly that entry's state, so zero words lose nothing |
| ChunkSection.DecodeZero | worldedit-fabric/src/main/java/com/sk89q/worldedit/fabric/fawe/FabricPlatformAdapter.java:233-234 | zero-bit storage reads every index as palette entry 0 |
| ChunkSection.GlobalEntry | worldedit-fabric/src/main/java/com/sk89q/worldedit/fabric/fawe/NMSAdapter.java:43-59 | with more than 256 states each entry's global id maps back to its state through the id tables |
| ChunkSection.LocalEntry | worldedit-fabric/src/main/java/com/sk89q/worldedit/fabric/fawe/NMSAdapter.java:52-59 | with up to 256 states each entry's index selects its state in the first-seen palette |
| ChunkSection.RoundTrip | worldedit-fabric/src/main/java/com/sk89q/worldedit/fabric/fawe/FabricPlatformAdapter.java:231-249 | the game reading index `i` of the built storage and palette gets the normalised entry `i` |
| ChunkSection.RoundTripAll | worldedit-fabric/src/main/java/com/sk89q/worldedit/fabric/fawe/FabricPlatformAdapter.java:231-249 | the same for all 4096 indices |
| ChunkSection.Encode | worldedit-fabric/src/main/java/com/sk89q/worldedit/fabric/fawe/FabricPlatformAdapter.java:212-249 | the section handed to the game decodes to the encoded entries, has zero-bit storage exactly for one state, `blockBitArrayEnd` words otherwise, and a palette list exactly when bits are below 9 |
| ChunkSection.Restore | worldedit-fabric/src/main/java/com/sk89q/worldedit/fabric/fawe/FabricPlatformAdapter.java:275-280 | the `finally` block leaves all four scratch buffers at their sentinel or zero state, sizes unchanged, whatever they held |
| ChunkSection.NewChunkSection | worldedit-fabric/src/main/java/com/sk89q/worldedit/fabric/fawe/FabricPlatformAdapter.java:200-280 | the section produced for a layer decodes, index by index, to the written (merged, if a getter exists) section with the placeholder read as `AIR`; its storage and palette have the shape the width rules give; the scratch buffers come back clean |
| GetCopy.Create | worldedit-fabric/src/main/java/com/sk89q/worldedit/fabric/fawe/FabricGetBlocks_Copy.java:47-53 | the stored maximum is the exclusive build limit minus one; there is one empty slot per section of the world |
| GetCopy.MinSectionPosition | worldedit-fabric/src/main/java/com/sk89q/worldedit/fabric/fawe/FabricGetBlocks_Copy.java:137-140 | the lowest position is the section holding the lowest level |
| GetCopy.MaxSectionPosition | worldedit-fabric/src/main/java/com/sk89q/worldedit/fabric/fawe/FabricGetBlocks_Copy.java:132-135 | the highest position is the section holding the highest level, the build limit minus one |
| GetCopy.SectionRangeMatchesSlots | worldedit-fabric/src/main/java/com/sk89q/worldedit/fabric/fawe/FabricGetBlocks_Copy.java:132-140 | for section-aligned heights the positions from min to max are exactly the slots, and every level of the world lands in one |
| GetCopy.StoreSection | worldedit-fabric/src/main/java/com/sk89q/worldedit/fabric/fawe/FabricGetBlocks_Copy.java:167-169 | the raw slot `layer` receives the array and nothing else changes; a slot outside the array throws |
| GetCopy.Load | worldedit-fabric/src/main/java/com/sk89q/worldedit/fabric/fawe/FabricGetBlocks_Copy.java:202-213 | `load` and `loadIfPresent` succeed exactly for positions within the slots, counted from the lowest section, and throw otherwise |
| GetCopy.StoreThenLoad | worldedit-fabric/src/main/java/com/sk89q/worldedit/fabric/fawe/FabricGetBlocks_Copy.java:202-206 | what `storeSection` put in raw slot `k` is what `load` returns for position `k + minSectionPosition`, null included |
| GetCopy.StoreKeepsOtherLoads | worldedit-fabric/src/main/java/com/sk89q/worldedit/fabric/fawe/FabricGetBlocks_Copy.java:167-169 | storing one slot leaves the load of every other position unchanged |
| GetCopy.HasSection | worldedit-fabric/src/main/java/com/sk89q/worldedit/fabric/fawe/FabricGetBlocks_Copy.java:193-200 | within the slots the answer is always true and the snapshot stays well formed; outside them it throws |
| GetCopy.HasSectionThenLoad | worldedit-fabric/src/main/java/com/sk89q/worldedit/fabric/fawe/FabricGetBlocks_Copy.java:193-200 | afterwards the position loads an array: the old one if present, else one reading `AIR` everywhere; no other position changes |
| GetCopy.HasSectionIdempotent | worldedit-fabric/src/main/java/com/sk89q/worldedit/fabric/fawe/FabricGetBlocks_Copy.java:193-200 | a second `hasSection` answers true and changes nothing |
| GetCopy.Get | worldedit-fabric/src/main/java/com/sk89q/worldedit/fabric/fawe/FabricGetBlocks_Copy.java:240-244 | succeeds exactly when the level's section loads an array; otherwise it is an index error outside the slots and a null dereference on an empty slot |
| GetCopy.GetIndexIsBlockIndex | worldedit-fabric/src/main/java/com/sk89q/worldedit/fabric/fawe/FabricGetBlocks_Copy.java:242 | for local `x` and `z`, the shift-and-OR index equals the weighted digit sum |
| GetCopy.StoreThenGet | worldedit-fabric/src/main/java/com/sk89q/worldedit/fabric/fawe/FabricGetBlocks_Copy.java:240-244 | after storing an array for a level's section, `get` returns that array's entry at `(y & 15) * 256 + z * 16 + x` |
| GetCopy.HasSectionThenGet | worldedit-fabric/src/main/java/com/sk89q/worldedit/fabric/fawe/FabricGetBlocks_Copy.java:193-200 | every block of a section made present by `hasSection` reads as `AIR` |
| SetBlocks.NewOverlay | worldedit-core/src/main/java/com/fastasyncworldedit/core/queue/implementation/blocks/DataArraySetBlocks.java:47-50 | a new overlay covers layers 0 to 15, all `EMPTY` with no array, satisfies the invariant and is empty |
| SetBlocks.ResizeSectionsArrays | worldedit-core/src/main/java/com/fastasyncworldedit/core/queue/implementation/blocks/DataArraySetBlocks.java:416-448 | every parallel array grows by `diff`; old entries move to `+diff` when prepending and stay when appending; new slots are `EMPTY`, null, fresh locks, null light rows and fresh 64-cell biome rows; side collections are untouched |
| SetBlocks.GrownLocksDistinct | worldedit-core/src/main/java/com/fastasyncworldedit/core/queue/implementation/blocks/DataArraySetBlocks.java:426-429 | after growth with fresh locks numbered from the counter, the locks are still pairwise distinct and all below the advanced counter |
| SetBlocks.ResizeKeepsSections | worldedit-core/src/main/java/com/fastasyncworldedit/core/queue/implementation/blocks/DataArraySetBlocks.java:416-432 | read by logical layer, each old layer keeps its tag, array and lock after the resize; new layers are `EMPTY`, with no array and a fresh lock |
| SetBlocks.ResizeKeepsRows | worldedit-core/src/main/java/com/fastasyncworldedit/core/queue/implementation/blocks/DataArraySetBlocks.java:433-447 | read by logical layer, each old layer keeps its biome, light and sky-light rows; new layers get a fresh biome row (if biomes exist) and null light rows |
| SetBlocks.PrependLayers | worldedit-core/src/main/java/com/fastasyncworldedit/core/queue/implementation/blocks/DataArraySetBlocks.java:403-407 | lowering the minimum by `diff` keeps the invariant and every layer's data at the same logical layer |
| SetBlocks.AppendLayers | worldedit-core/src/main/java/com/fastasyncworldedit/core/queue/implementation/blocks/DataArraySetBlocks.java:408-412 | raising the maximum by `diff` keeps the invariant and every layer's data at the same logical layer |
| SetBlocks.UpdateSectionIndexRange | worldedit-core/src/main/java/com/fastasyncworldedit/core/queue/implementation/blocks/DataArraySetBlocks.java:402-414 | afterwards `min <= layer <= max` and `sectionCount == max - min + 1`; the range grows just enough, and not at all when the layer is already covered |
| SetBlocks.UpdateKeepsSections | worldedit-core/src/main/java/com/fastasyncworldedit/core/queue/implementation/blocks/DataArraySetBlocks.java:402-414 | growth keeps every old layer's tag, array, lock, biome row and light rows |
| SetBlocks.UpdateKeepsLayer | worldedit-core/src/main/java/com/fastasyncworldedit/core/queue/implementation/blocks/DataArraySetBlocks.java:402-414 | the same, read at one layer: an old layer keeps its data, a new one is `EMPTY` with no array |
| SetBlocks.GrowTwiceKeepsLayer | worldedit-core/src/main/java/com/fastasyncworldedit/core/queue/implementation/blocks/DataArraySetBlocks.java:402-414 | two growths in a row still keep every original layer's tag and array |
| SetBlocks.GrowthOrderIrrelevant | worldedit-core/src/main/java/com/fastasyncworldedit/core/queue/implementation/blocks/DataArraySetBlocks.java:402-414 | growing to two layers in either order gives the same range and the same tags and arrays |
| SetBlocks.SetBlocksAt | worldedit-core/src/main/java/com/fastasyncworldedit/core/queue/implementation/blocks/DataArraySetBlocks.java:116-121 | a null array tags the layer `EMPTY`, any other tags it `FULL`; the layer then holds exactly that array |
| SetBlocks.SetBlocksAtFrame | worldedit-core/src/main/java/com/fastasyncworldedit/core/queue/implementation/blocks/DataArraySetBlocks.java:116-121 | every other layer, every lock, biome and light row, and every side collection are unchanged |
| SetBlocks.SetBiome | worldedit-core/src/main/java/com/fastasyncworldedit/core/queue/implementation/blocks/DataArraySetBlocks.java:94-105 | the biome grid exists afterwards; the layer's row (freshly allocated if it was null) has only the cell of `(x, y, z)` set to the biome |
| SetBlocks.SetBiomeFrame | worldedit-core/src/main/java/com/fastasyncworldedit/core/queue/implementation/blocks/DataArraySetBlocks.java:94-105 | other layers' biome rows, all tags, arrays, locks and light rows, and the side collections are unchanged |
| SetBlocks.SetBlockLight | worldedit-core/src/main/java/com/fastasyncworldedit/core/queue/implementation/blocks/DataArraySetBlocks.java:140-153 | the layer's row, first allocated as all 16 if null, has exactly the position's index set to `value` as a char |
| SetBlocks.SetBlockLightFrame | worldedit-core/src/main/java/com/fastasyncworldedit/core/queue/implementation/blocks/DataArraySetBlocks.java:140-153 | every other light row and everything else is unchanged |
| SetBlocks.SetSkyLight | worldedit-core/src/main/java/com/fastasyncworldedit/core/queue/implementation/blocks/DataArraySetBlocks.java:156-169 | as `SetBlockLight`, on the sky-light grid |
| SetBlocks.SetSkyLightFrame | worldedit-core/src/main/java/com/fastasyncworldedit/core/queue/implementation/blocks/DataArraySetBlocks.java:156-169 | every other sky-light row and everything else is unchanged |
| SetBlocks.SetLightLayer | worldedit-core/src/main/java/com/fastasyncworldedit/core/queue/implementation/blocks/DataArraySetBlocks.java:180-187 | the light grid exists afterwards and the layer's row is the given one, null included |
| SetBlocks.SetLightLayerFrame | worldedit-core/src/main/java/com/fastasyncworldedit/core/queue/implementation/blocks/DataArraySetBlocks.java:180-187 | other light rows and everything else are unchanged |
| SetBlocks.SetSkyLightLayer | worldedit-core/src/main/java/com/fastasyncworldedit/core/queue/implementation/blocks/DataArraySetBlocks.java:190-197 | the sky-light grid exists afterwards and the layer's row is the given one, null included |
| SetBlocks.SetSkyLightLayerFrame | worldedit-core/src/main/java/com/fastasyncworldedit/core/queue/implementation/blocks/DataArraySetBlocks.java:190-197 | other sky-light rows and everything else are unchanged |
| SetBlocks.RemoveSectionLighting | worldedit-core/src/main/java/com/fastasyncworldedit/core/queue/implementation/blocks/DataArraySetBlocks.java:210-229 | the layer's block-light row is all 0, and so is its sky-light row when `sky` is set |
| SetBlocks.RemoveSectionLightingFrame | worldedit-core/src/main/java/com/fastasyncworldedit/core/queue/implementation/blocks/DataArraySetBlocks.java:210-229 | other rows, and the sky-light grid when `sky` is not set, are unchanged |
| SetBlocks.SetFullBright | worldedit-core/src/main/java/com/fastasyncworldedit/core/queue/implementation/blocks/DataArraySetBlocks.java:232-249 | both light rows of the layer are all 15 |
| SetBlocks.SetFullBrightFrame | worldedit-core/src/main/java/com/fastasyncworldedit/core/queue/implementation/blocks/DataArraySetBlocks.java:232-249 | other layers' rows and everything else are unchanged |
| SetBlocks.SetTile | worldedit-core/src/main/java/com/fastasyncworldedit/core/queue/implementation/blocks/DataArraySetBlocks.java:130-137 | the tile map exists afterwards and maps the position to the tag; other positions and the other collections are unchanged |
| SetBlocks.SetTileFrame | worldedit-core/src/main/java/com/fastasyncworldedit/core/queue/implementation/blocks/DataArraySetBlocks.java:130-137 | the range growth it causes keeps every layer's data |
| SetBlocks.SetHeightMap | worldedit-core/src/main/java/com/fastasyncworldedit/core/queue/implementation/blocks/DataArraySetBlocks.java:172-177 | the map now maps the kind to the height map; other kinds, the range and all section data are unchanged |
| SetBlocks.SetEntity | worldedit-core/src/main/java/com/fastasyncworldedit/core/queue/implementation/blocks/DataArraySetBlocks.java:257-262 | the entity set is the old one (or none) plus the tag; the range and everything else are unchanged |
| SetBlocks.RemoveEntity | worldedit-core/src/main/java/com/fastasyncworldedit/core/queue/implementation/blocks/DataArraySetBlocks.java:265-270 | the removal set is the old one (or none) plus the UUID; the range and everything else are unchanged |
| SetBlocks.IsEmptyMeansNothingTagged | worldedit-core/src/main/java/com/fastasyncworldedit/core/queue/implementation/blocks/DataArraySetBlocks.java:292-311 | `isEmpty` holds if and only if there is no side data and every layer in `[min, max]` is tagged `EMPTY` |
| SetBlocks.SideEditsAreNotEmpty | worldedit-core/src/main/java/com/fastasyncworldedit/core/queue/implementation/blocks/DataArraySetBlocks.java:292-301 | after any biome, light, tile, entity, entity-removal or height-map edit, whatever value, row (null included), tag, UUID or map it writes, `isEmpty` is false |
| SetBlocks.SetBlocksAtEmptiness | worldedit-core/src/main/java/com/fastasyncworldedit/core/queue/implementation/blocks/DataArraySetBlocks.java:292-311 | storing an array makes the overlay non-empty; storing null into an empty overlay keeps it empty |
| SetBlocks.GrowthKeepsEmpty | worldedit-core/src/main/java/com/fastasyncworldedit/core/queue/implementation/blocks/DataArraySetBlocks.java:424-429 | new layers are tagged `EMPTY`, so growing an empty overlay keeps it empty |
| SetBlocks.Reset | worldedit-core/src/main/java/com/fastasyncworldedit/core/queue/implementation/blocks/DataArraySetBlocks.java:313-324 | after `reset` the overlay is empty; range, arrays, locks and flags are kept |
| SetBlocks.ResetHasNoBiomes | worldedit-core/src/main/java/com/fastasyncworldedit/core/queue/implementation/blocks/DataArraySetBlocks.java:313-324 | after `reset` no layer reports biomes |
| SetBlocks.HasBiomes | worldedit-core/src/main/java/com/fastasyncworldedit/core/queue/implementation/blocks/DataArraySetBlocks.java:326-333 | true if and only if the layer is in range and has a biome row |
| SetBlocks.SetBiomeHasBiomes | worldedit-core/src/main/java/com/fastasyncworldedit/core/queue/implementation/blocks/DataArraySetBlocks.java:326-333 | after `setBiome`, `hasBiomes` reports the written layer |
| SetBlocks.GrowthAllocatesBiomeRows | worldedit-core/src/main/java/com/fastasyncworldedit/core/queue/implementation/blocks/DataArraySetBlocks.java:433-437 | once a biome grid exists, every layer added by growth has an all-null 64-cell row, so `hasBiomes` reports it |
| SetBlocks.CopyBlocks | worldedit-core/src/main/java/com/fastasyncworldedit/core/queue/implementation/blocks/DataArraySetBlocks.java:337-342 | copying the arrays succeeds exactly when all have the process-wide backing, and the copies equal the originals |
| SetBlocks.CopyRows | worldedit-core/src/main/java/com/fastasyncworldedit/core/queue/implementation/blocks/DataArraySetBlocks.java:343-354 | a null grid copies to null; otherwise the copy has `sectionCount` rows equal to the original's |
| SetBlocks.CreateLightCopy | worldedit-core/src/main/java/com/fastasyncworldedit/core/queue/implementation/blocks/DataArraySetBlocks.java:375-388 | a null light grid copies to null; otherwise every row, null or not, reads the same in the copy |
| SetBlocks.CreateCopy | worldedit-core/src/main/java/com/fastasyncworldedit/core/queue/implementation/blocks/DataArraySetBlocks.java:336-373 | the snapshot has the same range, section count, arrays, biome and light rows and side collections, with `__RESERVED__` as default ordinal; it fails exactly when an array has the other backing |

## Left out

- Object pooling (`POOL`, `newInstance`, `recycle`) and `QueueHelper`: they concern reuse across threads, not content.
- The superclass `DataArrayBlocks` is not part of this model. Its behaviour is assumed:
  - `hasSection` means "in range and tagged `FULL`".
  - The constructor `super(0, 15)` makes sixteen `EMPTY` layers with no arrays.
  - `reset` tags every layer `EMPTY`.
- `DataArraySetBlocks.setBlock` and `load`: both go through `DataArrayBlocks.set`/`load`, which are not part of this model. Only the range growth they start is modelled, as `UpdateSectionIndexRange`.
- The getters that only return fields or an empty collection for null: `getBiomes`, `getTiles`, `getEntities`, `getHeightMaps`, `getLight`, `getBiomeType`.
- `setFastMode`, `setBitMask` and their getters: they are plain field stores. The two fields are kept in the overlay and copied.
- `SetBlocks.SetTile`: the tile map is allocated after the range growth instead of before. Growth never touches tiles, so the result is the same.
- Light rows are values, so a row passed to `setLightLayer` is not shared with the caller's array as in Java.
- `SetBlocks.SetLightLayer`: requires a 4096-entry row of char values or null. Java accepts any `char[]`. The overlay invariant keeps every stored light row at 4096 entries, which `setBlockLight` relies on when it indexes the row. A shorter row stored in Java makes a later `setBlockLight` throw, and the model does not represent that state.
- `SetBlocks.SetLightLayerFrame`: inherits the 4096-entry row requirement of `SetLightLayer`.
- `SetBlocks.SetSkyLightLayer`: requires a 4096-entry row of char values or null. Java's `skyLight[layer] = toSet` accepts any `char[]`. The reason is the one given for `SetLightLayer`, with `setSkyLight` as the later write.
- `SetBlocks.SetSkyLightLayerFrame`: inherits the 4096-entry row requirement of `SetSkyLightLayer`.
- `SetBlocks.GrowthOrderIrrelevant`: states the equality of tags and arrays only. Lock ids depend on the order of growth.
- `DataArrays.SetAt` and `DataArrays.SetRange`: out-of-range indices throw in Java. Here they are a precondition, not an error result.
- Integer widths:
  - The int32 overflow of `sectionCount += diff`, of `(y >> 4) - minSectionPosition` and of `getMaxBuildHeight() - 1` is not modelled. Layers are unbounded integers.
  - `short nonAir` is modelled as an unbounded integer. It never leaves 0..4096.
- Palettes:
  - The `nonEmptyBlockCount` out-parameter is not modelled. `newChunkSection` passes null. The count is returned as `nonAir`, and nothing is stored when the array is null.
  - The second `createPalette` overload calls its getter lazily, on the first placeholder entry. Here the existing array is given up front. A getter returning null (a `NullPointerException` in Java) is not modelled.
- `BitWidth.BitsPerEntry`: requires `numPalette <= registrySize`. A section's states are always drawn from the registry.
- `BitArrayUnstretched` is not part of this model. The packed layout is an assumption (see above).
- `floorZero` and `ceilZero` go through `double`/`float`. The model uses integer floor and ceiling division instead. The rounded quotients `64.0 / w` (w at most 64) and `4096f / b` (b at most 64) are not always exact, for example `4096f / 21`. But an exact quotient with a denominator of at most 64 is either a whole number, which both types represent exactly, or at least 1/64 away from one. That is far more than the rounding error, so the floor and ceiling of the rounded quotient equal those of the exact one.
- The game objects (`SimpleBitStorage`, `ZeroBitStorage`, `PalettedContainer`, `LevelChunkSection`), state transmogrification and the biome container built at lines 261-270 are not modelled. The section is an `EncodedSection` and is read back with `ChunkSection.Decode`.
- `newChunkSection` with `set == null` (lines 197-198) takes a different path that only builds biomes. It is not modelled.
- Exceptions thrown between the scratch-buffer borrow and the `finally` block are not modelled. `Restore` states the `finally` block's effect for any buffer contents.
- The game registry's id tables are parameters (`Palette.IdTables`), assumed mutually inverse, and `getSectionCount()` is a parameter of `GetCopy.Create`.
- Tiles, entities, biomes (`storeBiomes`, `getBiomeType`) and the constant getters of `FabricGetBlocks_Copy`: only the section store is modelled.
- `GetCopy.Get`: requires `0 <= x, z < 16`. For other values Java's unmasked `z << 4 | x` reads a different index, or throws.
- `GetCopy.StoreSection` writes the raw slot `layer` while `load` subtracts the lowest section. The callers, which decide which index they pass, are not part of this model. `StoreThenLoad` states the relation between the two.

=== FILE: bit_width.dfy ===
/** Bit-width arithmetic of the section encoder: `MathMan.log2nlz`, the
    bits-per-entry banding, and how many entries and words a packed section
    takes. */
module BitWidth {

  /** 2 to the power `n`. */
  function Pow2(n: nat): (p: nat)
    ensures p >= 1
  {
    if n == 0 then 1 else 2 * Pow2(n - 1)
  }

  lemma {:induction false} Pow2Add(a: nat, b: nat)
    ensures Pow2(a + b) == Pow2(a) * Pow2(b)
    decreases a
  {
    if a > 0 {
      Pow2Add(a - 1, b);
      assert Pow2(a + b) == 2 * Pow2(a - 1 + b);
    }
  }

  lemma {:induction false} Pow2Monotone(a: nat, b: nat)
    requires a <= b
    ensures Pow2(a) <= Pow2(b)
    decreases b
  {
    if a < b {
      Pow2Monotone(a, b - 1);
    }
  }

  /** `MathMan.log2nlz(x)`, i.e. `32 - Integer.numberOfLeadingZeros(x)`: the
      number of significant bits of `x`, and 0 for 0. The two bounds say
      `n` is the unique width with `2^(n-1) <= x < 2^n`. */
  function BitLength(x: nat): (n: nat)
    ensures x < Pow2(n)
    ensures x > 0 ==> n >= 1 && Pow2(n - 1) <= x
    ensures x == 0 <==> n == 0
  {
    if x == 0 then 0 else 1 + BitLength(x / 2)
  }

  /** The bounds pin the width down: any `n` with `2^(n-1) <= x < 2^n` is it. */
  lemma BitLengthUnique(x: nat, n: nat)
    requires x < Pow2(n)
    requires n >= 1 ==> Pow2(n - 1) <= x
    ensures BitLength(x) == n
  {
    var m := BitLength(x);
    if m < n {
      Pow2Monotone(m, n - 1);
    } else if m > n {
      Pow2Monotone(n, m - 1);
    }
  }

  /** More values never need fewer bits. */
  lemma BitLengthMonotone(x: nat, y: nat)
    requires x <= y
    ensures BitLength(x) <= BitLength(y)
  {
  }

  /** Values of a 64-bit word, read as unsigned. */
  const WordBound: nat := 0x1_0000_0000_0000_0000

  lemma Pow2Of8()
    ensures Pow2(8) == 256
  {
    assert Pow2(2) == 4;
    assert Pow2(4) == 16 by { Pow2Add(2, 2); }
    Pow2Add(4, 4);
  }

  lemma Pow2Of32()
    ensures Pow2(32) == 0x1_0000_0000
  {
    Pow2Of8();
    Pow2Add(8, 8);
    Pow2Add(16, 16);
  }

  lemma Pow2Of64()
    ensures Pow2(64) == WordBound
  {
    Pow2Of32();
    Pow2Add(32, 32);
  }

  lemma Pow2Of31()
    ensures Pow2(31) == 0x8000_0000
  {
    Pow2Of8();
    Pow2Add(8, 8);
    Pow2Add(16, 8);
    assert Pow2(7) == 128 by { Pow2Add(4, 3); Pow2Add(2, 2); assert Pow2(3) == 8; assert Pow2(2) == 4; }
    Pow2Add(24, 7);
  }

  /** A Java `int` has at most 31 significant bits. */
  lemma BitLengthOfInt(x: nat)
    requires x < 0x8000_0000
    ensures BitLength(x) <= 31
  {
    Pow2Of31();
    if BitLength(x) > 31 {
      Pow2Monotone(31, BitLength(x) - 1);
    }
  }

  /** A section with more than 256 distinct states does not fit an indirect
      palette of at most 8 bits: this is the "global palette" condition
      `log2nlz(numPalette - 1) > 8`. */
  predicate UsesGlobalPalette(numPalette: nat) {
    numPalette > 256
  }

  lemma GlobalPaletteThreshold(numPalette: nat)
    requires numPalette >= 1
    ensures BitLength(numPalette - 1) > 8 <==> UsesGlobalPalette(numPalette)
  {
    Pow2Of8();
    var n := BitLength(numPalette - 1);
    if n > 8 {
      Pow2Monotone(8, n - 1);
    } else {
      Pow2Monotone(n, 8);
    }
  }

  function Max(a: int, b: int): int {
    if a < b then b else a
  }

  /** Bits per packed entry for a section whose palette has `numPalette`
      entries, drawn from a registry of `registrySize` states: 0 for a single
      state, the indirect-palette width raised to at least 4 for up to 256
      states, else the width of a global registry id. */
  function BitsPerEntry(numPalette: nat, registrySize: nat): (bits: nat)
    requires 1 <= numPalette <= registrySize
    ensures bits == 0 <==> numPalette == 1
    ensures numPalette > 1 && !UsesGlobalPalette(numPalette) ==>
              4 <= bits <= 8 && numPalette <= Pow2(bits)
              && (bits == 4 || Pow2(bits - 1) < numPalette)
    ensures UsesGlobalPalette(numPalette) ==>
              8 < bits && registrySize <= Pow2(bits) && Pow2(bits - 1) < registrySize
  {
    GlobalPaletteThreshold(numPalette);
    BitLengthMonotone(numPalette - 1, registrySize - 1);
    var b := BitLength(numPalette - 1);
    if b > 0 && b < 5 then 4
    else if b > 8 then BitLength(registrySize - 1)
    else b
  }

  /** `max(bits, 1)`: the width actually used when packing. */
  function NonZero(bits: nat): (w: nat)
    ensures w >= 1 && (bits >= 1 ==> w == bits)
  {
    Max(bits, 1)
  }

  /** `floorZero(64.0 / max(bits, 1))`: entries that fit whole in one 64-bit
      word; an entry never straddles two words. */
  function BlocksPerLong(bits: nat): (bpl: nat)
    requires bits <= 64
    ensures 1 <= bpl <= 64
    ensures bpl * NonZero(bits) <= 64 < (bpl + 1) * NonZero(bits)
  {
    64 / NonZero(bits)
  }

  /** `ceilZero(4096f / blocksPerLong)`: the fewest words that hold 4096
      entries at that density. */
  function WordCount(bits: nat): (words: nat)
    requires bits <= 64
    ensures words * BlocksPerLong(bits) >= 4096
    ensures (words - 1) * BlocksPerLong(bits) < 4096
  {
    var bpl := BlocksPerLong(bits);
    (4096 + bpl - 1) / bpl
  }

  /** Any word count that holds a section is at least `WordCount`. */
  lemma WordCountIsLeast(bits: nat, words: nat)
    requires bits <= 64
    requires words * BlocksPerLong(bits) >= 4096
    ensures words >= WordCount(bits)
  {
  }

  /** A section never needs more than 4096 words (one entry per word at
      worst), and at most 2048 once entries are no wider than 32 bits, so
      that two of them share every word. */
  lemma WordCountBounded(bits: nat)
    requires bits <= 64
    ensures 64 <= WordCount(bits) <= 4096
    ensures bits <= 32 ==> WordCount(bits) <= 2048
  {
  }
}

=== FILE: block_ids.dfy ===
/** Reserved block-state ordinals and the local-coordinate arithmetic shared by
    every section-addressed structure. */
module BlockIds {

  /** The ordinals `BlockTypesCache.ReservedIDs` gives to the placeholder state
      and the three air states. */
  const Reserved: nat := 0
  const Air: nat := 1
  const CaveAir: nat := 2
  const VoidAir: nat := 3

  /** Blocks in one 16x16x16 section, and biome cells (4x4x4) per section. */
  const SectionSize: nat := 4096
  const BiomeCells: nat := 64

  /** `y >> 4` on a Java int: arithmetic shift, i.e. floor division by 16.
      Dafny's `/` by a positive divisor already rounds toward minus infinity. */
  function SectionOf(y: int): (layer: int)
    ensures layer * 16 <= y < layer * 16 + 16
  {
    y / 16
  }

  /** `v & 15` on a two's-complement int is the least non-negative residue mod 16. */
  function Low4(v: int): (r: nat)
    ensures r < 16
    ensures (v - r) % 16 == 0
  {
    v % 16
  }

  /** In-section block index `(y & 15) << 8 | (z & 15) << 4 | (x & 15)`; the
      three fields occupy disjoint bits, so the OR is their sum. */
  function BlockIndex(x: int, y: int, z: int): (i: nat)
    ensures i < SectionSize
    ensures i / 256 == Low4(y) && (i / 16) % 16 == Low4(z) && i % 16 == Low4(x)
  {
    Digits16(Low4(y), Low4(z), Low4(x));
    Low4(y) * 256 + Low4(z) * 16 + Low4(x)
  }

  /** Three base-16 digits are read back by division and remainder. */
  lemma Digits16(hi: nat, mid: nat, lo: nat)
    requires hi < 16 && mid < 16 && lo < 16
    ensures (hi * 256 + mid * 16 + lo) / 256 == hi
    ensures ((hi * 256 + mid * 16 + lo) / 16) % 16 == mid
    ensures (hi * 256 + mid * 16 + lo) % 16 == lo
  {
    var i := hi * 256 + mid * 16 + lo;
    assert i == 16 * (hi * 16 + mid) + lo;
    assert i / 16 == hi * 16 + mid;
  }

  /** Three base-4 digits are read back by division and remainder. */
  lemma Digits4(hi: nat, mid: nat, lo: nat)
    requires hi < 4 && mid < 4 && lo < 4
    ensures (hi * 16 + mid * 4 + lo) / 16 == hi
    ensures ((hi * 16 + mid * 4 + lo) / 4) % 4 == mid
    ensures (hi * 16 + mid * 4 + lo) % 4 == lo
  {
    var i := hi * 16 + mid * 4 + lo;
    assert i == 4 * (hi * 4 + mid) + lo;
    assert i / 4 == hi * 4 + mid;
  }

  /** In-section biome index `(y & 12) << 2 | (z & 12) | (x & 12) >> 2`:
      the upper two bits of each local coordinate, packed as y:z:x. */
  function BiomeIndex(x: int, y: int, z: int): (i: nat)
    ensures i < BiomeCells
    ensures i / 16 == Low4(y) / 4 && (i / 4) % 4 == Low4(z) / 4 && i % 4 == Low4(x) / 4
  {
    Digits4(Low4(y) / 4, Low4(z) / 4, Low4(x) / 4);
    (Low4(y) / 4) * 16 + (Low4(z) / 4) * 4 + Low4(x) / 4
  }

  /** Two positions share a block slot exactly when their local coordinates agree. */
  lemma BlockIndexInjective(x: int, y: int, z: int, x': int, y': int, z': int)
    ensures BlockIndex(x, y, z) == BlockIndex(x', y', z')
        <==> Low4(x) == Low4(x') && Low4(y) == Low4(y') && Low4(z) == Low4(z')
  {
  }

  /** Bit-level check of the index formulas on 32-bit words: for fields that
      fit their widths, shifting and OR-ing is the same as weighted addition. */
  lemma BlockIndexBitsAreSum(x: bv32, y: bv32, z: bv32)
    ensures ((y & 15) << 8) | ((z & 15) << 4) | (x & 15) == (y & 15) * 256 + (z & 15) * 16 + (x & 15)
    ensures (((y & 12) << 2) | (z & 12) | ((x & 12) >> 2)) == ((y & 15) / 4) * 16 + ((z & 15) / 4) * 4 + (x & 15) / 4
  {
  }
}

=== FILE: chunk_section.dfy ===
/** Encoding one section's block states for the game
    (`FabricPlatformAdapter.newChunkSection`, the path taken when there are
    blocks to write): build the palette, pick the entry width, pack the
    entries into 64-bit words, list the palette, and hand the borrowed
    scratch buffers back clean. */
module ChunkSection {
  import opened Wrappers
  import opened BlockIds
  import opened DataArrays
  import opened BitWidth
  import opened Packing
  import opened Palette

  /** The four per-thread scratch buffers `BLOCK_TO_PALETTE`,
      `PALETTE_TO_BLOCK`, `BLOCK_STATES` and `SECTION_BLOCKS`. */
  datatype Scratch = Scratch(
    blockToPalette: seq<int>,
    paletteToBlock: seq<int>,
    blockStates: seq<nat>,
    sectionBlocks: seq<int>)

  /** The most words a section can pack into: entries are never wider than
      31 bits, because the registry holds fewer than 2^31 states, so at
      least two share every word. */
  const MaxWords: nat := SectionSize / 2

  /** Room the scratch buffers must have before encoding; the width is not
      known yet, so the word buffer must hold the widest case. */
  predicate Sized(s: Scratch, tables: IdTables)
    requires tables.Valid()
  {
    && ScratchSized(s.blockToPalette, s.paletteToBlock, s.sectionBlocks, tables)
    && |s.blockStates| >= MaxWords
  }

  predicate SameSizes(s: Scratch, t: Scratch) {
    && |s.blockToPalette| == |t.blockToPalette|
    && |s.paletteToBlock| == |t.paletteToBlock|
    && |s.blockStates| == |t.blockStates|
    && |s.sectionBlocks| == |t.sectionBlocks|
  }

  /** The state every use expects to find: both index tables hold the
      `Integer.MAX_VALUE` sentinel, the word and entry buffers hold zeros. */
  predicate Clean(s: Scratch) {
    && AllUnseen(s.blockToPalette)
    && (forall k :: 0 <= k < |s.paletteToBlock| ==> s.paletteToBlock[k] == Unseen)
    && (forall k :: 0 <= k < |s.blockStates| ==> s.blockStates[k] == 0)
    && (forall k :: 0 <= k < |s.sectionBlocks| ==> s.sectionBlocks[k] == 0)
  }

  /** The `finally` block of `newChunkSection`: every buffer is refilled, whatever
      the encoding left in it. */
  function Restore(s: Scratch): (r: Scratch)
    ensures Clean(r) && SameSizes(r, s)
  {
    Scratch(
      seq(|s.blockToPalette|, _ => Unseen),
      seq(|s.paletteToBlock|, _ => Unseen),
      seq(|s.blockStates|, _ => 0),
      seq(|s.sectionBlocks|, _ => 0))
  }

  /** The game's storage of packed entries: none when every entry is 0,
      else `bits`-bit entries in `words`. */
  datatype BitStorage = ZeroBitStorage | SimpleBitStorage(bits: nat, words: seq<nat>)

  /** A section as handed to the game: its layer, its packed entries and its
      palette of state ordinals (empty when entries are global registry ids).
      The game objects themselves are not modelled. */
  datatype EncodedSection = EncodedSection(layer: int, storage: BitStorage, palette: seq<int>)

  /** The packed entry at index `i`, if the storage has one. */
  function EntryAt(st: BitStorage, i: nat): Option<nat> {
    match st
    case ZeroBitStorage => Some(0)
    case SimpleBitStorage(bits, words) =>
      if 1 <= bits <= 64 && i / BlocksPerLong(bits) < |words| then Some(Unpack(words, bits, i)) else None
  }

  /** The state the game reads at index `i`: through the palette when there
      is one, else through the registry. */
  function Decode(sec: EncodedSection, tables: IdTables, i: nat): Option<int> {
    match EntryAt(sec.storage, i)
    case None => None
    case Some(e) =>
      if |sec.palette| > 0 then (if e < |sec.palette| then Some(sec.palette[e]) else None)
      else if e < |tables.idToOrdinal| then Some(tables.idToOrdinal[e]) else None
  }

  /** `newChunkSection`'s choice of `createPalette` overload: the getter-free overload when there is no getter, else
      the merging one; `written` is the section as it stands afterwards. */
  method BuildPalette(existing: Option<DataArray>, section: DataArray, tables: IdTables, scratch: Scratch)
    returns (r: PaletteTables, written: DataArray)
    requires tables.Valid() && section.Valid()
    requires OrdinalsBelow(section.data, tables.StateCount())
    requires existing.Some? ==> && existing.value.Valid()
                                && existing.value.backing == section.backing
                                && OrdinalsBelow(existing.value.data, tables.StateCount())
    requires Sized(scratch, tables) && AllUnseen(scratch.blockToPalette)
    ensures written.Valid() && OrdinalsBelow(written.data, tables.StateCount())
    ensures existing.None? ==> written == section
    ensures existing.Some? ==> written == Merge(section, existing.value)
    ensures Encodes(r, NormaliseAll(written.data), tables)
    ensures |r.blockToPalette| == |scratch.blockToPalette| && |r.paletteToBlock| == |scratch.paletteToBlock|
    ensures |r.blocksCopy| == |scratch.sectionBlocks|
  {
    if existing.None? {
      r := CreatePalette(scratch.blockToPalette, scratch.paletteToBlock, scratch.sectionBlocks, section, tables);
      written := section;
    } else {
      r, written := CreatePaletteMerging(scratch.blockToPalette, scratch.paletteToBlock, scratch.sectionBlocks,
                                         existing.value, section, tables);
      NormaliseAllIdentity(written.data);
    }
  }

  /** A section has at least one state, and no more than the registry. */
  lemma PaletteSize(norm: seq<int>, n: nat)
    requires |norm| == SectionSize && OrdinalsBelow(norm, n)
    ensures 1 <= |FirstSeen(norm)| <= n
  {
    assert norm[0] in FirstSeen(norm);
    PaletteBounded(norm, n);
  }

  /** `newChunkSection`'s packing step: the words of the packed entries. With a single palette
      entry the words are zeroed instead of packed. */
  method PackWords(blocksCopy: seq<int>, numPalette: nat, bits: nat, blockStates: seq<nat>)
    returns (words: seq<nat>, states: seq<nat>)
    requires bits <= 64 && |blocksCopy| >= SectionSize && |blockStates| >= WordCount(bits)
    requires numPalette != 1 ==> FitsIn(blocksCopy[..SectionSize], NonZero(bits))
    ensures |words| == WordCount(bits) && |states| == |blockStates|
    ensures numPalette != 1 ==> words == Pack(blocksCopy[..SectionSize], NonZero(bits))
    ensures numPalette == 1 ==> forall k :: 0 <= k < |words| ==> words[k] == 0
  {
    var end := WordCount(bits);
    if numPalette == 1 {
      states := seq(end, _ => 0) + blockStates[end..];
    } else {
      var packed := Pack(blocksCopy[..SectionSize], NonZero(bits));
      PackedSectionLength(blocksCopy[..SectionSize], NonZero(bits));
      states := packed + blockStates[end..];
    }
    words := states[..end];
  }

  /** `newChunkSection`'s palette list: with at most 8 bits the palette lists the first
      `numPalette` states of `paletteToBlock` and resets each one's
      `blockToPalette` slot; wider entries need no palette. */
  method EmitPalette(blockToPalette: seq<int>, paletteToBlock: seq<int>, numPalette: nat, bits: nat,
                     ghost seen: seq<int>)
    returns (palette: seq<int>, b2p: seq<int>)
    requires bits < 9 ==> Tracks(blockToPalette, paletteToBlock, numPalette, seen)
    ensures bits < 9 ==> palette == seen && AllUnseen(b2p)
    ensures bits >= 9 ==> palette == [] && b2p == blockToPalette
    ensures |b2p| == |blockToPalette|
  {
    palette, b2p := [], blockToPalette;
    if bits < 9 {
      for k := 0 to numPalette
        invariant palette == seen[..k]
        invariant |b2p| == |blockToPalette|
        invariant forall o :: 0 <= o < |b2p| ==>
                    b2p[o] == if o in seen[..k] then Unseen else blockToPalette[o]
      {
        assert paletteToBlock[k] == seen[k];
        var ordinal := paletteToBlock[k];
        b2p := b2p[ordinal := Unseen];
        assert seen[..k + 1] == seen[..k] + [ordinal];
        palette := palette + [ordinal];
      }
      assert seen[..numPalette] == seen;
    }
  }

  /** Every entry of the packed array reads back as the state it encodes. */
  lemma RoundTrip(r: PaletteTables, norm: seq<int>, tables: IdTables, bits: nat, words: seq<nat>,
                  palette: seq<int>, layer: int, i: nat)
    requires tables.Valid()
    requires |norm| == SectionSize && OrdinalsBelow(norm, tables.StateCount())
    requires Encodes(r, norm, tables)
    requires 1 <= r.numPalette <= tables.StateCount()
    requires bits == BitsPerEntry(r.numPalette, tables.StateCount())
    requires bits <= 64 && i < SectionSize
    requires r.numPalette != 1 ==> FitsIn(r.blocksCopy[..SectionSize], NonZero(bits))
    requires r.numPalette != 1 ==> words == Pack(r.blocksCopy[..SectionSize], NonZero(bits))
    requires bits < 9 ==> palette == FirstSeen(norm)
    requires bits >= 9 ==> palette == []
    ensures Decode(EncodedSection(layer, if bits == 0 then ZeroBitStorage else SimpleBitStorage(bits, words), palette),
                   tables, i) == Some(norm[i])
  {
    var num := r.numPalette;
    var sec := EncodedSection(layer, if bits == 0 then ZeroBitStorage else SimpleBitStorage(bits, words), palette);
    if bits == 0 {
      SingleState(norm, i);
      DecodeZero(sec, tables, i);
    } else {
      PackedEntry(r.blocksCopy, bits, words, i);
      var e := r.blocksCopy[i];
      if !UsesGlobalPalette(num) {
        LocalEntry(r, norm, tables, palette, i);
      } else {
        GlobalEntry(r, norm, tables, i);
      }
      DecodePacked(sec, tables, i, e, norm[i]);
    }
  }

  /** A zero-bit storage reads entry 0 everywhere. */
  lemma DecodeZero(sec: EncodedSection, tables: IdTables, i: nat)
    requires sec.storage == ZeroBitStorage && |sec.palette| > 0
    ensures Decode(sec, tables, i) == Some(sec.palette[0])
  {
  }

  /** A packed entry `e` decodes through the palette, or through the
      registry when the palette is empty. */
  lemma DecodePacked(sec: EncodedSection, tables: IdTables, i: nat, e: int, v: int)
    requires sec.storage.SimpleBitStorage? && 1 <= sec.storage.bits <= 64
    requires i / BlocksPerLong(sec.storage.bits) < |sec.storage.words|
    requires Unpack(sec.storage.words, sec.storage.bits, i) == e
    requires |sec.palette| > 0 ==> 0 <= e < |sec.palette| && sec.palette[e] == v
    requires |sec.palette| == 0 ==> 0 <= e < |tables.idToOrdinal| && tables.idToOrdinal[e] == v
    ensures Decode(sec, tables, i) == Some(v)
  {
  }

  /** In the global case entry `i` is a registry id that maps back to its state. */
  lemma GlobalEntry(r: PaletteTables, norm: seq<int>, tables: IdTables, i: nat)
    requires tables.Valid()
    requires |norm| == SectionSize && OrdinalsBelow(norm, tables.StateCount())
    requires Encodes(r, norm, tables) && UsesGlobalPalette(r.numPalette)
    requires i < SectionSize
    ensures 0 <= r.blocksCopy[i] < |tables.idToOrdinal| && tables.idToOrdinal[r.blocksCopy[i]] == norm[i]
  {
  }

  /** With one distinct state, that state is every entry. */
  lemma SingleState(norm: seq<int>, i: nat)
    requires |FirstSeen(norm)| == 1 && i < |norm|
    ensures FirstSeen(norm) == [norm[i]]
  {
    assert norm[i] in FirstSeen(norm);
  }

  /** Entry `i` unpacks to the index written for it. */
  lemma PackedEntry(blocksCopy: seq<int>, bits: nat, words: seq<nat>, i: nat)
    requires 1 <= bits <= 64 && |blocksCopy| >= SectionSize && i < SectionSize
    requires FitsIn(blocksCopy[..SectionSize], bits)
    requires words == Pack(blocksCopy[..SectionSize], bits)
    ensures i / BlocksPerLong(bits) < |words| && Unpack(words, bits, i) == blocksCopy[i]
  {
    UnpackPack(blocksCopy[..SectionSize], bits, i);
  }

  /** In the local case the palette maps entry `i`'s index back to its state. */
  lemma LocalEntry(r: PaletteTables, norm: seq<int>, tables: IdTables, palette: seq<int>, i: nat)
    requires tables.Valid()
    requires |norm| == SectionSize && OrdinalsBelow(norm, tables.StateCount())
    requires Encodes(r, norm, tables) && !UsesGlobalPalette(r.numPalette)
    requires palette == FirstSeen(norm) && i < SectionSize
    ensures 0 <= r.blocksCopy[i] < |palette| && palette[r.blocksCopy[i]] == norm[i]
  {
    assert r.paletteToBlock[..r.numPalette] == palette;
  }

  /** The entries written in the local case index the palette, in the global
      case they are registry ids; either way they fit the chosen width. */
  lemma EntriesFit(r: PaletteTables, norm: seq<int>, tables: IdTables, bits: nat)
    requires tables.Valid()
    requires |norm| == SectionSize && OrdinalsBelow(norm, tables.StateCount())
    requires Encodes(r, norm, tables)
    requires 1 <= r.numPalette <= tables.StateCount()
    requires bits == BitsPerEntry(r.numPalette, tables.StateCount())
    requires r.numPalette != 1
    ensures FitsIn(r.blocksCopy[..SectionSize], NonZero(bits))
  {
    forall k | 0 <= k < SectionSize
      ensures 0 <= r.blocksCopy[k] < Pow2(bits)
    {
      if UsesGlobalPalette(r.numPalette) {
        assert r.blocksCopy[k] == tables.ordinalToId[norm[k]];
      }
    }
  }

  /** Every entry of `sec` reads back as the matching state of `norm`. */
  predicate DecodesTo(sec: EncodedSection, tables: IdTables, norm: seq<int>)
    requires |norm| == SectionSize
  {
    forall i :: 0 <= i < SectionSize ==> Decode(sec, tables, i) == Some(norm[i])
  }

  /** The shape the encoder gives a section with states `norm`: a zero-bit
      storage exactly when there is one state, else `bits`-bit entries in
      `WordCount(bits)` words; the palette lists the states in first-seen
      order when `bits` is at most 8 and is empty otherwise. */
  predicate Shaped(sec: EncodedSection, norm: seq<int>, stateCount: nat)
    requires 1 <= |FirstSeen(norm)| <= stateCount
  {
    var num := |FirstSeen(norm)|;
    var bits := BitsPerEntry(num, stateCount);
    && bits <= 31
    && (sec.storage == ZeroBitStorage <==> num == 1)
    && (sec.storage.SimpleBitStorage? ==>
          sec.storage.bits == bits && |sec.storage.words| == WordCount(bits))
    && sec.palette == (if bits < 9 then FirstSeen(norm) else [])
  }

  /** All entries round-trip (`RoundTrip` at every index). */
  lemma RoundTripAll(r: PaletteTables, norm: seq<int>, tables: IdTables, bits: nat, words: seq<nat>,
                     palette: seq<int>, layer: int)
    requires tables.Valid()
    requires |norm| == SectionSize && OrdinalsBelow(norm, tables.StateCount())
    requires Encodes(r, norm, tables)
    requires 1 <= r.numPalette <= tables.StateCount()
    requires bits == BitsPerEntry(r.numPalette, tables.StateCount())
    requires bits <= 64
    requires r.numPalette != 1 ==> FitsIn(r.blocksCopy[..SectionSize], NonZero(bits))
    requires r.numPalette != 1 ==> words == Pack(r.blocksCopy[..SectionSize], NonZero(bits))
    requires bits < 9 ==> palette == FirstSeen(norm)
    requires bits >= 9 ==> palette == []
    ensures DecodesTo(EncodedSection(layer, if bits == 0 then ZeroBitStorage else SimpleBitStorage(bits, words),
                                     palette), tables, norm)
  {
    var sec := EncodedSection(layer, if bits == 0 then ZeroBitStorage else SimpleBitStorage(bits, words), palette);
    forall i | 0 <= i < SectionSize
      ensures Decode(sec, tables, i) == Some(norm[i])
    {
      RoundTrip(r, norm, tables, bits, words, palette, layer, i);
    }
  }

  /** The middle of `newChunkSection`, from the palette tables to the section handed to the
      game. The packed words and the emptied `blockToPalette` are returned so
      the caller can restore the scratch buffers. */
  method Encode(layer: int, r: PaletteTables, ghost norm: seq<int>, tables: IdTables, blockStates: seq<nat>)
    returns (sec: EncodedSection, states: seq<nat>, b2p: seq<int>)
    requires tables.Valid()
    requires |norm| == SectionSize && OrdinalsBelow(norm, tables.StateCount())
    requires Encodes(r, norm, tables)
    requires |blockStates| >= MaxWords
    ensures 1 <= |FirstSeen(norm)| <= tables.StateCount()
    ensures sec.layer == layer
    ensures DecodesTo(sec, tables, norm)
    ensures Shaped(sec, norm, tables.StateCount())
    ensures |states| == |blockStates| && |b2p| == |r.blockToPalette|
  {
    var n := tables.StateCount();
    var num := r.numPalette;
    PaletteSize(norm, n);
    BitLengthOfInt(n - 1);
    var bits := BitsPerEntry(num, n);
    WordCountBounded(bits);
    if num != 1 {
      EntriesFit(r, norm, tables, bits);
    }
    var words;
    words, states := PackWords(r.blocksCopy, num, bits, blockStates);
    var storage := if bits == 0 then ZeroBitStorage else SimpleBitStorage(bits, words);
    var palette;
    palette, b2p := EmitPalette(r.blockToPalette, r.paletteToBlock, num, bits, FirstSeen(norm));
    sec := EncodedSection(layer, storage, palette);
    RoundTripAll(r, norm, tables, bits, words, palette, layer);
  }

  /** `newChunkSection` for a section with blocks: encode `section` (merged with `existing` when a getter
      supplies one) using and then restoring the scratch buffers. Reading
      the result back gives every entry of the written section, with the
      placeholder read as `AIR`. */
  method NewChunkSection(layer: int, existing: Option<DataArray>, section: DataArray, tables: IdTables,
                         scratch: Scratch)
    returns (sec: EncodedSection, written: DataArray, after: Scratch)
    requires tables.Valid() && section.Valid()
    requires OrdinalsBelow(section.data, tables.StateCount())
    requires existing.Some? ==> && existing.value.Valid()
                                && existing.value.backing == section.backing
                                && OrdinalsBelow(existing.value.data, tables.StateCount())
    requires Sized(scratch, tables) && AllUnseen(scratch.blockToPalette)
    ensures written.Valid() && OrdinalsBelow(written.data, tables.StateCount())
    ensures existing.None? ==> written == section
    ensures existing.Some? ==> written == Merge(section, existing.value)
    ensures sec.layer == layer
    ensures DecodesTo(sec, tables, NormaliseAll(written.data))
    ensures 1 <= |FirstSeen(NormaliseAll(written.data))| <= tables.StateCount()
    ensures Shaped(sec, NormaliseAll(written.data), tables.StateCount())
    ensures Clean(after) && SameSizes(after, scratch)
  {
    var r;
    r, written := BuildPalette(existing, section, tables, scratch);
    ghost var norm := NormaliseAll(written.data);
    var states, b2p;
    sec, states, b2p := Encode(layer, r, norm, tables, scratch.blockStates);
    after := Restore(Scratch(b2p, r.paletteToBlock, states, r.blocksCopy));
  }
}

=== FILE: data_array.dfy ===
/** The dense per-section array of 4096 block-state ordinals and its two
    backings: a 16-bit one (`char[]`) and a 32-bit one (`int[]`). */
module DataArrays {
  import opened Wrappers
  import opened BlockIds

  /** `Character.MAX_VALUE`. */
  const CharMax: int := 65535

  predicate IsInt32(v: int) {
    -0x8000_0000 <= v < 0x8000_0000
  }

  datatype Backing = CharBacking | IntBacking

  /** `CAN_USE_CHAR_ARRAY`: the 16-bit backing is chosen, once for the whole
      process, when the number of block states is below `Character.MAX_VALUE`. */
  predicate CanUseCharArray(stateCount: nat) {
    stateCount < CharMax
  }

  function BackingFor(stateCount: nat): Backing {
    if CanUseCharArray(stateCount) then CharBacking else IntBacking
  }

  /** Values a slot of the given backing can hold. */
  predicate Holds(b: Backing, v: int) {
    match b
    case CharBacking => 0 <= v <= CharMax
    case IntBacking => IsInt32(v)
  }

  /** What a slot keeps of an `int` written into it: the char backing applies
      the narrowing `(char) value`, i.e. keeps the low 16 bits. */
  function Store(b: Backing, v: int): (r: int)
    requires IsInt32(v)
    ensures Holds(b, r)
    ensures Holds(b, v) ==> r == v
    ensures b == CharBacking ==> (v - r) % 0x1_0000 == 0
  {
    match b
    case CharBacking => v % 0x1_0000
    case IntBacking => v
  }

  /** Every ordinal of a registry that selected the char backing survives the
      narrowing unchanged: the choice of backing is lossless. */
  lemma BackingForIsLossless(stateCount: nat, ordinal: int)
    requires 0 <= ordinal < stateCount <= 0x8000_0000
    ensures Store(BackingFor(stateCount), ordinal) == ordinal
  {
  }

  datatype DataArray = DataArray(backing: Backing, data: seq<int>) {
    predicate Valid() {
      && |data| == SectionSize
      && forall i :: 0 <= i < |data| ==> Holds(backing, data[i])
    }
  }

  /** The all-zero template (`FaweCache.EMPTY_CHAR_4096` / `EMPTY_INT_4096`). */
  function Zeros(): (z: seq<int>)
    ensures |z| == SectionSize
    ensures forall i :: 0 <= i < |z| ==> z[i] == 0
  {
    seq(SectionSize, _ => 0)
  }

  /** `createEmpty`: a fresh array of the process-wide backing, all entries 0. */
  function CreateEmpty(b: Backing): (r: DataArray)
    ensures r.Valid() && r.backing == b
    ensures forall i :: 0 <= i < SectionSize ==> GetAt(r, i) == 0
  {
    DataArray(b, Zeros())
  }

  function GetAt(a: DataArray, index: int): (v: int)
    requires a.Valid()
    requires 0 <= index < SectionSize
    ensures Holds(a.backing, v)
  {
    a.data[index]
  }

  /** `setAt`: writes the narrowed value at `index` and nothing else. */
  function SetAt(a: DataArray, index: int, value: int): (r: DataArray)
    requires a.Valid()
    requires 0 <= index < SectionSize
    requires IsInt32(value)
    ensures r.Valid() && r.backing == a.backing
    ensures GetAt(r, index) == Store(a.backing, value)
    ensures forall j :: 0 <= j < SectionSize && j != index ==> GetAt(r, j) == GetAt(a, j)
  {
    DataArray(a.backing, a.data[index := Store(a.backing, value)])
  }

  /** `setRange`: `Arrays.fill(data, start, end, value)`, so `end` is exclusive
      and `start <= end <= 4096` is required (the fill throws otherwise). */
  function SetRange(a: DataArray, start: int, end: int, value: int): (r: DataArray)
    requires a.Valid()
    requires 0 <= start <= end <= SectionSize
    requires IsInt32(value)
    ensures r.Valid() && r.backing == a.backing
    ensures forall j :: 0 <= j < SectionSize ==>
              GetAt(r, j) == if start <= j < end then Store(a.backing, value) else GetAt(a, j)
  {
    DataArray(a.backing, a.data[..start] + seq(end - start, _ => Store(a.backing, value)) + a.data[end..])
  }

  /** `setAll`: every entry becomes the narrowed value. */
  function SetAll(a: DataArray, value: int): (r: DataArray)
    requires a.Valid()
    requires IsInt32(value)
    ensures r.Valid() && r.backing == a.backing
    ensures forall j :: 0 <= j < SectionSize ==> GetAt(r, j) == Store(a.backing, value)
  {
    DataArray(a.backing, seq(SectionSize, _ => Store(a.backing, value)))
  }

  /** `setAll(v)` is `setRange(0, 4096, v)`. */
  lemma SetAllIsFullRange(a: DataArray, value: int)
    requires a.Valid()
    requires IsInt32(value)
    ensures SetAll(a, value) == SetRange(a, 0, SectionSize, value)
  {
    assert SetAll(a, value).data == SetRange(a, 0, SectionSize, value).data;
  }

  /** `isEmpty`: one bulk comparison with the zero template. */
  function IsEmpty(a: DataArray): (r: bool)
    requires a.Valid()
    ensures r <==> forall i :: 0 <= i < SectionSize ==> a.data[i] == 0
  {
    assert (forall i :: 0 <= i < SectionSize ==> a.data[i] == 0) ==> a.data == Zeros();
    a.data == Zeros()
  }

  /** `equals`: same concrete backing class and the same 4096 entries. */
  function Equals(a: DataArray, other: DataArray): (r: bool)
    requires a.Valid() && other.Valid()
    ensures r <==> a.backing == other.backing && forall i :: 0 <= i < SectionSize ==> a.data[i] == other.data[i]
  {
    assert (forall i :: 0 <= i < SectionSize ==> a.data[i] == other.data[i]) ==> a.data == other.data;
    a.backing == other.backing && a.data == other.data
  }

  /** `copyInto` fails (the cast to the same class throws) when the destination
      has the other backing. */
  datatype CopyError = BackingMismatch

  /** `copyInto(other)`: the destination receives this array's 4096 entries. */
  function CopyInto(a: DataArray, other: DataArray): (r: Result<DataArray, CopyError>)
    requires a.Valid() && other.Valid()
    ensures r.Success? <==> a.backing == other.backing
    ensures r.Success? ==> r.value.Valid() && Equals(a, r.value)
  {
    if a.backing != other.backing then Failure(BackingMismatch)
    else Success(DataArray(other.backing, a.data))
  }

  /** `createFilled(v)`: an empty array of the process-wide backing, then `setAll(v)`. */
  function CreateFilled(b: Backing, value: int): (r: DataArray)
    requires IsInt32(value)
    ensures r.Valid() && r.backing == b
    ensures forall i :: 0 <= i < SectionSize ==> GetAt(r, i) == Store(b, value)
  {
    SetAll(CreateEmpty(b), value)
  }

  /** `createCopy(other)`: an empty array of the process-wide backing, then
      `other.copyInto(it)`; fails when `other` has the other backing. */
  function CreateCopy(b: Backing, other: DataArray): (r: Result<DataArray, CopyError>)
    requires other.Valid()
    ensures r.Success? <==> other.backing == b
    ensures r.Success? ==> r.value.Valid() && Equals(other, r.value)
  {
    CopyInto(other, CreateEmpty(b))
  }

  /** A new array is empty; a filled one is empty exactly when the stored
      fill value is 0 (for the char backing, e.g. 65536 narrows to 0). */
  lemma CreatedEmptiness(b: Backing, value: int)
    requires IsInt32(value)
    ensures IsEmpty(CreateEmpty(b))
    ensures IsEmpty(CreateFilled(b, value)) <==> Store(b, value) == 0
  {
    var f := CreateFilled(b, value);
    if IsEmpty(f) {
      assert GetAt(f, 0) == 0;
    }
  }

  /** After writing a value that the slot keeps as non-zero, the array is not empty. */
  lemma SetAtNonZeroIsNotEmpty(a: DataArray, index: int, value: int)
    requires a.Valid()
    requires 0 <= index < SectionSize
    requires IsInt32(value) && Store(a.backing, value) != 0
    ensures !IsEmpty(SetAt(a, index, value))
  {
    assert GetAt(SetAt(a, index, value), index) != 0;
  }

  /** A fresh copy holds the original's entries, and a later write into it
      changes only the written index, so every other entry of the copy still
      reads as the original's. */
  lemma CopyIsIndependent(b: Backing, a: DataArray, index: int, value: int)
    requires a.Valid() && a.backing == b
    requires 0 <= index < SectionSize
    requires IsInt32(value)
    ensures CreateCopy(b, a).Success?
    ensures Equals(a, CreateCopy(b, a).value)
    ensures var c' := SetAt(CreateCopy(b, a).value, index, value);
            forall j :: 0 <= j < SectionSize && j != index ==> GetAt(c', j) == GetAt(a, j)
  {
  }
}

=== FILE: get_copy.dfy ===
/** The read-side snapshot of a chunk (`FabricGetBlocks_Copy`): one optional
    block array per section of the world's height, addressed by section
    position relative to the lowest section. Tiles, entities and biomes are
    not part of this model. */
module GetCopy {
  import opened Wrappers
  import opened BlockIds
  import opened DataArrays

  /** What Java throws on a bad access: an array index outside the section
      slots, or a read through a slot that holds no array. */
  datatype AccessError = IndexOutOfBounds | NullSection

  /** The snapshot: the world's lowest and highest buildable levels (both
      inclusive) and the section slots, lowest section first. */
  datatype ChunkCopy = ChunkCopy(minHeight: int, maxHeight: int, blocks: seq<Option<DataArray>>)

  /** Every stored array is a well-formed 4096-entry array. */
  predicate Valid(c: ChunkCopy) {
    forall k :: 0 <= k < |c.blocks| && c.blocks[k].Some? ==> c.blocks[k].value.Valid()
  }

  /** The constructor: the world gives its lowest level, its exclusive build
      limit and its section count; the limit is stored inclusive and every
      slot starts empty. */
  function Create(minBuildHeight: int, maxBuildHeight: int, sectionCount: nat): (c: ChunkCopy)
    ensures Valid(c) && |c.blocks| == sectionCount
    ensures c.minHeight == minBuildHeight && c.maxHeight + 1 == maxBuildHeight
    ensures forall k :: 0 <= k < sectionCount ==> c.blocks[k].None?
  {
    ChunkCopy(minBuildHeight, maxBuildHeight - 1, seq(sectionCount, _ => None))
  }

  /** `getMinSectionPosition`: the section holding the lowest level. */
  function MinSectionPosition(c: ChunkCopy): (s: int)
    ensures s * 16 <= c.minHeight < s * 16 + 16
  {
    SectionOf(c.minHeight)
  }

  /** `getMaxSectionPosition`: the section holding the highest level. */
  function MaxSectionPosition(c: ChunkCopy): (s: int)
    ensures s * 16 <= c.maxHeight < s * 16 + 16
  {
    SectionOf(c.maxHeight)
  }

  /** For a world whose height is a whole number of sections, the slots are
      exactly the sections from the lowest to the highest position, and every
      level of the world falls in one of them. */
  lemma SectionRangeMatchesSlots(minBuildHeight: int, maxBuildHeight: int, y: int)
    requires minBuildHeight % 16 == 0 && maxBuildHeight % 16 == 0
    requires minBuildHeight < maxBuildHeight
    ensures var c := Create(minBuildHeight, maxBuildHeight, (maxBuildHeight - minBuildHeight) / 16);
            && MaxSectionPosition(c) - MinSectionPosition(c) + 1 == |c.blocks|
            && (c.minHeight <= y <= c.maxHeight ==> 0 <= SectionOf(y) - MinSectionPosition(c) < |c.blocks|)
  {
    var c := Create(minBuildHeight, maxBuildHeight, (maxBuildHeight - minBuildHeight) / 16);
    assert MinSectionPosition(c) == minBuildHeight / 16;
    assert MaxSectionPosition(c) == maxBuildHeight / 16 - 1;
    assert (maxBuildHeight - minBuildHeight) / 16 == maxBuildHeight / 16 - minBuildHeight / 16;
  }

  /** `storeSection`: writes slot `layer` directly (no offset by the lowest
      section) and nothing else; an index outside the slots throws. */
  function StoreSection(c: ChunkCopy, layer: int, data: Option<DataArray>): (r: Result<ChunkCopy, AccessError>)
    ensures r.Success? <==> 0 <= layer < |c.blocks|
    ensures r.Failure? ==> r.error == IndexOutOfBounds
    ensures r.Success? ==>
              && r.value.minHeight == c.minHeight && r.value.maxHeight == c.maxHeight
              && |r.value.blocks| == |c.blocks|
              && r.value.blocks[layer] == data
              && forall k :: 0 <= k < |c.blocks| && k != layer ==> r.value.blocks[k] == c.blocks[k]
  {
    if 0 <= layer < |c.blocks| then Success(c.(blocks := c.blocks[layer := data]))
    else Failure(IndexOutOfBounds)
  }

  /** `load` and `loadIfPresent` (the two share one body): the slot of the
      section at `layer`, counted from the lowest section, possibly empty.
      Nothing is allocated. */
  function Load(c: ChunkCopy, layer: int): (r: Result<Option<DataArray>, AccessError>)
    ensures r.Success? <==> 0 <= layer - MinSectionPosition(c) < |c.blocks|
    ensures r.Failure? ==> r.error == IndexOutOfBounds
  {
    var k := layer - MinSectionPosition(c);
    if 0 <= k < |c.blocks| then Success(c.blocks[k]) else Failure(IndexOutOfBounds)
  }

  /** A section stored at slot `k` is loaded back as section position
      `k + MinSectionPosition`. */
  lemma StoreThenLoad(c: ChunkCopy, k: int, data: Option<DataArray>)
    requires 0 <= k < |c.blocks|
    ensures StoreSection(c, k, data).Success?
    ensures Load(StoreSection(c, k, data).value, k + MinSectionPosition(c)) == Success(data)
  {
  }

  /** Storing a slot leaves every other section position's load unchanged. */
  lemma StoreKeepsOtherLoads(c: ChunkCopy, k: int, data: Option<DataArray>, layer: int)
    requires 0 <= k < |c.blocks|
    requires layer != k + MinSectionPosition(c)
    ensures Load(StoreSection(c, k, data).value, layer) == Load(c, layer)
  {
  }

  /** `hasSection`'s answer and the snapshot afterwards. */
  datatype Answer = Answer(present: bool, after: ChunkCopy)

  /** `hasSection`: an empty slot is first filled with an all-`AIR` array of
      the process-wide backing `b`, so the answer is always true. */
  function HasSection(c: ChunkCopy, layer: int, b: Backing): (r: Result<Answer, AccessError>)
    requires Valid(c)
    ensures r.Success? <==> 0 <= layer - MinSectionPosition(c) < |c.blocks|
    ensures r.Failure? ==> r.error == IndexOutOfBounds
    ensures r.Success? ==> r.value.present && Valid(r.value.after)
  {
    var k := layer - MinSectionPosition(c);
    if !(0 <= k < |c.blocks|) then Failure(IndexOutOfBounds)
    else if c.blocks[k].None? then
      var c' := c.(blocks := c.blocks[k := Some(CreateFilled(b, Air))]);
      Success(Answer(c'.blocks[k].Some?, c'))
    else
      Success(Answer(c.blocks[k].Some?, c))
  }

  /** After `hasSection` the section loads as an array: the one already there,
      or an all-`AIR` one; no other section changes. */
  lemma HasSectionThenLoad(c: ChunkCopy, layer: int, b: Backing, other: int)
    requires Valid(c)
    requires 0 <= layer - MinSectionPosition(c) < |c.blocks|
    ensures var a := HasSection(c, layer, b).value.after;
            && MinSectionPosition(a) == MinSectionPosition(c) && |a.blocks| == |c.blocks|
            && Load(a, layer).Success? && Load(a, layer).value.Some?
            && (Load(c, layer).value.Some? ==> Load(a, layer) == Load(c, layer))
            && (Load(c, layer).value.None? ==>
                  forall i :: 0 <= i < SectionSize ==> GetAt(Load(a, layer).value.value, i) == Air)
            && (other != layer ==> Load(a, other) == Load(c, other))
  {
    var a := HasSection(c, layer, b).value.after;
    if Load(c, layer).value.None? {
      forall i | 0 <= i < SectionSize
        ensures GetAt(Load(a, layer).value.value, i) == Air
      {
        assert Store(b, Air) == Air;
      }
    }
  }

  /** `hasSection` twice is `hasSection` once. */
  lemma HasSectionIdempotent(c: ChunkCopy, layer: int, b: Backing)
    requires Valid(c)
    requires 0 <= layer - MinSectionPosition(c) < |c.blocks|
    ensures var a := HasSection(c, layer, b).value.after;
            HasSection(a, layer, b) == Success(Answer(true, a))
  {
  }

  /** `get(x, y, z)` for local `x` and `z`: the ordinal at in-section index
      `(y & 15) << 8 | z << 4 | x` of the section holding level `y`. Reading
      a section position outside the slots, or an empty slot, throws. */
  function Get(c: ChunkCopy, x: int, y: int, z: int): (r: Result<int, AccessError>)
    requires Valid(c)
    requires 0 <= x < 16 && 0 <= z < 16
    ensures r.Success? <==> Load(c, SectionOf(y)).Success? && Load(c, SectionOf(y)).value.Some?
    ensures r.Failure? ==>
              r.error == if Load(c, SectionOf(y)).Success? then NullSection else IndexOutOfBounds
  {
    var k := SectionOf(y) - MinSectionPosition(c);
    if !(0 <= k < |c.blocks|) then Failure(IndexOutOfBounds)
    else if c.blocks[k].None? then Failure(NullSection)
    else Success(GetAt(c.blocks[k].value, BlockIndex(x, y, z)))
  }

  /** The index `get` computes is the in-section block index: with `x` and
      `z` already local, the shifted fields do not overlap. */
  lemma GetIndexIsBlockIndex(x: bv32, y: bv32, z: bv32)
    requires x < 16 && z < 16
    ensures ((y & 15) << 8) | (z << 4) | x == (y & 15) * 256 + z * 16 + x
  {
  }

  /** A level reads back the entry that was stored for it: after storing `d`
      at the slot of level `y`'s section, `get` returns `d`'s entry at the
      block index of `(x, y, z)`. */
  lemma StoreThenGet(c: ChunkCopy, d: DataArray, x: int, y: int, z: int)
    requires Valid(c) && d.Valid()
    requires 0 <= x < 16 && 0 <= z < 16
    requires 0 <= SectionOf(y) - MinSectionPosition(c) < |c.blocks|
    ensures var s := StoreSection(c, SectionOf(y) - MinSectionPosition(c), Some(d));
            && s.Success? && Valid(s.value)
            && Get(s.value, x, y, z) == Success(d.data[Low4(y) * 256 + z * 16 + x])
  {
    var k := SectionOf(y) - MinSectionPosition(c);
    var s := StoreSection(c, k, Some(d)).value;
    assert Valid(s) by {
      forall j | 0 <= j < |s.blocks| && s.blocks[j].Some?
        ensures s.blocks[j].value.Valid()
      {
        if j != k {
          assert s.blocks[j] == c.blocks[j];
        }
      }
    }
    assert Low4(x) == x && Low4(z) == z;
  }

  /** Every level of a section made present by `hasSection` reads as `AIR`. */
  lemma HasSectionThenGet(c: ChunkCopy, b: Backing, x: int, y: int, z: int)
    requires Valid(c)
    requires 0 <= x < 16 && 0 <= z < 16
    requires Load(c, SectionOf(y)) == Success(None)
    ensures HasSection(c, SectionOf(y), b).Success?
    ensures Get(HasSection(c, SectionOf(y), b).value.after, x, y, z) == Success(Air)
  {
    HasSectionThenLoad(c, SectionOf(y), b, SectionOf(y));
  }
}

=== FILE: packing.dfy ===
/** The packed-word layout of a section's entries. `BitArrayUnstretched` (the
    packer) is not part of this model; its layout is taken to be the one the
    game's `SimpleBitStorage` reads: `BlocksPerLong(bits)` entries per 64-bit
    word, lowest bits first, no entry straddling two words. */
module Packing {
  import opened BitWidth

  /** Every value fits in `bits` bits. */
  predicate FitsIn(values: seq<int>, bits: nat) {
    forall i :: 0 <= i < |values| ==> 0 <= values[i] < Pow2(bits)
  }

  /** Bits taken by `n` entries of `bits` bits, summed entry by entry. */
  function Width(bits: nat, n: nat): nat {
    if n == 0 then 0 else bits + Width(bits, n - 1)
  }

  lemma {:induction false} WidthIsProduct(bits: nat, n: nat)
    ensures Width(bits, n) == bits * n
  {
    if n > 0 {
      WidthIsProduct(bits, n - 1);
      MulSucc(bits, n - 1);
    }
  }

  lemma MulSucc(a: nat, m: nat)
    ensures a * (m + 1) == a + a * m
  {
  }

  /** One word holding `values` from its lowest bits up, `bits` bits each. */
  function PackWord(values: seq<int>, bits: nat): (w: nat)
    requires FitsIn(values, bits)
    ensures w < Pow2(Width(bits, |values|))
  {
    if |values| == 0 then 0
    else
      FitsInSlices(values, bits, 1);
      var rest := PackWord(values[1..], bits);
      PrependDigit(values[0], rest, bits, |values| - 1);
      values[0] + Pow2(bits) * rest
  }

  /** One more `bits`-bit entry below `m` packed entries fits `m + 1` entries. */
  lemma PrependDigit(d: int, rest: nat, bits: nat, m: nat)
    requires 0 <= d < Pow2(bits) && rest < Pow2(Width(bits, m))
    ensures 0 <= d + Pow2(bits) * rest < Pow2(Width(bits, m + 1))
  {
    MulNonNegative(Pow2(bits), rest);
    DigitBound(d, rest, Pow2(bits), Pow2(Width(bits, m)));
    Pow2Add(bits, Width(bits, m));
  }

  lemma MulNonNegative(a: nat, b: nat)
    ensures a * b >= 0
  {
  }

  /** One more base-`p` digit below a number under `q` stays under `p * q`. */
  lemma DigitBound(d: int, rest: nat, p: nat, q: nat)
    requires 0 <= d < p && rest < q
    ensures d + p * rest < p * q
  {
    MulAtLeast(p, q - rest);
    assert p * q == p * rest + p * (q - rest);
  }

  lemma MulAtLeast(p: int, k: int)
    requires p > 0 && k >= 1
    ensures p * k >= p
  {
    assert p * k == p * (k - 1) + p;
    if k > 1 {
      MulAtLeast(p, k - 1);
    }
  }

  /** Euclidean division is unique: `a == p * q + r` with `0 <= r < p` fixes
      the quotient and remainder. */
  lemma DivModUnique(a: int, p: int, q: int, r: int)
    requires p > 0 && 0 <= r < p && a == p * q + r
    ensures a / p == q && a % p == r
  {
    var q' := a / p;
    var r' := a % p;
    assert a == p * q' + r';
    assert p * (q - q') == r' - r;
    if q > q' {
      MulAtLeast(p, q - q');
    } else if q < q' {
      MulAtLeast(p, q' - q);
    }
  }

  /** Entry `j` of a word: shift right by `bits` `j` times, then mask the low
      `bits` bits (`(word >>> bits * j) & mask`). */
  function Field(word: nat, bits: nat, j: nat): (v: nat)
    ensures v < Pow2(bits)
  {
    var p := Pow2(bits);
    DivModBounds(word, p);
    if j == 0 then word % p else Field(word / p, bits, j - 1)
  }

  lemma DivModBounds(a: nat, p: nat)
    requires p >= 1
    ensures 0 <= a % p < p && 0 <= a / p
  {
  }

  /** A word packs its values losslessly. */
  lemma {:induction false} PackWordFields(values: seq<int>, bits: nat, j: nat)
    requires FitsIn(values, bits)
    requires j < |values|
    ensures Field(PackWord(values, bits), bits, j) == values[j]
    decreases j
  {
    var p := Pow2(bits);
    var rest := PackWord(values[1..], bits);
    assert PackWord(values, bits) == values[0] + p * rest;
    DivModOfDigit(values[0], rest, p);
    if j > 0 {
      PackWordFields(values[1..], bits, j - 1);
    }
  }

  lemma DivModOfDigit(d: int, rest: nat, p: nat)
    requires 0 <= d < p
    ensures (d + p * rest) % p == d
    ensures (d + p * rest) / p == rest
  {
    DivModUnique(d + p * rest, p, rest, d);
  }

  /** Runs of at most `d` entries needed to cover `len` entries, counted
      run by run. */
  function Runs(len: nat, d: nat): nat
    requires d >= 1
  {
    if len == 0 then 0 else 1 + Runs(len - if len < d then len else d, d)
  }

  /** Counting run by run is rounding `len / d` up. */
  lemma {:induction false} RunsIsCeiling(len: nat, d: nat)
    requires d >= 1
    ensures Runs(len, d) == (len + d - 1) / d
    decreases len
  {
    if len == 0 {
      DivModUnique(d - 1, d, 0, d - 1);
    } else {
      var n := if len < d then len else d;
      RunsIsCeiling(len - n, d);
      RunCount(len, n, d);
    }
  }

  /** The words of a whole array: consecutive runs of `BlocksPerLong(bits)`
      entries, the last run possibly short. */
  function Pack(values: seq<int>, bits: nat): (words: seq<nat>)
    requires 1 <= bits <= 64
    requires FitsIn(values, bits)
    ensures |words| == Runs(|values|, BlocksPerLong(bits))
    ensures forall k :: 0 <= k < |words| ==> words[k] < WordBound
    decreases |values|
  {
    var bpl := BlocksPerLong(bits);
    if |values| == 0 then []
    else
      var n := if |values| < bpl then |values| else bpl;
      FitsInSlices(values, bits, n);
      var w := PackWord(values[..n], bits);
      RunFitsWord(bits, n, w);
      var rest := Pack(values[n..], bits);
      WordsBelow(w, rest);
      [w] + rest
  }

  lemma FitsInSlices(values: seq<int>, bits: nat, n: nat)
    requires FitsIn(values, bits) && n <= |values|
    ensures FitsIn(values[..n], bits) && FitsIn(values[n..], bits)
  {
  }

  lemma WordsBelow(w: nat, rest: seq<nat>)
    requires w < WordBound
    requires forall k :: 0 <= k < |rest| ==> rest[k] < WordBound
    ensures forall k :: 0 <= k < |[w] + rest| ==> ([w] + rest)[k] < WordBound
  {
  }

  /** A run of at most `BlocksPerLong(bits)` entries takes at most 64 bits. */
  lemma RunFitsWord(bits: nat, n: nat, w: nat)
    requires 1 <= bits <= 64
    requires n <= BlocksPerLong(bits)
    requires w < Pow2(Width(bits, n))
    ensures w < WordBound
  {
    var bpl := BlocksPerLong(bits);
    assert bpl * NonZero(bits) <= 64;
    MulMonotone(bits, n, bpl);
    WidthIsProduct(bits, n);
    Pow2Monotone(Width(bits, n), 64);
    Pow2Of64();
  }

  lemma MulMonotone(a: nat, b: nat, c: nat)
    requires b <= c
    ensures a * b <= a * c && a * b <= c * a
  {
    assert a * c == a * b + a * (c - b);
  }

  /** Taking one run of `n` entries off the front removes one word. */
  lemma RunCount(len: nat, n: nat, d: nat)
    requires d >= 1 && 1 <= len
    requires n == if len < d then len else d
    ensures (len + d - 1) / d == (len - n + d - 1) / d + 1
  {
    if len < d {
      DivModUnique(len + d - 1, d, 1, len - 1);
      DivModUnique(d - 1, d, 0, d - 1);
    } else {
      DivModShift(len + d - 1, d);
    }
  }

  /** Entry `i` of a packed array. */
  function Unpack(words: seq<nat>, bits: nat, i: nat): (v: nat)
    requires 1 <= bits <= 64
    requires i / BlocksPerLong(bits) < |words|
    ensures v < Pow2(bits)
  {
    Field(words[i / BlocksPerLong(bits)], bits, i % BlocksPerLong(bits))
  }

  /** Packing then unpacking gives back every entry. */
  lemma {:induction false} UnpackPack(values: seq<int>, bits: nat, i: nat)
    requires 1 <= bits <= 64
    requires FitsIn(values, bits)
    requires i < |values|
    ensures i / BlocksPerLong(bits) < |Pack(values, bits)|
    ensures Unpack(Pack(values, bits), bits, i) == values[i]
    decreases |values|
  {
    var bpl := BlocksPerLong(bits);
    if i < bpl {
      UnpackFirstWord(values, bits, i);
    } else {
      var rest := values[bpl..];
      UnpackPack(rest, bits, i - bpl);
      DivModShift(i, bpl);
      PackSkipsRun(values, bits, (i - bpl) / bpl);
      assert values[i] == rest[i - bpl];
    }
  }

  /** Word `k + 1` of an array is word `k` of the array without its first run. */
  lemma PackSkipsRun(values: seq<int>, bits: nat, k: nat)
    requires 1 <= bits <= 64
    requires FitsIn(values, bits)
    requires |values| > BlocksPerLong(bits)
    requires k < |Pack(values[BlocksPerLong(bits)..], bits)|
    ensures k + 1 < |Pack(values, bits)|
    ensures Pack(values, bits)[k + 1] == Pack(values[BlocksPerLong(bits)..], bits)[k]
  {
  }

  /** The entries of the first run come back from the first word. */
  lemma UnpackFirstWord(values: seq<int>, bits: nat, i: nat)
    requires 1 <= bits <= 64
    requires FitsIn(values, bits)
    requires i < |values| && i < BlocksPerLong(bits)
    ensures i / BlocksPerLong(bits) < |Pack(values, bits)|
    ensures Unpack(Pack(values, bits), bits, i) == values[i]
  {
    var bpl := BlocksPerLong(bits);
    var n := if |values| < bpl then |values| else bpl;
    DivModUnique(i, bpl, 0, i);
    PackWordFields(values[..n], bits, i);
  }

  lemma DivModShift(i: nat, d: nat)
    requires 1 <= d <= i
    ensures (i - d) / d == i / d - 1
    ensures (i - d) % d == i % d
  {
    DivModUnique(i - d, d, i / d - 1, i % d);
  }

  /** A section packs into exactly `WordCount(bits)` words. */
  lemma PackedSectionLength(values: seq<int>, bits: nat)
    requires 1 <= bits <= 64
    requires FitsIn(values, bits)
    requires |values| == 4096
    ensures |Pack(values, bits)| == WordCount(bits)
  {
    RunsIsCeiling(4096, BlocksPerLong(bits));
  }
}

=== FILE: palette.dfy ===
/** Palette building for one section (`NMSAdapter.createPalette`): the
    section's distinct states in first-seen order, each block's index into
    them (or its global registry id when more than 256 states occur), and the
    number of non-air blocks. */
module Palette {
  import opened BlockIds
  import opened DataArrays
  import opened BitWidth

  /** `Integer.MAX_VALUE`: the "not yet in the palette" mark in
      `blockToPalette`. */
  const Unseen: int := 0x7FFF_FFFF

  /** The game's block-state id tables (`ordinalToIbdID`, `ibdToStateOrdinal`),
      built with one slot per state so that looking a state's id up again
      gives the state back. */
  datatype IdTables = IdTables(ordinalToId: seq<int>, idToOrdinal: seq<int>) {
    predicate Valid() {
      && |idToOrdinal| == |ordinalToId|
      && VoidAir < |ordinalToId| < 0x8000_0000
      && forall o :: 0 <= o < |ordinalToId| ==>
           0 <= ordinalToId[o] < |idToOrdinal| && idToOrdinal[ordinalToId[o]] == o
    }

    function StateCount(): nat {
      |ordinalToId|
    }
  }

  /** Every entry is a state ordinal of a registry with `n` states. */
  predicate OrdinalsBelow(s: seq<int>, n: nat) {
    forall i :: 0 <= i < |s| ==> 0 <= s[i] < n
  }

  /** The placeholder `__RESERVED__` is encoded as `AIR`. */
  function Normalise(ordinal: int): (o: int)
    ensures o != Reserved
    ensures ordinal != Reserved ==> o == ordinal
    ensures ordinal == Reserved ==> o == Air
  {
    if ordinal == Reserved then Air else ordinal
  }

  function NormaliseAll(s: seq<int>): (r: seq<int>)
    ensures |r| == |s|
    ensures forall i :: 0 <= i < |s| ==> r[i] == Normalise(s[i])
  {
    seq(|s|, i requires 0 <= i < |s| => Normalise(s[i]))
  }

  /** A sequence without `__RESERVED__` entries is already normalised. */
  lemma NormaliseAllIdentity(s: seq<int>)
    requires forall i :: 0 <= i < |s| ==> s[i] != Reserved
    ensures NormaliseAll(s) == s
  {
  }

  /** The states that do not count as blocks: the placeholder and the three airs. */
  predicate IsAirLike(ordinal: int) {
    ordinal == Reserved || ordinal == Air || ordinal == CaveAir || ordinal == VoidAir
  }

  /** Number of air-like entries, counted front to back. */
  function AirCount(s: seq<int>): (n: nat)
    ensures n <= |s|
  {
    if |s| == 0 then 0
    else AirCount(s[..|s| - 1]) + (if IsAirLike(s[|s| - 1]) then 1 else 0)
  }

  /** The positions holding air-like entries. */
  function AirPositions(s: seq<int>): set<nat> {
    set i: nat | i < |s| && IsAirLike(s[i])
  }

  /** The running count is the number of air-like positions. */
  lemma {:induction false} AirCountIsAirPositions(s: seq<int>)
    ensures AirCount(s) == |AirPositions(s)|
  {
    if |s| > 0 {
      var p := s[..|s| - 1];
      AirCountIsAirPositions(p);
      if IsAirLike(s[|s| - 1]) {
        assert AirPositions(s) == AirPositions(p) + {|p|};
      } else {
        assert AirPositions(s) == AirPositions(p);
      }
    }
  }

  /** Normalising does not change which entries are air-like. */
  lemma {:induction false} AirCountNormalised(s: seq<int>)
    ensures AirCount(NormaliseAll(s)) == AirCount(s)
  {
    if |s| > 0 {
      AirCountNormalised(s[..|s| - 1]);
      assert NormaliseAll(s)[..|s| - 1] == NormaliseAll(s[..|s| - 1]);
    }
  }

  predicate Distinct(s: seq<int>) {
    forall i, j :: 0 <= i < j < |s| ==> s[i] != s[j]
  }

  /** `seen` after meeting `v`: unchanged when `v` is already listed, else
      extended by it. */
  function Enter(seen: seq<int>, v: int): (r: seq<int>)
    requires Distinct(seen)
    ensures Distinct(r)
    ensures forall w :: w in r <==> w in seen || w == v
    ensures seen <= r && |r| <= |seen| + 1
  {
    if v in seen then seen else seen + [v]
  }

  /** The distinct values of `s`, each where it first appears. */
  function FirstSeen(s: seq<int>): (r: seq<int>)
    ensures Distinct(r)
    ensures forall v :: v in r <==> v in s
    ensures |r| <= |s|
  {
    if |s| == 0 then []
    else
      assert s == s[..|s| - 1] + [s[|s| - 1]];
      Enter(FirstSeen(s[..|s| - 1]), s[|s| - 1])
  }

  lemma FirstSeenSnoc(s: seq<int>, v: int)
    ensures FirstSeen(s + [v]) == Enter(FirstSeen(s), v)
  {
    assert (s + [v])[..|s|] == s;
  }

  /** Index of the first occurrence of `v`. */
  function FirstIndex(s: seq<int>, v: int): (k: nat)
    requires v in s
    ensures k < |s| && s[k] == v
    ensures forall j :: 0 <= j < k ==> s[j] != v
  {
    if s[0] == v then 0 else 1 + FirstIndex(s[1..], v)
  }

  lemma {:induction false} FirstIndexPrefix(p: seq<int>, t: seq<int>, v: int)
    requires v in p
    ensures FirstIndex(p + t, v) == FirstIndex(p, v)
  {
    if p[0] != v {
      assert (p + t)[1..] == p[1..] + t;
      FirstIndexPrefix(p[1..], t, v);
    }
  }

  /** `FirstSeen` lists values in order of first appearance. */
  lemma {:induction false} FirstSeenOrdered(s: seq<int>, i: nat, j: nat)
    requires i < j < |FirstSeen(s)|
    ensures FirstIndex(s, FirstSeen(s)[i]) < FirstIndex(s, FirstSeen(s)[j])
  {
    var p := s[..|s| - 1];
    var x := s[|s| - 1];
    var q := FirstSeen(p);
    var r := FirstSeen(s);
    assert s == p + [x];
    if j < |q| {
      assert r[i] == q[i] && r[j] == q[j];
      FirstSeenOrdered(p, i, j);
      FirstIndexPrefix(p, [x], q[i]);
      FirstIndexPrefix(p, [x], q[j]);
    } else {
      assert r[j] == x && x !in p;
      assert r[i] == q[i] && q[i] in p;
      FirstIndexPrefix(p, [x], q[i]);
    }
  }

  /** Reading more input only appends to `FirstSeen`: earlier palette slots keep
      their states. */
  lemma {:induction false} FirstSeenExtends(s: seq<int>, t: seq<int>)
    ensures FirstSeen(s) <= FirstSeen(s + t)
    decreases |t|
  {
    if |t| > 0 {
      var t' := t[..|t| - 1];
      FirstSeenExtends(s, t');
      assert s + t == (s + t') + [t[|t| - 1]];
      FirstSeenSnoc(s + t', t[|t| - 1]);
    } else {
      assert s + t == s;
    }
  }

  /** A duplicate-free sequence of ordinals below `n` has at most `n` entries. */
  lemma {:induction false} DistinctBelow(r: seq<int>, n: nat)
    requires Distinct(r) && OrdinalsBelow(r, n)
    ensures |r| <= n
    decreases |r|
  {
    if |r| > 0 {
      var x := r[|r| - 1];
      var r' := r[..|r| - 1];
      assert forall i :: 0 <= i < |r'| ==> r'[i] != x;
      var r'' := seq(|r'|, i requires 0 <= i < |r'| => if r'[i] > x then r'[i] - 1 else r'[i]);
      DistinctBelow(r'', n - 1);
    }
  }

  /** At most one palette slot per registry state. */
  lemma PaletteBounded(s: seq<int>, n: nat)
    requires OrdinalsBelow(s, n)
    ensures |FirstSeen(s)| <= n
  {
    var r := FirstSeen(s);
    forall i | 0 <= i < |r|
      ensures 0 <= r[i] < n
    {
      assert r[i] in s;
    }
    DistinctBelow(r, n);
  }

  /** The scratch tables after the states of `seen` have been entered:
      `paletteToBlock` lists them, `blockToPalette` maps each one back to its
      slot and every other state to `Unseen`. */
  predicate Tracks(blockToPalette: seq<int>, paletteToBlock: seq<int>, num: nat, seen: seq<int>) {
    && num == |seen| <= |paletteToBlock|
    && num < Unseen
    && paletteToBlock[..num] == seen
    && Distinct(seen)
    && OrdinalsBelow(seen, |blockToPalette|)
    && (forall k :: 0 <= k < num ==> blockToPalette[seen[k]] == k)
    && (forall o :: 0 <= o < |blockToPalette| && o !in seen ==> blockToPalette[o] == Unseen)
  }

  predicate AllUnseen(blockToPalette: seq<int>) {
    forall o :: 0 <= o < |blockToPalette| ==> blockToPalette[o] == Unseen
  }

  lemma TracksNothing(blockToPalette: seq<int>, paletteToBlock: seq<int>)
    requires AllUnseen(blockToPalette)
    ensures Tracks(blockToPalette, paletteToBlock, 0, [])
  {
  }

  /** A tracked state's slot holds it. */
  lemma TrackedLookup(blockToPalette: seq<int>, paletteToBlock: seq<int>, num: nat, seen: seq<int>, o: int)
    requires Tracks(blockToPalette, paletteToBlock, num, seen)
    requires o in seen
    ensures 0 <= blockToPalette[o] < num
    ensures paletteToBlock[blockToPalette[o]] == o
  {
    var k :| 0 <= k < |seen| && seen[k] == o;
    assert paletteToBlock[k] == paletteToBlock[..num][k];
  }

  /** One step of the first pass: look the state up and, when it is unseen,
      give it the next palette slot. */
  method Insert(blockToPalette: seq<int>, paletteToBlock: seq<int>, num: nat, ordinal: int, ghost seen: seq<int>)
    returns (b2p: seq<int>, p2b: seq<int>, num': nat)
    requires Tracks(blockToPalette, paletteToBlock, num, seen)
    requires 0 <= ordinal < |blockToPalette|
    requires num < |paletteToBlock| && num + 1 < Unseen
    ensures |b2p| == |blockToPalette| && |p2b| == |paletteToBlock|
    ensures Tracks(b2p, p2b, num', Enter(seen, ordinal))
  {
    b2p, p2b, num' := blockToPalette, paletteToBlock, num;
    if blockToPalette[ordinal] == Unseen {
      assert ordinal !in seen;
      b2p := blockToPalette[ordinal := num];
      p2b := paletteToBlock[num := ordinal];
      num' := num + 1;
      assert p2b[..num'] == seen + [ordinal];
    } else {
      assert ordinal in seen;
    }
  }

  /** A duplicate-free sequence is its own `FirstSeen`. */
  lemma {:induction false} FirstSeenOfDistinct(s: seq<int>)
    requires Distinct(s)
    ensures FirstSeen(s) == s
  {
    if |s| > 0 {
      var p := s[..|s| - 1];
      FirstSeenOfDistinct(p);
      assert s[|s| - 1] !in p;
    }
  }

  /** How the first pass's two summaries grow by one entry. */
  lemma PrefixStep(s: seq<int>, i: nat)
    requires i < |s|
    ensures FirstSeen(s[..i + 1]) == Enter(FirstSeen(s[..i]), s[i])
    ensures AirCount(s[..i + 1]) == AirCount(s[..i]) + (if IsAirLike(s[i]) then 1 else 0)
  {
    assert s[..i + 1] == s[..i] + [s[i]];
    FirstSeenSnoc(s[..i], s[i]);
  }

  /** What one step of the first pass needs: the normalised entry is a
      state below `n`, the palette so far is no longer than the prefix, and
      the prefix grows by that entry. */
  lemma ReadStep(data: seq<int>, n: nat, i: nat)
    requires OrdinalsBelow(data, n) && VoidAir < n && i < |data|
    ensures var norm := NormaliseAll(data);
            && norm[i] == Normalise(data[i]) && 0 <= norm[i] < n
            && |FirstSeen(norm[..i])| <= i
            && FirstSeen(norm[..i + 1]) == Enter(FirstSeen(norm[..i]), norm[i])
            && AirCount(norm[..i + 1]) == AirCount(norm[..i]) + (if IsAirLike(norm[i]) then 1 else 0)
  {
    PrefixStep(NormaliseAll(data), i);
  }

  /** One step of the first loop of the getter-free `createPalette`: entry
      `i`, with the placeholder read as `AIR`, and whether it is one of the
      entries `nonAir` does not count. */
  method ReadEntry(section: DataArray, i: nat) returns (ordinal: int, airLike: bool)
    requires section.Valid() && i < SectionSize
    ensures ordinal == Normalise(section.data[i])
    ensures airLike == IsAirLike(section.data[i]) == IsAirLike(ordinal)
  {
    ordinal := GetAt(section, i);
    airLike := false;
    if ordinal == Reserved {
      ordinal := Air;
      airLike := true;
    } else if ordinal == Air || ordinal == CaveAir || ordinal == VoidAir {
      airLike := true;
    }
  }

  /** One step of the first loop of the getter-aware `createPalette`: entry
      `i` of the section being written; a placeholder is replaced, in the
      section too, by the existing section's entry, itself read as `AIR` when
      it is a placeholder. */
  method MergeEntry(cur: DataArray, existing: DataArray, i: nat) returns (cur': DataArray, ordinal: int, airLike: bool)
    requires cur.Valid() && existing.Valid() && cur.backing == existing.backing
    requires i < SectionSize
    ensures ordinal == if cur.data[i] == Reserved then Normalise(existing.data[i]) else cur.data[i]
    ensures airLike == IsAirLike(ordinal)
    ensures cur'.Valid() && cur'.backing == cur.backing
    ensures cur'.data == cur.data[i := ordinal]
  {
    cur' := cur;
    ordinal := GetAt(cur, i);
    airLike := false;
    if ordinal == Reserved {
      ordinal := GetAt(existing, i);
      if ordinal == Reserved {
        airLike := true;
        ordinal := Air;
      } else if ordinal == Air || ordinal == CaveAir || ordinal == VoidAir {
        airLike := true;
      }
      cur' := SetAt(cur, i, ordinal);
    } else if ordinal == Air || ordinal == CaveAir || ordinal == VoidAir {
      airLike := true;
    }
    assert cur'.data == cur.data[i := ordinal];
  }

  /** The outputs of palette building. */
  datatype PaletteTables = PaletteTables(
    numPalette: nat,
    blockToPalette: seq<int>,
    paletteToBlock: seq<int>,
    blocksCopy: seq<int>,
    nonAir: int)

  /** What palette building promises about the normalised entries `norm` of a
      section: `numPalette` counts their distinct states; with at most 256 of
      them `paletteToBlock` lists them in first-seen order and each
      `blocksCopy[i]` is the slot of entry `i`; otherwise each `blocksCopy[i]`
      is the entry's global registry id. */
  predicate Encodes(r: PaletteTables, norm: seq<int>, tables: IdTables)
    requires tables.Valid()
    requires |norm| == SectionSize && OrdinalsBelow(norm, tables.StateCount())
  {
    && r.numPalette == |FirstSeen(norm)|
    && |r.blocksCopy| >= SectionSize
    && (!UsesGlobalPalette(r.numPalette) ==>
          && Tracks(r.blockToPalette, r.paletteToBlock, r.numPalette, FirstSeen(norm))
          && forall i :: 0 <= i < SectionSize ==>
               0 <= r.blocksCopy[i] < r.numPalette && r.paletteToBlock[r.blocksCopy[i]] == norm[i])
    && (UsesGlobalPalette(r.numPalette) ==>
          && tables.StateCount() <= |r.paletteToBlock|
          && r.paletteToBlock[..tables.StateCount()] == tables.idToOrdinal
          && forall i :: 0 <= i < SectionSize ==> r.blocksCopy[i] == tables.ordinalToId[norm[i]])
  }

  /** Room the scratch buffers must have: one `blockToPalette` slot per state,
      a `paletteToBlock` entry per block and per registry id, a `blocksCopy`
      entry per block. */
  predicate ScratchSized(blockToPalette: seq<int>, paletteToBlock: seq<int>, blocksCopy: seq<int>, tables: IdTables)
    requires tables.Valid()
  {
    && |blockToPalette| >= tables.StateCount()
    && |paletteToBlock| >= SectionSize && |paletteToBlock| >= tables.StateCount()
    && |blocksCopy| >= SectionSize
  }

  /** The end of both `createPalette` overloads: switch to the global tables when more than
      256 states occur, then translate every (normalised) entry of `section`. */
  method Translate(blockToPalette: seq<int>, paletteToBlock: seq<int>, blocksCopy: seq<int>, num: nat,
                   section: DataArray, tables: IdTables, nonAir: int)
    returns (r: PaletteTables)
    requires tables.Valid() && section.Valid()
    requires OrdinalsBelow(section.data, tables.StateCount())
    requires ScratchSized(blockToPalette, paletteToBlock, blocksCopy, tables)
    requires Tracks(blockToPalette, paletteToBlock, num, FirstSeen(NormaliseAll(section.data)))
    ensures Encodes(r, NormaliseAll(section.data), tables)
    ensures r.nonAir == nonAir
    ensures |r.blockToPalette| == |blockToPalette| && |r.paletteToBlock| == |paletteToBlock|
    ensures |r.blocksCopy| == |blocksCopy|
  {
    ghost var norm := NormaliseAll(section.data);
    var n := tables.StateCount();
    var b2p, p2b := blockToPalette, paletteToBlock;
    GlobalPaletteThreshold(num);
    if num > 0 && BitLength(num - 1) > 8 {
      p2b := tables.idToOrdinal + paletteToBlock[n..];
      b2p := tables.ordinalToId + blockToPalette[n..];
    }
    var copy := blocksCopy;
    for i := 0 to SectionSize
      invariant |copy| == |blocksCopy|
      invariant forall j :: 0 <= j < i ==> copy[j] == b2p[norm[j]]
    {
      var ordinal := GetAt(section, i);
      if ordinal == Reserved {
        ordinal := Air;
      }
      copy := copy[i := b2p[ordinal]];
    }
    r := PaletteTables(num, b2p, p2b, copy, nonAir);
    if UsesGlobalPalette(num) {
      assert p2b[..n] == tables.idToOrdinal;
    } else {
      forall i | 0 <= i < SectionSize
        ensures 0 <= copy[i] < num && p2b[copy[i]] == norm[i]
      {
        assert norm[i] in FirstSeen(norm);
        TrackedLookup(b2p, p2b, num, FirstSeen(norm), norm[i]);
      }
    }
  }

  /** The first loop of the getter-free `createPalette`. */
  method ReadPass(blockToPalette: seq<int>, paletteToBlock: seq<int>, section: DataArray, tables: IdTables)
    returns (b2p: seq<int>, p2b: seq<int>, num: nat, nonAir: int)
    requires tables.Valid() && section.Valid()
    requires OrdinalsBelow(section.data, tables.StateCount())
    requires |paletteToBlock| >= SectionSize
    requires |blockToPalette| >= tables.StateCount()
    requires AllUnseen(blockToPalette)
    ensures |b2p| == |blockToPalette| && |p2b| == |paletteToBlock|
    ensures Tracks(b2p, p2b, num, FirstSeen(NormaliseAll(section.data)))
    ensures nonAir == SectionSize - AirCount(section.data)
  {
    ghost var norm := NormaliseAll(section.data);
    nonAir := SectionSize;
    b2p, p2b, num := blockToPalette, paletteToBlock, 0;
    TracksNothing(b2p, p2b);
    for i := 0 to SectionSize
      invariant |b2p| == |blockToPalette| && |p2b| == |paletteToBlock|
      invariant Tracks(b2p, p2b, num, FirstSeen(norm[..i]))
      invariant nonAir == SectionSize - AirCount(norm[..i])
    {
      var ordinal, airLike := ReadEntry(section, i);
      if airLike {
        nonAir := nonAir - 1;
      }
      ReadStep(section.data, tables.StateCount(), i);
      b2p, p2b, num := Insert(b2p, p2b, num, ordinal, FirstSeen(norm[..i]));
    }
    assert norm[..SectionSize] == norm;
    AirCountNormalised(section.data);
  }

  /** `createPalette` without a getter: the placeholder is read
      as `AIR`. The optional `nonEmptyBlockCount` output is the `nonAir` field. */
  method CreatePalette(blockToPalette: seq<int>, paletteToBlock: seq<int>, blocksCopy: seq<int>,
                       section: DataArray, tables: IdTables)
    returns (r: PaletteTables)
    requires tables.Valid() && section.Valid()
    requires OrdinalsBelow(section.data, tables.StateCount())
    requires ScratchSized(blockToPalette, paletteToBlock, blocksCopy, tables)
    requires AllUnseen(blockToPalette)
    ensures Encodes(r, NormaliseAll(section.data), tables)
    ensures r.nonAir == SectionSize - AirCount(section.data)
    ensures |r.blockToPalette| == |blockToPalette| && |r.paletteToBlock| == |paletteToBlock|
    ensures |r.blocksCopy| == |blocksCopy|
  {
    var b2p, p2b, num, nonAir := ReadPass(blockToPalette, paletteToBlock, section, tables);
    r := Translate(b2p, p2b, blocksCopy, num, section, tables, nonAir);
  }

  /** The section the getter-aware overload actually encodes: each placeholder
      entry of `section` takes the existing section's entry, read as `AIR` when
      that is a placeholder too. */
  function Merge(section: DataArray, existing: DataArray): (m: DataArray)
    requires section.Valid() && existing.Valid() && section.backing == existing.backing
    ensures m.Valid() && m.backing == section.backing
    ensures forall i :: 0 <= i < SectionSize ==> m.data[i] != Reserved
  {
    DataArray(section.backing, seq(SectionSize, i requires 0 <= i < SectionSize =>
      if section.data[i] == Reserved then Normalise(existing.data[i]) else section.data[i]))
  }

  /** Merging is an overlay: explicit entries win, placeholders show the
      existing section, and a section without placeholders is kept as is. */
  lemma MergeIsOverlay(section: DataArray, existing: DataArray)
    requires section.Valid() && existing.Valid() && section.backing == existing.backing
    ensures forall i :: 0 <= i < SectionSize && section.data[i] != Reserved ==> Merge(section, existing).data[i] == section.data[i]
    ensures forall i :: 0 <= i < SectionSize && section.data[i] == Reserved ==>
              Merge(section, existing).data[i] == Normalise(existing.data[i])
    ensures (forall i :: 0 <= i < SectionSize ==> section.data[i] != Reserved) ==> Merge(section, existing) == section
  {
    if forall i :: 0 <= i < SectionSize ==> section.data[i] != Reserved {
      assert Merge(section, existing).data == section.data;
    }
  }

  /** Merging twice with the same section changes nothing more. */
  lemma MergeIdempotent(section: DataArray, existing: DataArray)
    requires section.Valid() && existing.Valid() && section.backing == existing.backing
    ensures Merge(Merge(section, existing), existing) == Merge(section, existing)
  {
    MergeIsOverlay(Merge(section, existing), existing);
  }

  /** `createPalette` with a getter: every placeholder of `section`
      is replaced in place by the existing section's entry, and
      the merged section is encoded. `existing` is what the getter returns for
      this layer; the source fetches it once, and only when a placeholder
      occurs. */
  method CreatePaletteMerging(blockToPalette: seq<int>, paletteToBlock: seq<int>, blocksCopy: seq<int>,
                              existing: DataArray, section: DataArray, tables: IdTables)
    returns (r: PaletteTables, merged: DataArray)
    requires tables.Valid() && section.Valid() && existing.Valid()
    requires section.backing == existing.backing
    requires OrdinalsBelow(section.data, tables.StateCount())
    requires OrdinalsBelow(existing.data, tables.StateCount())
    requires ScratchSized(blockToPalette, paletteToBlock, blocksCopy, tables)
    requires AllUnseen(blockToPalette)
    ensures merged == Merge(section, existing)
    ensures OrdinalsBelow(merged.data, tables.StateCount())
    ensures Encodes(r, merged.data, tables)
    ensures r.nonAir == SectionSize - AirCount(merged.data)
    ensures |r.blockToPalette| == |blockToPalette| && |r.paletteToBlock| == |paletteToBlock|
    ensures |r.blocksCopy| == |blocksCopy|
  {
    var b2p, p2b, num, nonAir;
    merged, b2p, p2b, num, nonAir := MergePass(blockToPalette, paletteToBlock, existing, section, tables);
    NormaliseAllIdentity(merged.data);
    r := Translate(b2p, p2b, blocksCopy, num, merged, tables, nonAir);
  }

  lemma MergedEntryAt(section: DataArray, existing: DataArray, i: nat)
    requires section.Valid() && existing.Valid() && section.backing == existing.backing
    requires i < SectionSize
    ensures Merge(section, existing).data[i]
            == if section.data[i] == Reserved then Normalise(existing.data[i]) else section.data[i]
  {
  }

  /** Writing the merged entry `i` extends the merged prefix by one. */
  lemma MergeStepKeeps(before: seq<int>, after: seq<int>, section: seq<int>, m: seq<int>, i: nat)
    requires |section| == |m| && i < |m|
    requires before == m[..i] + section[i..]
    requires after == before[i := m[i]]
    ensures after == m[..i + 1] + section[i + 1..]
  {
  }

  /** The first loop of the getter-aware `createPalette`. */
  method MergePass(blockToPalette: seq<int>, paletteToBlock: seq<int>, existing: DataArray, section: DataArray,
                   tables: IdTables)
    returns (merged: DataArray, b2p: seq<int>, p2b: seq<int>, num: nat, nonAir: int)
    requires tables.Valid() && section.Valid() && existing.Valid()
    requires section.backing == existing.backing
    requires OrdinalsBelow(section.data, tables.StateCount())
    requires OrdinalsBelow(existing.data, tables.StateCount())
    requires |paletteToBlock| >= SectionSize
    requires |blockToPalette| >= tables.StateCount()
    requires AllUnseen(blockToPalette)
    ensures merged == Merge(section, existing)
    ensures |b2p| == |blockToPalette| && |p2b| == |paletteToBlock|
    ensures Tracks(b2p, p2b, num, FirstSeen(merged.data))
    ensures nonAir == SectionSize - AirCount(merged.data)
  {
    ghost var m := Merge(section, existing).data;
    nonAir := SectionSize;
    b2p, p2b, num := blockToPalette, paletteToBlock, 0;
    var cur := section;
    TracksNothing(b2p, p2b);
    for i := 0 to SectionSize
      invariant cur.Valid() && cur.backing == section.backing
      invariant cur.data == m[..i] + section.data[i..]
      invariant |b2p| == |blockToPalette| && |p2b| == |paletteToBlock|
      invariant Tracks(b2p, p2b, num, FirstSeen(m[..i]))
      invariant nonAir == SectionSize - AirCount(m[..i])
    {
      var ordinal, airLike;
      ghost var before := cur;
      MergedEntryAt(section, existing, i);
      assert before.data[i] == section.data[i];
      cur, ordinal, airLike := MergeEntry(cur, existing, i);
      MergeStepKeeps(before.data, cur.data, section.data, m, i);
      if airLike {
        nonAir := nonAir - 1;
      }
      PrefixStep(m, i);
      b2p, p2b, num := Insert(b2p, p2b, num, ordinal, FirstSeen(m[..i]));
    }
    assert m[..SectionSize] == m;
    merged := cur;
  }

  /** Without placeholders both overloads build the same tables. */
  lemma NoPlaceholderMeansNoMerge(section: DataArray, existing: DataArray)
    requires section.Valid() && existing.Valid() && section.backing == existing.backing
    requires forall i :: 0 <= i < SectionSize ==> section.data[i] != Reserved
    ensures Merge(section, existing).data == NormaliseAll(section.data)
  {
    MergeIsOverlay(section, existing);
    NormaliseAllIdentity(section.data);
  }
}

=== FILE: set_blocks.dfy ===
/** The per-chunk edit overlay (`DataArraySetBlocks`): a vertical column of
    sections covering the layers `minSection..maxSection`, each tagged and
    possibly holding a `DataArray`, plus lazily allocated side data (biomes,
    block light, sky light, tiles, entities, entity removals, height maps).
    Every per-section array is indexed by `layer - minSection`; the range only
    grows, and growth reallocates every parallel array. */
module SetBlocks {
  import opened Wrappers
  import opened BlockIds
  import opened DataArrays

  /** The `EMPTY` and `FULL` section tags. */
  datatype Section = Empty | Full

  /** A per-section lock object; only its identity matters. */
  datatype Lock = Lock(id: nat)

  /** Opaque payloads: a biome, an NBT compound tag, an entity UUID and a
      height-map kind are only stored and compared, never inspected. */
  type Biome = nat
  type Tag = nat
  type Uuid = nat
  type HeightMapKind = nat

  datatype BlockPos = BlockPos(x: int, y: int, z: int)

  /** A nullable `T[][]` whose rows are nullable `T[]`. */
  type Grid<T> = Option<seq<Option<seq<T>>>>

  datatype Overlay = Overlay(
    minSection: int,
    maxSection: int,
    sectionCount: int,
    sections: seq<Section>,
    blocks: seq<Option<DataArray>>,
    locks: seq<Lock>,
    nextLock: nat,              // every lock handed out so far has a smaller id
    biomes: Grid<Option<Biome>>,
    light: Grid<int>,
    skyLight: Grid<int>,
    tiles: Option<map<BlockPos, Tag>>,
    entities: Option<set<Tag>>,
    entityRemoves: Option<set<Uuid>>,
    heightMaps: Option<map<HeightMapKind, seq<int>>>,
    fastMode: bool,
    bitMask: int)

  /** Light values live in a `char`: 0..15 are light levels, 16 marks "unset". */
  const Unset: int := 16

  predicate IsLightRow(row: seq<int>) {
    && |row| == SectionSize
    && forall i :: 0 <= i < |row| ==> 0 <= row[i] <= CharMax
  }

  predicate LightGridSized(g: Grid<int>, n: int) {
    g.Some? ==> |g.value| == n && forall k :: 0 <= k < n && g.value[k].Some? ==> IsLightRow(g.value[k].value)
  }

  predicate BiomeGridSized(g: Grid<Option<Biome>>, n: int) {
    g.Some? ==> |g.value| == n && forall k :: 0 <= k < n && g.value[k].Some? ==> |g.value[k].value| == BiomeCells
  }

  /** The parallel arrays all have length `n`, the locks are distinct and
      below `nextLock`, and every stored row has its fixed width. */
  predicate ArraysSized(o: Overlay, n: int) {
    && |o.sections| == n
    && |o.blocks| == n
    && |o.locks| == n
    && (forall i, j :: 0 <= i < j < n ==> o.locks[i] != o.locks[j])
    && (forall i :: 0 <= i < n ==> o.locks[i].id < o.nextLock)
    && (forall i :: 0 <= i < n && o.blocks[i].Some? ==> o.blocks[i].value.Valid())
    && BiomeGridSized(o.biomes, n)
    && LightGridSized(o.light, n)
    && LightGridSized(o.skyLight, n)
  }

  /** `minSection <= maxSection`, `sectionCount == maxSection - minSection + 1`,
      and every parallel array covers exactly that range. */
  predicate Valid(o: Overlay) {
    Shaped(o) && ArraysSized(o, o.sectionCount)
  }

  /** The shape part of `Valid` alone: enough to read any layer in range. */
  predicate Shaped(o: Overlay) {
    && o.minSection <= o.maxSection
    && o.sectionCount == o.maxSection - o.minSection + 1
    && |o.sections| == o.sectionCount
    && |o.blocks| == o.sectionCount
    && |o.locks| == o.sectionCount
    && (o.biomes.Some? ==> |o.biomes.value| == o.sectionCount)
    && (o.light.Some? ==> |o.light.value| == o.sectionCount)
    && (o.skyLight.Some? ==> |o.skyLight.value| == o.sectionCount)
  }

  function Min(a: int, b: int): int {
    if a <= b then a else b
  }

  function Max(a: int, b: int): int {
    if a <= b then b else a
  }

  // ---------------------------------------------------------------------
  // Logical view: what the overlay holds at a layer (not a raw index)
  // ---------------------------------------------------------------------

  predicate InRange(o: Overlay, layer: int) {
    o.minSection <= layer <= o.maxSection
  }

  function SectionAt(o: Overlay, layer: int): Section
    requires Shaped(o) && InRange(o, layer)
  {
    o.sections[layer - o.minSection]
  }

  function BlocksAt(o: Overlay, layer: int): Option<DataArray>
    requires Shaped(o) && InRange(o, layer)
  {
    o.blocks[layer - o.minSection]
  }

  function LockAt(o: Overlay, layer: int): Lock
    requires Shaped(o) && InRange(o, layer)
  {
    o.locks[layer - o.minSection]
  }

  function Row<T>(g: Grid<T>, k: int): Option<seq<T>>
    requires g.Some? ==> 0 <= k < |g.value|
  {
    if g.None? then None else g.value[k]
  }

  function BiomeRow(o: Overlay, layer: int): Option<seq<Option<Biome>>>
    requires Shaped(o) && InRange(o, layer)
  {
    Row(o.biomes, layer - o.minSection)
  }

  function LightRow(o: Overlay, layer: int): Option<seq<int>>
    requires Shaped(o) && InRange(o, layer)
  {
    Row(o.light, layer - o.minSection)
  }

  function SkyLightRow(o: Overlay, layer: int): Option<seq<int>>
    requires Shaped(o) && InRange(o, layer)
  {
    Row(o.skyLight, layer - o.minSection)
  }

  /** A freshly allocated `new BiomeType[64]`. */
  function NullBiomes(): seq<Option<Biome>> {
    seq(BiomeCells, _ => None)
  }

  /** What layer `layer` holds once the range of `o` has been grown to cover
      it: its old content if it was in range, the defaults of a new slot otherwise. */
  function SectionBefore(o: Overlay, layer: int): Section
    requires Shaped(o)
  {
    if InRange(o, layer) then SectionAt(o, layer) else Empty
  }

  function BlocksBefore(o: Overlay, layer: int): Option<DataArray>
    requires Shaped(o)
  {
    if InRange(o, layer) then BlocksAt(o, layer) else None
  }

  /** Growth allocates `new BiomeType[sectionCount][64]`, so a new layer of an
      allocated biome grid gets a non-null (all-null) row. */
  function BiomeRowBefore(o: Overlay, layer: int): Option<seq<Option<Biome>>>
    requires Shaped(o)
  {
    if o.biomes.None? then None
    else if InRange(o, layer) then BiomeRow(o, layer)
    else Some(NullBiomes())
  }

  function LightRowBefore(o: Overlay, layer: int): Option<seq<int>>
    requires Shaped(o)
  {
    if InRange(o, layer) then LightRow(o, layer) else None
  }

  function SkyLightRowBefore(o: Overlay, layer: int): Option<seq<int>>
    requires Shaped(o)
  {
    if InRange(o, layer) then SkyLightRow(o, layer) else None
  }

  // ---------------------------------------------------------------------
  // Two-state summaries used by the contracts of every operation
  // ---------------------------------------------------------------------

  /** `r` covers the range of `o` extended just enough to include `layer`. */
  predicate GrownTo(o: Overlay, r: Overlay, layer: int) {
    r.minSection == Min(o.minSection, layer) && r.maxSection == Max(o.maxSection, layer)
  }

  predicate SameRange(o: Overlay, r: Overlay) {
    r.minSection == o.minSection && r.maxSection == o.maxSection && r.sectionCount == o.sectionCount
  }

  ghost predicate KeepsBlocks(o: Overlay, r: Overlay)
    requires Shaped(o) && Shaped(r)
  {
    forall layer :: InRange(r, layer) ==>
      SectionAt(r, layer) == SectionBefore(o, layer) && BlocksAt(r, layer) == BlocksBefore(o, layer)
  }

  /** Old layers keep their lock; every new layer gets a lock never handed out before. */
  ghost predicate KeepsLocks(o: Overlay, r: Overlay)
    requires Shaped(o) && Shaped(r)
  {
    && r.nextLock >= o.nextLock
    && forall layer :: InRange(r, layer) ==>
         if InRange(o, layer) then LockAt(r, layer) == LockAt(o, layer) else LockAt(r, layer).id >= o.nextLock
  }

  ghost predicate KeepsBiomes(o: Overlay, r: Overlay)
    requires Shaped(o) && Shaped(r)
  {
    && r.biomes.Some? == o.biomes.Some?
    && forall layer :: InRange(r, layer) ==> BiomeRow(r, layer) == BiomeRowBefore(o, layer)
  }

  ghost predicate KeepsLight(o: Overlay, r: Overlay)
    requires Shaped(o) && Shaped(r)
  {
    && r.light.Some? == o.light.Some?
    && forall layer :: InRange(r, layer) ==> LightRow(r, layer) == LightRowBefore(o, layer)
  }

  ghost predicate KeepsSkyLight(o: Overlay, r: Overlay)
    requires Shaped(o) && Shaped(r)
  {
    && r.skyLight.Some? == o.skyLight.Some?
    && forall layer :: InRange(r, layer) ==> SkyLightRow(r, layer) == SkyLightRowBefore(o, layer)
  }

  /** Tiles, entities, entity removals, height maps and the two flags. */
  predicate KeepsExtras(o: Overlay, r: Overlay) {
    && r.tiles == o.tiles
    && r.entities == o.entities
    && r.entityRemoves == o.entityRemoves
    && r.heightMaps == o.heightMaps
    && r.fastMode == o.fastMode
    && r.bitMask == o.bitMask
  }

  /** Every per-section datum of `o` is still there at the same layer. */
  ghost predicate KeepsSections(o: Overlay, r: Overlay)
    requires Shaped(o) && Shaped(r)
  {
    KeepsBlocks(o, r) && KeepsLocks(o, r) && KeepsBiomes(o, r) && KeepsLight(o, r) && KeepsSkyLight(o, r)
  }

  // ---------------------------------------------------------------------
  // Construction and range growth
  // ---------------------------------------------------------------------

  function FreshLocks(next: nat, n: nat): (r: seq<Lock>)
    ensures |r| == n
    ensures forall k :: 0 <= k < n ==> r[k] == Lock(next + k)
  {
    seq(n, k requires 0 <= k < n => Lock(next + k))
  }

  /** The constructor `super(0, 15)`: sixteen `EMPTY` sections, no arrays, no side data. */
  function NewOverlay(): (r: Overlay)
    ensures Valid(r)
    ensures r.minSection == 0 && r.maxSection == 15
    ensures forall layer :: InRange(r, layer) ==> SectionAt(r, layer) == Empty && BlocksAt(r, layer).None?
    ensures IsEmpty(r)
  {
    Overlay(0, 15, 16, seq(16, _ => Empty), seq(16, _ => None), FreshLocks(0, 16), 16,
            None, None, None, None, None, None, None, false, -1)
  }

  /** Where old entries go (`destPos`) and where the new slots start (`toFillFrom`)
      when an array of length `oldLen` grows by `diff`. */
  function DestPos(diff: nat, appendNew: bool): nat {
    if appendNew then 0 else diff
  }

  function FillFrom(oldLen: nat, appendNew: bool): nat {
    if appendNew then oldLen else 0
  }

  /** The old entries of `s` sit at `k + destPos` in the grown `r`. */
  ghost predicate Relocated<T>(r: seq<T>, s: seq<T>, diff: nat, appendNew: bool) {
    && |r| == |s| + diff
    && forall k :: 0 <= k < |s| ==> r[k + DestPos(diff, appendNew)] == s[k]
  }

  /** The `diff` new slots of the grown `r` all hold `fill`. */
  ghost predicate NewSlotsHold<T>(r: seq<T>, oldLen: nat, diff: nat, appendNew: bool, fill: T) {
    forall k :: FillFrom(oldLen, appendNew) <= k < FillFrom(oldLen, appendNew) + diff && k < |r| ==> r[k] == fill
  }

  ghost predicate GridRelocated<T>(r: Grid<T>, g: Grid<T>, diff: nat, appendNew: bool, fill: Option<seq<T>>) {
    && r.Some? == g.Some?
    && (g.Some? ==> Relocated(r.value, g.value, diff, appendNew) && NewSlotsHold(r.value, |g.value|, diff, appendNew, fill))
  }

  /** A longer copy of `s`: old entries at the tail when prepending, at the
      head when appending, and `fill` in the new slots. */
  function Grow<T>(s: seq<T>, fill: seq<T>, appendNew: bool): (r: seq<T>)
    ensures Relocated(r, s, |fill|, appendNew)
    ensures forall k :: FillFrom(|s|, appendNew) <= k < FillFrom(|s|, appendNew) + |fill| ==>
              r[k] == fill[k - FillFrom(|s|, appendNew)]
  {
    if appendNew then s + fill else fill + s
  }

  function GrowGrid<T>(g: Grid<T>, fill: Option<seq<T>>, diff: nat, appendNew: bool): (r: Grid<T>)
    ensures GridRelocated(r, g, diff, appendNew, fill)
  {
    if g.None? then None else Some(Grow(g.value, seq(diff, _ => fill), appendNew))
  }

  /** Growing the lock array with `FreshLocks` keeps the locks distinct. */
  lemma {:induction false} GrownLocksDistinct(locks: seq<Lock>, next: nat, diff: nat, appendNew: bool)
    requires forall i, j :: 0 <= i < j < |locks| ==> locks[i] != locks[j]
    requires forall i :: 0 <= i < |locks| ==> locks[i].id < next
    ensures var r := Grow(locks, FreshLocks(next, diff), appendNew);
            && (forall i, j :: 0 <= i < j < |r| ==> r[i] != r[j])
            && (forall i :: 0 <= i < |r| ==> r[i].id < next + diff)
  {
    var r := Grow(locks, FreshLocks(next, diff), appendNew);
    forall i | 0 <= i < |r|
      ensures r[i].id < next + diff
    {
      GrownLockAt(locks, next, diff, appendNew, i);
    }
    forall i, j | 0 <= i < j < |r|
      ensures r[i] != r[j]
    {
      GrownPairDistinct(locks, next, diff, appendNew, i, j);
    }
  }

  lemma GrownPairDistinct(locks: seq<Lock>, next: nat, diff: nat, appendNew: bool, i: int, j: int)
    requires forall i, j :: 0 <= i < j < |locks| ==> locks[i] != locks[j]
    requires forall k :: 0 <= k < |locks| ==> locks[k].id < next
    requires 0 <= i < j < |locks| + diff
    ensures Grow(locks, FreshLocks(next, diff), appendNew)[i] != Grow(locks, FreshLocks(next, diff), appendNew)[j]
  {
    GrownLockAt(locks, next, diff, appendNew, i);
    GrownLockAt(locks, next, diff, appendNew, j);
  }

  /** Entry `i` of a grown lock array: a fresh lock numbered from `next`, or
      the old lock that moved there (numbered below `next`). */
  lemma GrownLockAt(locks: seq<Lock>, next: nat, diff: nat, appendNew: bool, i: int)
    requires forall k :: 0 <= k < |locks| ==> locks[k].id < next
    requires 0 <= i < |locks| + diff
    ensures var r := Grow(locks, FreshLocks(next, diff), appendNew);
            var from := FillFrom(|locks|, appendNew);
            if from <= i < from + diff then r[i].id == next + (i - from)
            else 0 <= i - DestPos(diff, appendNew) < |locks| && r[i] == locks[i - DestPos(diff, appendNew)]
                 && r[i].id < next
  {
    GrownIndexCases(|locks|, diff, appendNew, i);
  }

  /** Every raw index of a grown array is either an old entry or a new slot. */
  lemma GrownIndexCases(oldLen: nat, diff: nat, appendNew: bool, k: int)
    requires 0 <= k < oldLen + diff
    ensures (FillFrom(oldLen, appendNew) <= k < FillFrom(oldLen, appendNew) + diff)
         || (0 <= k - DestPos(diff, appendNew) < oldLen)
  {
  }

  lemma GrownLightSized(g: Grid<int>, n: nat, diff: nat, appendNew: bool)
    requires LightGridSized(g, n)
    ensures LightGridSized(GrowGrid(g, None, diff, appendNew), n + diff)
  {
    var r := GrowGrid(g, None, diff, appendNew);
    if g.Some? {
      forall k | 0 <= k < n + diff && r.value[k].Some?
        ensures IsLightRow(r.value[k].value)
      {
        GrownIndexCases(n, diff, appendNew, k);
        var j := k - DestPos(diff, appendNew);
        if 0 <= j < n && !(FillFrom(n, appendNew) <= k < FillFrom(n, appendNew) + diff) {
          assert r.value[j + DestPos(diff, appendNew)] == g.value[j];
        }
      }
    }
  }

  lemma GrownBiomesSized(g: Grid<Option<Biome>>, n: nat, diff: nat, appendNew: bool)
    requires BiomeGridSized(g, n)
    ensures BiomeGridSized(GrowGrid(g, Some(NullBiomes()), diff, appendNew), n + diff)
  {
    var r := GrowGrid(g, Some(NullBiomes()), diff, appendNew);
    if g.Some? {
      forall k | 0 <= k < n + diff && r.value[k].Some?
        ensures |r.value[k].value| == BiomeCells
      {
        GrownIndexCases(n, diff, appendNew, k);
        var j := k - DestPos(diff, appendNew);
        if 0 <= j < n && !(FillFrom(n, appendNew) <= k < FillFrom(n, appendNew) + diff) {
          assert r.value[j + DestPos(diff, appendNew)] == g.value[j];
        }
      }
    }
  }

  /** The block arrays of a grown column are still well formed. */
  lemma GrownBlocksValid(blocks: seq<Option<DataArray>>, diff: nat, appendNew: bool)
    requires forall i :: 0 <= i < |blocks| && blocks[i].Some? ==> blocks[i].value.Valid()
    ensures var r := Grow(blocks, seq(diff, _ => None), appendNew);
            forall i :: 0 <= i < |r| && r[i].Some? ==> r[i].value.Valid()
  {
    var r := Grow(blocks, seq(diff, _ => None), appendNew);
    forall i | 0 <= i < |r| && r[i].Some?
      ensures r[i].value.Valid()
    {
      GrownIndexCases(|blocks|, diff, appendNew, i);
      var j := i - DestPos(diff, appendNew);
      if 0 <= j < |blocks| && !(FillFrom(|blocks|, appendNew) <= i < FillFrom(|blocks|, appendNew) + diff) {
        assert r[j + DestPos(diff, appendNew)] == blocks[j];
      }
    }
  }

  /** `resizeSectionsArrays(diff, appendNew)`, called once `sectionCount` has
      already been raised by `diff` while the arrays still have the old length.
      Old entries move to raw index `k + diff` when prepending and stay at `k`
      when appending; the `diff` new slots are `EMPTY` with no array, a fresh
      lock, a fresh 64-cell biome row (if biomes exist) and no light rows. */
  function ResizeSectionsArrays(o: Overlay, diff: nat, appendNew: bool): (r: Overlay)
    requires o.sectionCount >= diff
    requires ArraysSized(o, o.sectionCount - diff)
    ensures ArraysSized(r, o.sectionCount)
    ensures r.minSection == o.minSection && r.maxSection == o.maxSection && r.sectionCount == o.sectionCount
    ensures r.nextLock == o.nextLock + diff
    ensures KeepsExtras(o, r)
    ensures Relocated(r.sections, o.sections, diff, appendNew)
    ensures NewSlotsHold(r.sections, |o.sections|, diff, appendNew, Empty)
    ensures Relocated(r.blocks, o.blocks, diff, appendNew)
    ensures NewSlotsHold(r.blocks, |o.blocks|, diff, appendNew, None)
    ensures Relocated(r.locks, o.locks, diff, appendNew)
    ensures forall k :: FillFrom(|o.locks|, appendNew) <= k < FillFrom(|o.locks|, appendNew) + diff ==>
              r.locks[k].id >= o.nextLock
    ensures GridRelocated(r.biomes, o.biomes, diff, appendNew, Some(NullBiomes()))
    ensures GridRelocated(r.light, o.light, diff, appendNew, None)
    ensures GridRelocated(r.skyLight, o.skyLight, diff, appendNew, None)
  {
    var newLocks := FreshLocks(o.nextLock, diff);
    GrownLocksDistinct(o.locks, o.nextLock, diff, appendNew);
    GrownBlocksValid(o.blocks, diff, appendNew);
    GrownBiomesSized(o.biomes, o.sectionCount - diff, diff, appendNew);
    GrownLightSized(o.light, o.sectionCount - diff, diff, appendNew);
    GrownLightSized(o.skyLight, o.sectionCount - diff, diff, appendNew);
    o.(
      sections := Grow(o.sections, seq(diff, _ => Empty), appendNew),
      blocks := Grow(o.blocks, seq(diff, _ => None), appendNew),
      locks := Grow(o.locks, newLocks, appendNew),
      nextLock := o.nextLock + diff,
      biomes := GrowGrid(o.biomes, Some(NullBiomes()), diff, appendNew),
      light := GrowGrid(o.light, None, diff, appendNew),
      skyLight := GrowGrid(o.skyLight, None, diff, appendNew))
  }

  /** The raw-index facts of a resize, read at logical layers: a layer the old
      range covered keeps its data, any other layer holds new-slot defaults. */
  lemma ResizeKeepsSections(o: Overlay, r: Overlay, diff: nat, appendNew: bool)
    requires Valid(o) && Valid(r)
    requires r.sectionCount == o.sectionCount + diff
    requires appendNew ==> r.minSection == o.minSection
    requires !appendNew ==> r.minSection == o.minSection - diff
    requires r.nextLock >= o.nextLock
    requires Relocated(r.sections, o.sections, diff, appendNew)
    requires NewSlotsHold(r.sections, |o.sections|, diff, appendNew, Empty)
    requires Relocated(r.blocks, o.blocks, diff, appendNew)
    requires NewSlotsHold(r.blocks, |o.blocks|, diff, appendNew, None)
    requires Relocated(r.locks, o.locks, diff, appendNew)
    requires forall k :: FillFrom(|o.locks|, appendNew) <= k < FillFrom(|o.locks|, appendNew) + diff ==>
              r.locks[k].id >= o.nextLock
    requires GridRelocated(r.biomes, o.biomes, diff, appendNew, Some(NullBiomes()))
    requires GridRelocated(r.light, o.light, diff, appendNew, None)
    requires GridRelocated(r.skyLight, o.skyLight, diff, appendNew, None)
    ensures KeepsSections(o, r)
  {
    forall layer | InRange(r, layer)
      ensures SectionAt(r, layer) == SectionBefore(o, layer) && BlocksAt(r, layer) == BlocksBefore(o, layer)
      ensures if InRange(o, layer) then LockAt(r, layer) == LockAt(o, layer) else LockAt(r, layer).id >= o.nextLock
    {
      ResizedIndex(o, r, diff, appendNew, layer);
    }
    ResizeKeepsRows(o, r, diff, appendNew);
  }

  /** The row grids of a resize, read at logical layers. */
  lemma ResizeKeepsRows(o: Overlay, r: Overlay, diff: nat, appendNew: bool)
    requires Valid(o) && Valid(r)
    requires r.sectionCount == o.sectionCount + diff
    requires appendNew ==> r.minSection == o.minSection
    requires !appendNew ==> r.minSection == o.minSection - diff
    requires GridRelocated(r.biomes, o.biomes, diff, appendNew, Some(NullBiomes()))
    requires GridRelocated(r.light, o.light, diff, appendNew, None)
    requires GridRelocated(r.skyLight, o.skyLight, diff, appendNew, None)
    ensures KeepsBiomes(o, r) && KeepsLight(o, r) && KeepsSkyLight(o, r)
  {
    forall layer | InRange(r, layer)
      ensures BiomeRow(r, layer) == BiomeRowBefore(o, layer)
      ensures LightRow(r, layer) == LightRowBefore(o, layer)
      ensures SkyLightRow(r, layer) == SkyLightRowBefore(o, layer)
    {
      ResizedIndex(o, r, diff, appendNew, layer);
    }
  }

  /** Where a logical layer sits after a resize: at its old raw index moved
      by the shift, or among the new slots. */
  lemma ResizedIndex(o: Overlay, r: Overlay, diff: nat, appendNew: bool, layer: int)
    requires r.sectionCount == o.sectionCount + diff
    requires appendNew ==> r.minSection == o.minSection
    requires !appendNew ==> r.minSection == o.minSection - diff
    requires Shaped(o) && Shaped(r) && InRange(r, layer)
    ensures InRange(o, layer) ==> layer - r.minSection == (layer - o.minSection) + DestPos(diff, appendNew)
    ensures !InRange(o, layer) ==>
              FillFrom(o.sectionCount, appendNew) <= layer - r.minSection < FillFrom(o.sectionCount, appendNew) + diff
  {
  }

  /** The prepending branch of `updateSectionIndexRange`: `diff` new layers
      below `minSection`. */
  function PrependLayers(o: Overlay, diff: nat): (r: Overlay)
    requires Valid(o) && diff > 0
    ensures Valid(r)
    ensures r.minSection == o.minSection - diff && r.maxSection == o.maxSection
    ensures KeepsSections(o, r) && KeepsExtras(o, r)
  {
    var r := ResizeSectionsArrays(o.(sectionCount := o.sectionCount + diff, minSection := o.minSection - diff), diff, false);
    ResizeKeepsSections(o, r, diff, false);
    r
  }

  /** The appending branch of `updateSectionIndexRange`: `diff` new layers
      above `maxSection`. */
  function AppendLayers(o: Overlay, diff: nat): (r: Overlay)
    requires Valid(o) && diff > 0
    ensures Valid(r)
    ensures r.minSection == o.minSection && r.maxSection == o.maxSection + diff
    ensures KeepsSections(o, r) && KeepsExtras(o, r)
  {
    var r := ResizeSectionsArrays(o.(sectionCount := o.sectionCount + diff, maxSection := o.maxSection + diff), diff, true);
    ResizeKeepsSections(o, r, diff, true);
    r
  }

  /** `updateSectionIndexRange(layer)`: a no-op when `layer` is in range;
      otherwise the range grows just enough to reach it. */
  function UpdateSectionIndexRange(o: Overlay, layer: int): (r: Overlay)
    requires Valid(o)
    ensures Valid(r)
    ensures GrownTo(o, r, layer) && InRange(r, layer)
    ensures KeepsExtras(o, r)
    ensures InRange(o, layer) ==> r == o
  {
    if layer < o.minSection then PrependLayers(o, o.minSection - layer)
    else if layer > o.maxSection then AppendLayers(o, layer - o.maxSection)
    else o
  }

  /** Growing the range keeps every layer's data where it was. */
  lemma UpdateKeepsSections(o: Overlay, layer: int)
    requires Valid(o)
    ensures KeepsSections(o, UpdateSectionIndexRange(o, layer))
  {
    if InRange(o, layer) {
      var r := UpdateSectionIndexRange(o, layer);
      BlocksUntouched(o, o, r);
      LocksUntouched(o, o, r);
      BiomesUntouched(o, o, r);
      LightUntouched(o, o, r);
      SkyLightUntouched(o, o, r);
    }
  }

  /** `UpdateKeepsSections` read at one layer. */
  lemma UpdateKeepsLayer(o: Overlay, layer: int, l: int)
    requires Valid(o)
    requires InRange(UpdateSectionIndexRange(o, layer), l)
    ensures var g := UpdateSectionIndexRange(o, layer);
            && SectionAt(g, l) == SectionBefore(o, l)
            && BlocksAt(g, l) == BlocksBefore(o, l)
            && BiomeRow(g, l) == BiomeRowBefore(o, l)
            && LightRow(g, l) == LightRowBefore(o, l)
            && SkyLightRow(g, l) == SkyLightRowBefore(o, l)
  {
    UpdateKeepsSections(o, layer);
  }

  lemma UpdateKeepsLightRow(o: Overlay, layer: int)
    requires Valid(o)
    ensures var g := UpdateSectionIndexRange(o, layer);
            InRange(g, layer) && LightRow(g, layer) == LightRowBefore(o, layer)
  {
    UpdateKeepsSections(o, layer);
  }

  lemma UpdateKeepsSkyLightRow(o: Overlay, layer: int)
    requires Valid(o)
    ensures var g := UpdateSectionIndexRange(o, layer);
            InRange(g, layer) && SkyLightRow(g, layer) == SkyLightRowBefore(o, layer)
  {
    UpdateKeepsSections(o, layer);
  }

  // Transfer: a record update that leaves a component alone keeps its summary.

  lemma BlocksUntouched(o: Overlay, g: Overlay, r: Overlay)
    requires Shaped(o) && Shaped(g) && Shaped(r) && SameRange(g, r)
    requires r.sections == g.sections && r.blocks == g.blocks
    requires KeepsBlocks(o, g)
    ensures KeepsBlocks(o, r)
  {
    forall layer | InRange(r, layer)
      ensures SectionAt(r, layer) == SectionBefore(o, layer) && BlocksAt(r, layer) == BlocksBefore(o, layer)
    {
      assert SectionAt(r, layer) == SectionAt(g, layer) && BlocksAt(r, layer) == BlocksAt(g, layer);
    }
  }

  lemma LocksUntouched(o: Overlay, g: Overlay, r: Overlay)
    requires Shaped(o) && Shaped(g) && Shaped(r) && SameRange(g, r)
    requires r.locks == g.locks && r.nextLock == g.nextLock
    requires KeepsLocks(o, g)
    ensures KeepsLocks(o, r)
  {
    forall layer | InRange(r, layer)
      ensures if InRange(o, layer) then LockAt(r, layer) == LockAt(o, layer) else LockAt(r, layer).id >= o.nextLock
    {
      assert LockAt(r, layer) == LockAt(g, layer);
    }
  }

  lemma BiomesUntouched(o: Overlay, g: Overlay, r: Overlay)
    requires Shaped(o) && Shaped(g) && Shaped(r) && SameRange(g, r)
    requires r.biomes == g.biomes
    requires KeepsBiomes(o, g)
    ensures KeepsBiomes(o, r)
  {
    forall layer | InRange(r, layer)
      ensures BiomeRow(r, layer) == BiomeRowBefore(o, layer)
    {
      assert BiomeRow(r, layer) == BiomeRow(g, layer);
    }
  }

  lemma LightUntouched(o: Overlay, g: Overlay, r: Overlay)
    requires Shaped(o) && Shaped(g) && Shaped(r) && SameRange(g, r)
    requires r.light == g.light
    requires KeepsLight(o, g)
    ensures KeepsLight(o, r)
  {
    forall layer | InRange(r, layer)
      ensures LightRow(r, layer) == LightRowBefore(o, layer)
    {
      assert LightRow(r, layer) == LightRow(g, layer);
    }
  }

  lemma SkyLightUntouched(o: Overlay, g: Overlay, r: Overlay)
    requires Shaped(o) && Shaped(g) && Shaped(r) && SameRange(g, r)
    requires r.skyLight == g.skyLight
    requires KeepsSkyLight(o, g)
    ensures KeepsSkyLight(o, r)
  {
    forall layer | InRange(r, layer)
      ensures SkyLightRow(r, layer) == SkyLightRowBefore(o, layer)
    {
      assert SkyLightRow(r, layer) == SkyLightRow(g, layer);
    }
  }

  /** A record update that keeps the range and the locks, and stores only
      well-formed arrays and rows, keeps the overlay valid. */
  lemma StillValid(g: Overlay, r: Overlay)
    requires Valid(g) && SameRange(g, r)
    requires r.locks == g.locks && r.nextLock == g.nextLock
    requires |r.sections| == |g.sections| && |r.blocks| == |g.blocks|
    requires forall i :: 0 <= i < |r.blocks| && r.blocks[i].Some? ==> r.blocks[i].value.Valid()
    requires BiomeGridSized(r.biomes, r.sectionCount)
    requires LightGridSized(r.light, r.sectionCount) && LightGridSized(r.skyLight, r.sectionCount)
    ensures Valid(r)
  {
  }

  lemma WithLight(g: Overlay, light: Grid<int>)
    requires Valid(g) && LightGridSized(light, g.sectionCount)
    ensures Valid(g.(light := light))
  {
  }

  lemma WithSkyLight(g: Overlay, skyLight: Grid<int>)
    requires Valid(g) && LightGridSized(skyLight, g.sectionCount)
    ensures Valid(g.(skyLight := skyLight))
  {
  }

  lemma WithBiomes(g: Overlay, biomes: Grid<Option<Biome>>)
    requires Valid(g) && BiomeGridSized(biomes, g.sectionCount)
    ensures Valid(g.(biomes := biomes))
  {
  }

  // ---------------------------------------------------------------------
  // Row writes shared by the biome and light setters
  // ---------------------------------------------------------------------

  /** `row` is `before` (or `blank`, when `before` is null) with entry `index`
      replaced by `value`. */
  predicate RowWritten<T(==)>(row: Option<seq<T>>, before: Option<seq<T>>, blank: seq<T>, index: int, value: T) {
    && row.Some?
    && |row.value| == |blank|
    && 0 <= index < |blank|
    && row.value[index] == value
    && (before.Some? ==> |before.value| == |blank|)
    && forall i :: 0 <= i < |blank| && i != index ==> row.value[i] == before.GetOr(blank)[i]
  }

  /** Allocates the grid with null rows and row `k` as `blank` on first use,
      then stores `value` at entry `index` of row `k`. */
  function WriteRow<T>(g: Grid<T>, n: nat, k: nat, blank: seq<T>, index: nat, value: T): (r: Grid<T>)
    requires g.Some? ==> |g.value| == n
    requires k < n && index < |blank|
    requires Row(g, k).Some? ==> |Row(g, k).value| == |blank|
    ensures r.Some? && |r.value| == n
    ensures forall j :: 0 <= j < n && j != k ==> Row(r, j) == Row(g, j)
    ensures RowWritten(Row(r, k), Row(g, k), blank, index, value)
  {
    var grid := if g.None? then seq(n, _ => None) else g.value;
    var row := if grid[k].None? then blank else grid[k].value;
    Some(grid[k := Some(row[index := value])])
  }

  /** Allocates the grid with null rows on first use, then replaces row `k`. */
  function PutRow<T>(g: Grid<T>, n: nat, k: nat, row: Option<seq<T>>): (r: Grid<T>)
    requires g.Some? ==> |g.value| == n
    requires k < n
    ensures r.Some? && |r.value| == n
    ensures forall j :: 0 <= j < n && j != k ==> Row(r, j) == Row(g, j)
    ensures Row(r, k) == row
  {
    var grid := if g.None? then seq(n, _ => None) else g.value;
    Some(grid[k := row])
  }

  /** A `char[4096]` pre-filled with 16, the row a light setter allocates. */
  function UnsetLight(): (row: seq<int>)
    ensures IsLightRow(row)
    ensures forall i :: 0 <= i < |row| ==> row[i] == Unset
  {
    seq(SectionSize, _ => Unset)
  }

  /** A light row filled with one level (`Arrays.fill(row, (char) level)`). */
  function LightFilled(level: int): (row: seq<int>)
    requires 0 <= level <= CharMax
    ensures IsLightRow(row)
    ensures forall i :: 0 <= i < |row| ==> row[i] == level
  {
    seq(SectionSize, _ => level)
  }

  /** A light-setter write: `WriteRow` with the light blank, keeping the
      grid a light grid. */
  function WriteLight(g: Grid<int>, n: nat, k: nat, index: nat, value: int): (r: Grid<int>)
    requires LightGridSized(g, n) && k < n && index < SectionSize && 0 <= value <= CharMax
    ensures LightGridSized(r, n) && r.Some?
    ensures forall j :: 0 <= j < n && j != k ==> Row(r, j) == Row(g, j)
    ensures RowWritten(Row(r, k), Row(g, k), UnsetLight(), index, value)
  {
    var r := WriteRow(g, n, k, UnsetLight(), index, value);
    WrittenLightSized(g, r, n, k, index, value);
    r
  }

  /** A light-row replacement: `PutRow` keeping the grid a light grid. */
  function PutLight(g: Grid<int>, n: nat, k: nat, row: Option<seq<int>>): (r: Grid<int>)
    requires LightGridSized(g, n) && k < n
    requires row.Some? ==> IsLightRow(row.value)
    ensures LightGridSized(r, n) && r.Some?
    ensures forall j :: 0 <= j < n && j != k ==> Row(r, j) == Row(g, j)
    ensures Row(r, k) == row
  {
    var r := PutRow(g, n, k, row);
    PutLightSized(g, r, n, k, row);
    r
  }

  /** `(char) value` into a light grid keeps every row a light row. */
  lemma WrittenLightSized(g: Grid<int>, r: Grid<int>, n: nat, k: nat, index: int, value: int)
    requires LightGridSized(g, n) && k < n
    requires r.Some? && |r.value| == n
    requires forall j :: 0 <= j < n && j != k ==> Row(r, j) == Row(g, j)
    requires RowWritten(Row(r, k), Row(g, k), UnsetLight(), index, value)
    requires 0 <= value <= CharMax
    ensures LightGridSized(r, n)
  {
    var row := Row(r, k).value;
    forall i | 0 <= i < |row|
      ensures 0 <= row[i] <= CharMax
    {
      if i != index {
        assert row[i] == Row(g, k).GetOr(UnsetLight())[i];
      }
    }
    forall j | 0 <= j < n && r.value[j].Some?
      ensures IsLightRow(r.value[j].value)
    {
      if j != k {
        assert Row(r, j) == Row(g, j);
      }
    }
  }

  /** Replacing one row by a light row keeps every row a light row. */
  lemma PutLightSized(g: Grid<int>, r: Grid<int>, n: nat, k: nat, row: Option<seq<int>>)
    requires LightGridSized(g, n) && k < n
    requires row.Some? ==> IsLightRow(row.value)
    requires r.Some? && |r.value| == n
    requires forall j :: 0 <= j < n && j != k ==> Row(r, j) == Row(g, j)
    requires Row(r, k) == row
    ensures LightGridSized(r, n)
  {
    forall j | 0 <= j < n && r.value[j].Some?
      ensures IsLightRow(r.value[j].value)
    {
      if j != k {
        assert Row(r, j) == Row(g, j);
      }
    }
  }

  /** A grid update that only touches row `k` keeps every other layer's
      biome row. */
  lemma OtherBiomeRows(o: Overlay, g: Overlay, r: Overlay, layer: int)
    requires Shaped(o) && Shaped(g) && Shaped(r) && SameRange(g, r)
    requires KeepsBiomes(o, g)
    requires forall j :: 0 <= j < g.sectionCount && j != layer - g.minSection ==> Row(r.biomes, j) == Row(g.biomes, j)
    ensures forall l :: InRange(r, l) && l != layer ==> BiomeRow(r, l) == BiomeRowBefore(o, l)
  {
    forall l | InRange(r, l) && l != layer
      ensures BiomeRow(r, l) == BiomeRowBefore(o, l)
    {
      assert BiomeRow(g, l) == BiomeRowBefore(o, l);
    }
  }

  lemma OtherLightRows(o: Overlay, g: Overlay, r: Overlay, layer: int)
    requires Shaped(o) && Shaped(g) && Shaped(r) && SameRange(g, r)
    requires KeepsLight(o, g)
    requires forall j :: 0 <= j < g.sectionCount && j != layer - g.minSection ==> Row(r.light, j) == Row(g.light, j)
    ensures forall l :: InRange(r, l) && l != layer ==> LightRow(r, l) == LightRowBefore(o, l)
  {
    forall l | InRange(r, l) && l != layer
      ensures LightRow(r, l) == LightRowBefore(o, l)
    {
      assert LightRow(g, l) == LightRowBefore(o, l);
    }
  }

  lemma OtherSkyLightRows(o: Overlay, g: Overlay, r: Overlay, layer: int)
    requires Shaped(o) && Shaped(g) && Shaped(r) && SameRange(g, r)
    requires KeepsSkyLight(o, g)
    requires forall j :: 0 <= j < g.sectionCount && j != layer - g.minSection ==> Row(r.skyLight, j) == Row(g.skyLight, j)
    ensures forall l :: InRange(r, l) && l != layer ==> SkyLightRow(r, l) == SkyLightRowBefore(o, l)
  {
    forall l | InRange(r, l) && l != layer
      ensures SkyLightRow(r, l) == SkyLightRowBefore(o, l)
    {
      assert SkyLightRow(g, l) == SkyLightRowBefore(o, l);
    }
  }

  /** Rewriting one layer's section tag and array keeps every other layer. */
  lemma OtherLayersBlocks(o: Overlay, g: Overlay, r: Overlay, layer: int)
    requires Shaped(o) && Shaped(g) && Shaped(r) && SameRange(g, r)
    requires KeepsBlocks(o, g)
    requires forall j :: 0 <= j < |g.sections| && j != layer - g.minSection ==>
               r.sections[j] == g.sections[j] && r.blocks[j] == g.blocks[j]
    ensures forall l :: InRange(r, l) && l != layer ==>
              SectionAt(r, l) == SectionBefore(o, l) && BlocksAt(r, l) == BlocksBefore(o, l)
  {
    forall l | InRange(r, l) && l != layer
      ensures SectionAt(r, l) == SectionBefore(o, l) && BlocksAt(r, l) == BlocksBefore(o, l)
    {
      assert SectionAt(r, l) == SectionAt(g, l) && BlocksAt(r, l) == BlocksAt(g, l);
    }
  }

  // ---------------------------------------------------------------------
  // Setters: each is a function stating the written effect, paired with a
  // frame lemma stating that nothing else changes
  // ---------------------------------------------------------------------

  /** `setBlocks(layer, data)`: a null array tags the layer `EMPTY`, any other
      tags it `FULL` and stores it. */
  function SetBlocksAt(o: Overlay, layer: int, data: Option<DataArray>): (r: Overlay)
    requires Valid(o)
    requires data.Some? ==> data.value.Valid()
    ensures Valid(r) && GrownTo(o, r, layer) && InRange(r, layer)
    ensures SectionAt(r, layer) == (if data.None? then Empty else Full)
    ensures BlocksAt(r, layer) == data
  {
    var g := UpdateSectionIndexRange(o, layer);
    var k := layer - g.minSection;
    var r := g.(sections := g.sections[k := if data.None? then Empty else Full], blocks := g.blocks[k := data]);
    StillValid(g, r);
    r
  }

  lemma SetBlocksAtFrame(o: Overlay, layer: int, data: Option<DataArray>)
    requires Valid(o)
    requires data.Some? ==> data.value.Valid()
    ensures var r := SetBlocksAt(o, layer, data);
            && (forall l :: InRange(r, l) && l != layer ==>
                  SectionAt(r, l) == SectionBefore(o, l) && BlocksAt(r, l) == BlocksBefore(o, l))
            && KeepsLocks(o, r) && KeepsBiomes(o, r) && KeepsLight(o, r) && KeepsSkyLight(o, r) && KeepsExtras(o, r)
  {
    var g := UpdateSectionIndexRange(o, layer);
    UpdateKeepsSections(o, layer);
    var r := SetBlocksAt(o, layer, data);
    OtherLayersBlocks(o, g, r, layer);
    LocksUntouched(o, g, r);
    BiomesUntouched(o, g, r);
    LightUntouched(o, g, r);
    SkyLightUntouched(o, g, r);
  }

  /** `setBiome(x, y, z, biome)`: grows the range to `y >> 4`, allocates the
      biome grid and the layer's 64-cell row on first use, and writes the cell
      `((y & 12) << 2) | (z & 12) | ((x & 12) >> 2)`. */
  function SetBiome(o: Overlay, x: int, y: int, z: int, biome: Biome): (r: Overlay)
    requires Valid(o)
    ensures Valid(r) && GrownTo(o, r, SectionOf(y)) && InRange(r, SectionOf(y))
    ensures r.biomes.Some?
    ensures RowWritten(BiomeRow(r, SectionOf(y)), BiomeRowBefore(o, SectionOf(y)), NullBiomes(), BiomeIndex(x, y, z), Some(biome))
  {
    var g := UpdateSectionIndexRange(o, SectionOf(y));
    UpdateKeepsLayer(o, SectionOf(y), SectionOf(y));
    var k := SectionOf(y) - g.minSection;
    var biomes := WriteRow(g.biomes, g.sectionCount, k, NullBiomes(), BiomeIndex(x, y, z), Some(biome));
    assert BiomeGridSized(biomes, g.sectionCount) by {
      forall j | 0 <= j < g.sectionCount && biomes.value[j].Some?
        ensures |biomes.value[j].value| == BiomeCells
      {
        if j != k {
          assert Row(biomes, j) == Row(g.biomes, j);
        }
      }
    }
    WithBiomes(g, biomes);
    g.(biomes := biomes)
  }

  lemma SetBiomeFrame(o: Overlay, x: int, y: int, z: int, biome: Biome)
    requires Valid(o)
    ensures var r := SetBiome(o, x, y, z, biome);
            && (forall l :: InRange(r, l) && l != SectionOf(y) ==> BiomeRow(r, l) == BiomeRowBefore(o, l))
            && KeepsBlocks(o, r) && KeepsLocks(o, r) && KeepsLight(o, r) && KeepsSkyLight(o, r) && KeepsExtras(o, r)
  {
    var g := UpdateSectionIndexRange(o, SectionOf(y));
    UpdateKeepsSections(o, SectionOf(y));
    var r := SetBiome(o, x, y, z, biome);
    OtherBiomeRows(o, g, r, SectionOf(y));
    BlocksUntouched(o, g, r);
    LocksUntouched(o, g, r);
    LightUntouched(o, g, r);
    SkyLightUntouched(o, g, r);
  }

  /** `setBlockLight(x, y, z, value)`: the layer's row is allocated filled with
      16 on first touch, then entry `BlockIndex(x, y, z)` becomes `(char) value`. */
  function SetBlockLight(o: Overlay, x: int, y: int, z: int, value: int): (r: Overlay)
    requires Valid(o) && IsInt32(value)
    ensures Valid(r) && GrownTo(o, r, SectionOf(y)) && InRange(r, SectionOf(y))
    ensures r.light.Some?
    ensures RowWritten(LightRow(r, SectionOf(y)), LightRowBefore(o, SectionOf(y)), UnsetLight(), BlockIndex(x, y, z), value % 0x1_0000)
  {
    var layer, index, v := SectionOf(y), BlockIndex(x, y, z), value % 0x1_0000;
    var g := UpdateSectionIndexRange(o, layer);
    UpdateKeepsLightRow(o, layer);
    var light := WriteLight(g.light, g.sectionCount, layer - g.minSection, index, v);
    WithLight(g, light);
    g.(light := light)
  }

  lemma SetBlockLightFrame(o: Overlay, x: int, y: int, z: int, value: int)
    requires Valid(o) && IsInt32(value)
    ensures var r := SetBlockLight(o, x, y, z, value);
            && (forall l :: InRange(r, l) && l != SectionOf(y) ==> LightRow(r, l) == LightRowBefore(o, l))
            && KeepsBlocks(o, r) && KeepsLocks(o, r) && KeepsBiomes(o, r) && KeepsSkyLight(o, r) && KeepsExtras(o, r)
  {
    var g := UpdateSectionIndexRange(o, SectionOf(y));
    UpdateKeepsSections(o, SectionOf(y));
    var r := SetBlockLight(o, x, y, z, value);
    OtherLightRows(o, g, r, SectionOf(y));
    BlocksUntouched(o, g, r);
    LocksUntouched(o, g, r);
    BiomesUntouched(o, g, r);
    SkyLightUntouched(o, g, r);
  }

  /** `setSkyLight(x, y, z, value)`: as `setBlockLight`, on the sky-light grid. */
  function SetSkyLight(o: Overlay, x: int, y: int, z: int, value: int): (r: Overlay)
    requires Valid(o) && IsInt32(value)
    ensures Valid(r) && GrownTo(o, r, SectionOf(y)) && InRange(r, SectionOf(y))
    ensures r.skyLight.Some?
    ensures RowWritten(SkyLightRow(r, SectionOf(y)), SkyLightRowBefore(o, SectionOf(y)), UnsetLight(), BlockIndex(x, y, z), value % 0x1_0000)
  {
    var layer, index, v := SectionOf(y), BlockIndex(x, y, z), value % 0x1_0000;
    var g := UpdateSectionIndexRange(o, layer);
    UpdateKeepsSkyLightRow(o, layer);
    var skyLight := WriteLight(g.skyLight, g.sectionCount, layer - g.minSection, index, v);
    WithSkyLight(g, skyLight);
    g.(skyLight := skyLight)
  }

  lemma SetSkyLightFrame(o: Overlay, x: int, y: int, z: int, value: int)
    requires Valid(o) && IsInt32(value)
    ensures var r := SetSkyLight(o, x, y, z, value);
            && (forall l :: InRange(r, l) && l != SectionOf(y) ==> SkyLightRow(r, l) == SkyLightRowBefore(o, l))
            && KeepsBlocks(o, r) && KeepsLocks(o, r) && KeepsBiomes(o, r) && KeepsLight(o, r) && KeepsExtras(o, r)
  {
    var g := UpdateSectionIndexRange(o, SectionOf(y));
    UpdateKeepsSections(o, SectionOf(y));
    var r := SetSkyLight(o, x, y, z, value);
    OtherSkyLightRows(o, g, r, SectionOf(y));
    BlocksUntouched(o, g, r);
    LocksUntouched(o, g, r);
    BiomesUntouched(o, g, r);
    LightUntouched(o, g, r);
  }

  /** `setLightLayer(layer, toSet)`: the layer's block-light row becomes `toSet`. */
  function SetLightLayer(o: Overlay, layer: int, toSet: Option<seq<int>>): (r: Overlay)
    requires Valid(o)
    requires toSet.Some? ==> IsLightRow(toSet.value)
    ensures Valid(r) && GrownTo(o, r, layer) && InRange(r, layer)
    ensures r.light.Some? && LightRow(r, layer) == toSet
  {
    var g := UpdateSectionIndexRange(o, layer);
    var light := PutLight(g.light, g.sectionCount, layer - g.minSection, toSet);
    WithLight(g, light);
    g.(light := light)
  }

  lemma SetLightLayerFrame(o: Overlay, layer: int, toSet: Option<seq<int>>)
    requires Valid(o)
    requires toSet.Some? ==> IsLightRow(toSet.value)
    ensures var r := SetLightLayer(o, layer, toSet);
            && (forall l :: InRange(r, l) && l != layer ==> LightRow(r, l) == LightRowBefore(o, l))
            && KeepsBlocks(o, r) && KeepsLocks(o, r) && KeepsBiomes(o, r) && KeepsSkyLight(o, r) && KeepsExtras(o, r)
  {
    var g := UpdateSectionIndexRange(o, layer);
    UpdateKeepsSections(o, layer);
    var r := SetLightLayer(o, layer, toSet);
    OtherLightRows(o, g, r, layer);
    BlocksUntouched(o, g, r);
    LocksUntouched(o, g, r);
    BiomesUntouched(o, g, r);
    SkyLightUntouched(o, g, r);
  }

  /** `setSkyLightLayer(layer, toSet)`: the layer's sky-light row becomes `toSet`. */
  function SetSkyLightLayer(o: Overlay, layer: int, toSet: Option<seq<int>>): (r: Overlay)
    requires Valid(o)
    requires toSet.Some? ==> IsLightRow(toSet.value)
    ensures Valid(r) && GrownTo(o, r, layer) && InRange(r, layer)
    ensures r.skyLight.Some? && SkyLightRow(r, layer) == toSet
  {
    var g := UpdateSectionIndexRange(o, layer);
    var skyLight := PutLight(g.skyLight, g.sectionCount, layer - g.minSection, toSet);
    WithSkyLight(g, skyLight);
    g.(skyLight := skyLight)
  }

  lemma SetSkyLightLayerFrame(o: Overlay, layer: int, toSet: Option<seq<int>>)
    requires Valid(o)
    requires toSet.Some? ==> IsLightRow(toSet.value)
    ensures var r := SetSkyLightLayer(o, layer, toSet);
            && (forall l :: InRange(r, l) && l != layer ==> SkyLightRow(r, l) == SkyLightRowBefore(o, l))
            && KeepsBlocks(o, r) && KeepsLocks(o, r) && KeepsBiomes(o, r) && KeepsLight(o, r) && KeepsExtras(o, r)
  {
    var g := UpdateSectionIndexRange(o, layer);
    UpdateKeepsSections(o, layer);
    var r := SetSkyLightLayer(o, layer, toSet);
    OtherSkyLightRows(o, g, r, layer);
    BlocksUntouched(o, g, r);
    LocksUntouched(o, g, r);
    BiomesUntouched(o, g, r);
    LightUntouched(o, g, r);
  }

  /** `removeSectionLighting(layer, sky)`: the layer's block light becomes all
      0, and so does its sky light when `sky` is set. */
  function RemoveSectionLighting(o: Overlay, layer: int, sky: bool): (r: Overlay)
    requires Valid(o)
    ensures Valid(r) && GrownTo(o, r, layer) && InRange(r, layer)
    ensures r.light.Some? && LightRow(r, layer) == Some(LightFilled(0))
    ensures sky ==> r.skyLight.Some? && SkyLightRow(r, layer) == Some(LightFilled(0))
  {
    var g := UpdateSectionIndexRange(o, layer);
    var k := layer - g.minSection;
    var light := PutLight(g.light, g.sectionCount, k, Some(LightFilled(0)));
    WithLight(g, light);
    var lit := g.(light := light);
    var skyLight := PutLight(g.skyLight, g.sectionCount, k, Some(LightFilled(0)));
    WithSkyLight(lit, skyLight);
    if sky then lit.(skyLight := skyLight) else lit
  }

  lemma RemoveSectionLightingFrame(o: Overlay, layer: int, sky: bool)
    requires Valid(o)
    ensures var r := RemoveSectionLighting(o, layer, sky);
            && (forall l :: InRange(r, l) && l != layer ==> LightRow(r, l) == LightRowBefore(o, l))
            && (sky ==> forall l :: InRange(r, l) && l != layer ==> SkyLightRow(r, l) == SkyLightRowBefore(o, l))
            && (!sky ==> KeepsSkyLight(o, r))
            && KeepsBlocks(o, r) && KeepsLocks(o, r) && KeepsBiomes(o, r) && KeepsExtras(o, r)
  {
    var g := UpdateSectionIndexRange(o, layer);
    UpdateKeepsSections(o, layer);
    var r := RemoveSectionLighting(o, layer, sky);
    OtherLightRows(o, g, r, layer);
    if sky {
      OtherSkyLightRows(o, g, r, layer);
    } else {
      SkyLightUntouched(o, g, r);
    }
    BlocksUntouched(o, g, r);
    LocksUntouched(o, g, r);
    BiomesUntouched(o, g, r);
  }

  /** `setFullBright(layer)`: both light rows of the layer become all 15. */
  function SetFullBright(o: Overlay, layer: int): (r: Overlay)
    requires Valid(o)
    ensures Valid(r) && GrownTo(o, r, layer) && InRange(r, layer)
    ensures r.light.Some? && LightRow(r, layer) == Some(LightFilled(15))
    ensures r.skyLight.Some? && SkyLightRow(r, layer) == Some(LightFilled(15))
  {
    var g := UpdateSectionIndexRange(o, layer);
    var k := layer - g.minSection;
    var light := PutLight(g.light, g.sectionCount, k, Some(LightFilled(15)));
    WithLight(g, light);
    var lit := g.(light := light);
    var skyLight := PutLight(g.skyLight, g.sectionCount, k, Some(LightFilled(15)));
    WithSkyLight(lit, skyLight);
    lit.(skyLight := skyLight)
  }

  lemma SetFullBrightFrame(o: Overlay, layer: int)
    requires Valid(o)
    ensures var r := SetFullBright(o, layer);
            && (forall l :: InRange(r, l) && l != layer ==>
                  LightRow(r, l) == LightRowBefore(o, l) && SkyLightRow(r, l) == SkyLightRowBefore(o, l))
            && KeepsBlocks(o, r) && KeepsLocks(o, r) && KeepsBiomes(o, r) && KeepsExtras(o, r)
  {
    var g := UpdateSectionIndexRange(o, layer);
    UpdateKeepsSections(o, layer);
    var r := SetFullBright(o, layer);
    OtherLightRows(o, g, r, layer);
    OtherSkyLightRows(o, g, r, layer);
    BlocksUntouched(o, g, r);
    LocksUntouched(o, g, r);
    BiomesUntouched(o, g, r);
  }

  /** `setTile(x, y, z, tile)`: grows the range to `y >> 4` and records the
      tile at its position, allocating the tile map on first use (the source
      allocates it before growing; growth never touches it). */
  function SetTile(o: Overlay, x: int, y: int, z: int, tile: Tag): (r: Overlay)
    requires Valid(o)
    ensures Valid(r) && GrownTo(o, r, SectionOf(y)) && InRange(r, SectionOf(y))
    ensures r.tiles.Some? && BlockPos(x, y, z) in r.tiles.value && r.tiles.value[BlockPos(x, y, z)] == tile
    ensures forall p :: p != BlockPos(x, y, z) ==>
              (p in r.tiles.value <==> o.tiles.Some? && p in o.tiles.value)
              && (p in r.tiles.value ==> r.tiles.value[p] == o.tiles.value[p])
    ensures r.entities == o.entities && r.entityRemoves == o.entityRemoves && r.heightMaps == o.heightMaps
  {
    var tiles := if o.tiles.None? then map[] else o.tiles.value;
    var g := UpdateSectionIndexRange(o, SectionOf(y));
    var r := g.(tiles := Some(tiles[BlockPos(x, y, z) := tile]));
    StillValid(g, r);
    r
  }

  lemma SetTileFrame(o: Overlay, x: int, y: int, z: int, tile: Tag)
    requires Valid(o)
    ensures KeepsSections(o, SetTile(o, x, y, z, tile))
  {
    var g := UpdateSectionIndexRange(o, SectionOf(y));
    UpdateKeepsSections(o, SectionOf(y));
    var r := SetTile(o, x, y, z, tile);
    BlocksUntouched(o, g, r);
    LocksUntouched(o, g, r);
    BiomesUntouched(o, g, r);
    LightUntouched(o, g, r);
    SkyLightUntouched(o, g, r);
  }

  /** `setHeightMap(type, heightMap)`: records the map; the range is untouched. */
  function SetHeightMap(o: Overlay, kind: HeightMapKind, heightMap: seq<int>): (r: Overlay)
    requires Valid(o)
    ensures Valid(r) && SameRange(o, r)
    ensures r.heightMaps.Some? && kind in r.heightMaps.value && r.heightMaps.value[kind] == heightMap
    ensures forall k :: k != kind ==>
              (k in r.heightMaps.value <==> o.heightMaps.Some? && k in o.heightMaps.value)
              && (k in r.heightMaps.value ==> r.heightMaps.value[k] == o.heightMaps.value[k])
    ensures r.sections == o.sections && r.blocks == o.blocks && r.locks == o.locks
    ensures r.biomes == o.biomes && r.light == o.light && r.skyLight == o.skyLight
    ensures r.tiles == o.tiles && r.entities == o.entities && r.entityRemoves == o.entityRemoves
  {
    var maps := if o.heightMaps.None? then map[] else o.heightMaps.value;
    o.(heightMaps := Some(maps[kind := heightMap]))
  }

  /** `setEntity(tag)`: adds the entity; the range is untouched. */
  function SetEntity(o: Overlay, tag: Tag): (r: Overlay)
    requires Valid(o)
    ensures Valid(r) && SameRange(o, r)
    ensures r.entities.Some? && tag in r.entities.value
    ensures forall t :: t != tag ==> (t in r.entities.value <==> o.entities.Some? && t in o.entities.value)
    ensures r.sections == o.sections && r.blocks == o.blocks && r.locks == o.locks
    ensures r.biomes == o.biomes && r.light == o.light && r.skyLight == o.skyLight
    ensures r.tiles == o.tiles && r.entityRemoves == o.entityRemoves && r.heightMaps == o.heightMaps
  {
    var entities := if o.entities.None? then {} else o.entities.value;
    o.(entities := Some(entities + {tag}))
  }

  /** `removeEntity(uuid)`: records the removal; the range is untouched. */
  function RemoveEntity(o: Overlay, uuid: Uuid): (r: Overlay)
    requires Valid(o)
    ensures Valid(r) && SameRange(o, r)
    ensures r.entityRemoves.Some? && uuid in r.entityRemoves.value
    ensures forall u :: u != uuid ==> (u in r.entityRemoves.value <==> o.entityRemoves.Some? && u in o.entityRemoves.value)
    ensures r.sections == o.sections && r.blocks == o.blocks && r.locks == o.locks
    ensures r.biomes == o.biomes && r.light == o.light && r.skyLight == o.skyLight
    ensures r.tiles == o.tiles && r.entities == o.entities && r.heightMaps == o.heightMaps
  {
    var removes := if o.entityRemoves.None? then {} else o.entityRemoves.value;
    o.(entityRemoves := Some(removes + {uuid}))
  }

  // ---------------------------------------------------------------------
  // Queries, reset and copy
  // ---------------------------------------------------------------------

  /** `hasSection(layer)` of the section store (defined in `DataArrayBlocks`):
      the layer is in range and tagged `FULL`. */
  predicate HasSection(o: Overlay, layer: int)
    requires Shaped(o)
  {
    InRange(o, layer) && SectionAt(o, layer) == Full
  }

  /** Side data whose mere presence (biomes, light) or non-emptiness (the
      collections) makes the overlay a non-trivial edit. */
  predicate HasSideData(o: Overlay) {
    || o.biomes.Some?
    || o.light.Some?
    || o.skyLight.Some?
    || (o.entities.Some? && o.entities.value != {})
    || (o.tiles.Some? && o.tiles.value != map[])
    || (o.entityRemoves.Some? && o.entityRemoves.value != {})
    || (o.heightMaps.Some? && o.heightMaps.value != map[])
  }

  /** `isEmpty()`: no side data and no layer in `[minSection, maxSection]` has a section. */
  predicate IsEmpty(o: Overlay)
    requires Shaped(o)
  {
    !HasSideData(o) && !exists layer :: o.minSection <= layer <= o.maxSection && HasSection(o, layer)
  }

  /** `isEmpty` holds exactly when there is no side data and every layer is tagged `EMPTY`. */
  lemma IsEmptyMeansNothingTagged(o: Overlay)
    requires Shaped(o)
    ensures IsEmpty(o) <==> !HasSideData(o) && forall layer :: InRange(o, layer) ==> SectionAt(o, layer) == Empty
  {
    if IsEmpty(o) {
      forall layer | InRange(o, layer)
        ensures SectionAt(o, layer) == Empty
      {
        assert !HasSection(o, layer);
      }
    } else if !HasSideData(o) {
      var layer :| o.minSection <= layer <= o.maxSection && HasSection(o, layer);
      assert InRange(o, layer) && SectionAt(o, layer) != Empty;
    }
  }

  /** `reset()`: drops all side data and tags every layer `EMPTY`; the range,
      the locks and the block arrays themselves are kept for reuse. */
  function Reset(o: Overlay): (r: Overlay)
    requires Valid(o)
    ensures Valid(r) && SameRange(o, r)
    ensures IsEmpty(r)
    ensures r.blocks == o.blocks && r.locks == o.locks
    ensures r.fastMode == o.fastMode && r.bitMask == o.bitMask
  {
    o.(sections := seq(o.sectionCount, _ => Empty),
       biomes := None, light := None, skyLight := None,
       tiles := None, entities := None, entityRemoves := None, heightMaps := None)
  }

  /** `hasBiomes(layer)`: false outside the range, else whether the layer has a biome row. */
  function HasBiomes(o: Overlay, layer: int): (r: bool)
    requires Valid(o)
    ensures r <==> InRange(o, layer) && BiomeRow(o, layer).Some?
  {
    var k := layer - o.minSection;
    if k < 0 || k >= |o.sections| then false else o.biomes.Some? && o.biomes.value[k].Some?
  }

  /** The copy `createCopy` hands out (`ThreadUnsafeIntBlocks`). */
  datatype Snapshot = Snapshot(
    blocks: seq<Option<DataArray>>,
    minSection: int,
    maxSection: int,
    biomes: Grid<Option<Biome>>,
    sectionCount: int,
    light: Grid<int>,
    skyLight: Grid<int>,
    tiles: Option<map<BlockPos, Tag>>,
    entities: Option<set<Tag>>,
    entityRemoves: Option<set<Uuid>>,
    heightMaps: Option<map<HeightMapKind, seq<int>>>,
    defaultOrdinal: int,
    fastMode: bool,
    bitMask: int)

  predicate AllBacked(blocks: seq<Option<DataArray>>, b: Backing) {
    forall i :: 0 <= i < |blocks| && blocks[i].Some? ==> blocks[i].value.backing == b
  }

  /** The loop over `blocks` calling `DataArray.createCopy` on every non-null
      entry; it fails as soon as one entry has the other backing. */
  function CopyBlocks(blocks: seq<Option<DataArray>>, b: Backing): (r: Result<seq<Option<DataArray>>, CopyError>)
    requires forall i :: 0 <= i < |blocks| && blocks[i].Some? ==> blocks[i].value.Valid()
    ensures r.Success? <==> AllBacked(blocks, b)
    ensures r.Success? ==> r.value == blocks
  {
    if |blocks| == 0 then Success([])
    else
      var head :- if blocks[0].None? then Success(None)
                  else var c :- DataArrays.CreateCopy(b, blocks[0].value); Success(Some(c));
      var tail :- CopyBlocks(blocks[1..], b);
      assert AllBacked(blocks, b) by {
        forall i | 0 <= i < |blocks| && blocks[i].Some?
          ensures blocks[i].value.backing == b
        {
          if i > 0 {
            assert blocks[1..][i - 1] == blocks[i];
          }
        }
      }
      Success([head] + tail)
  }

  /** Copies the first `sectionCount` rows of a nullable grid into a new
      grid, null staying null: the copy loops of `createCopy` and
      `createLightCopy`. */
  function CopyRows<T>(g: Grid<T>, sectionCount: nat): (r: Grid<T>)
    requires g.Some? ==> |g.value| >= sectionCount
    ensures r.Some? <==> g.Some?
    ensures r.Some? ==> |r.value| == sectionCount && forall k :: 0 <= k < sectionCount ==> r.value[k] == g.value[k]
  {
    if g.None? then None else Some(seq(sectionCount, k requires 0 <= k < sectionCount => g.value[k]))
  }

  /** A grid of exactly `sectionCount` rows is copied to an equal grid. */
  lemma CopyRowsIsIdentity<T>(g: Grid<T>, sectionCount: nat)
    requires g.Some? ==> |g.value| == sectionCount
    ensures CopyRows(g, sectionCount) == g
  {
    var r := CopyRows(g, sectionCount);
    if g.Some? {
      assert r.value == g.value;
    }
  }

  /** `createLightCopy(grid, sectionCount)`. */
  function CreateLightCopy(g: Grid<int>, sectionCount: nat): (r: Grid<int>)
    requires g.Some? ==> |g.value| >= sectionCount
    ensures r.Some? <==> g.Some?
    ensures r.Some? ==> |r.value| == sectionCount && forall k :: 0 <= k < sectionCount ==> Row(r, k) == Row(g, k)
  {
    CopyRows(g, sectionCount)
  }

  /** `createCopy()`: a snapshot holding the same range, the same block
      content at every layer, the same biome and light rows and the same side
      collections; the default ordinal is `__RESERVED__`. Copying fails when a
      stored array has the other backing. */
  function CreateCopy(o: Overlay, b: Backing): (r: Result<Snapshot, CopyError>)
    requires Valid(o)
    ensures r.Success? <==> AllBacked(o.blocks, b)
    ensures r.Success? ==>
              && r.value.minSection == o.minSection && r.value.maxSection == o.maxSection
              && r.value.sectionCount == o.sectionCount
              && r.value.blocks == o.blocks
              && r.value.biomes == o.biomes && r.value.light == o.light && r.value.skyLight == o.skyLight
              && r.value.tiles == o.tiles && r.value.entities == o.entities
              && r.value.entityRemoves == o.entityRemoves && r.value.heightMaps == o.heightMaps
              && r.value.defaultOrdinal == Reserved
  {
    var blocks :- CopyBlocks(o.blocks, b);
    var biomes := CopyRows(o.biomes, o.sectionCount);
    CopyRowsIsIdentity(o.biomes, o.sectionCount);
    CopyRowsIsIdentity(o.light, o.sectionCount);
    CopyRowsIsIdentity(o.skyLight, o.sectionCount);
    Success(Snapshot(blocks, o.minSection, o.maxSection, biomes, o.sectionCount,
                     CreateLightCopy(o.light, o.sectionCount), CreateLightCopy(o.skyLight, o.sectionCount),
                     o.tiles, o.entities, o.entityRemoves, o.heightMaps, Reserved, o.fastMode, o.bitMask))
  }

  // ---------------------------------------------------------------------
  // Properties across operations
  // ---------------------------------------------------------------------

  /** Storing an array makes the overlay non-empty; clearing a layer of an
      empty overlay leaves it empty. */
  lemma SetBlocksAtEmptiness(o: Overlay, layer: int, data: Option<DataArray>)
    requires Valid(o)
    requires data.Some? ==> data.value.Valid()
    ensures data.Some? ==> !IsEmpty(SetBlocksAt(o, layer, data))
    ensures data.None? && IsEmpty(o) ==> IsEmpty(SetBlocksAt(o, layer, data))
  {
    var r := SetBlocksAt(o, layer, data);
    SetBlocksAtFrame(o, layer, data);
    IsEmptyMeansNothingTagged(o);
    IsEmptyMeansNothingTagged(r);
    if data.Some? {
      assert SectionAt(r, layer) == Full;
    } else if IsEmpty(o) {
      assert !HasSideData(r);
      forall l | InRange(r, l)
        ensures SectionAt(r, l) == Empty
      {
        if l != layer {
          assert SectionAt(r, l) == SectionBefore(o, l);
        }
      }
    }
  }

  /** Growing the range of an empty overlay keeps it empty: new layers are `EMPTY`. */
  lemma {:induction false} GrowthKeepsEmpty(o: Overlay, layer: int)
    requires Valid(o) && IsEmpty(o)
    ensures IsEmpty(UpdateSectionIndexRange(o, layer))
  {
    var r := UpdateSectionIndexRange(o, layer);
    UpdateKeepsSections(o, layer);
    IsEmptyMeansNothingTagged(o);
    IsEmptyMeansNothingTagged(r);
    forall l | InRange(r, l)
      ensures SectionAt(r, l) == Empty
    {
      assert SectionAt(r, l) == SectionBefore(o, l);
    }
  }

  /** Every other edit leaves side data behind, whatever it writes, so the
      overlay is no longer empty. */
  lemma SideEditsAreNotEmpty(o: Overlay, x: int, y: int, z: int, layer: int, value: int, sky: bool,
                             biome: Biome, toSet: Option<seq<int>>, tile: Tag, tag: Tag, uuid: Uuid,
                             kind: HeightMapKind, heightMap: seq<int>)
    requires Valid(o) && IsInt32(value)
    requires toSet.Some? ==> IsLightRow(toSet.value)
    ensures !IsEmpty(SetBiome(o, x, y, z, biome))
    ensures !IsEmpty(SetBlockLight(o, x, y, z, value)) && !IsEmpty(SetSkyLight(o, x, y, z, value))
    ensures !IsEmpty(SetLightLayer(o, layer, toSet)) && !IsEmpty(SetSkyLightLayer(o, layer, toSet))
    ensures !IsEmpty(RemoveSectionLighting(o, layer, sky)) && !IsEmpty(SetFullBright(o, layer))
    ensures !IsEmpty(SetTile(o, x, y, z, tile))
    ensures !IsEmpty(SetEntity(o, tag)) && !IsEmpty(RemoveEntity(o, uuid))
    ensures !IsEmpty(SetHeightMap(o, kind, heightMap))
  {
  }

  /** After `setBiome`, `hasBiomes` reports the written layer. */
  lemma SetBiomeHasBiomes(o: Overlay, x: int, y: int, z: int, biome: Biome)
    requires Valid(o)
    ensures HasBiomes(SetBiome(o, x, y, z, biome), SectionOf(y))
  {
  }

  /** Growth allocates `new BiomeType[sectionCount][64]`, so once a biome grid
      exists, every layer the range grows over reports `hasBiomes` although
      nothing was written there. */
  lemma GrowthAllocatesBiomeRows(o: Overlay, layer: int, l: int)
    requires Valid(o) && o.biomes.Some?
    requires InRange(UpdateSectionIndexRange(o, layer), l) && !InRange(o, l)
    ensures HasBiomes(UpdateSectionIndexRange(o, layer), l)
    ensures BiomeRow(UpdateSectionIndexRange(o, layer), l) == Some(NullBiomes())
  {
    UpdateKeepsLayer(o, layer, l);
  }

  /** `reset` forgets every biome row. */
  lemma ResetHasNoBiomes(o: Overlay, layer: int)
    requires Valid(o)
    ensures !HasBiomes(Reset(o), layer)
  {
  }

  /** Growing twice keeps the original content of a layer. */
  lemma GrowTwiceKeepsLayer(o: Overlay, a: int, b: int, l: int)
    requires Valid(o)
    requires InRange(UpdateSectionIndexRange(UpdateSectionIndexRange(o, a), b), l)
    ensures var ab := UpdateSectionIndexRange(UpdateSectionIndexRange(o, a), b);
            SectionAt(ab, l) == SectionBefore(o, l) && BlocksAt(ab, l) == BlocksBefore(o, l)
  {
    var ga := UpdateSectionIndexRange(o, a);
    UpdateKeepsLayer(ga, b, l);
    if InRange(ga, l) {
      UpdateKeepsLayer(o, a, l);
    }
  }

  /** Growing to two layers in either order yields the same range, and both
      orders keep the original content of every layer. */
  lemma GrowthOrderIrrelevant(o: Overlay, a: int, b: int)
    requires Valid(o)
    ensures var ab := UpdateSectionIndexRange(UpdateSectionIndexRange(o, a), b);
            var ba := UpdateSectionIndexRange(UpdateSectionIndexRange(o, b), a);
            && ab.minSection == ba.minSection == Min(o.minSection, Min(a, b))
            && ab.maxSection == ba.maxSection == Max(o.maxSection, Max(a, b))
            && forall l :: InRange(ab, l) ==>
                 SectionAt(ab, l) == SectionAt(ba, l) && BlocksAt(ab, l) == BlocksAt(ba, l)
  {
    var ab := UpdateSectionIndexRange(UpdateSectionIndexRange(o, a), b);
    var ba := UpdateSectionIndexRange(UpdateSectionIndexRange(o, b), a);
    forall l | InRange(ab, l)
      ensures SectionAt(ab, l) == SectionAt(ba, l) && BlocksAt(ab, l) == BlocksAt(ba, l)
    {
      GrowTwiceKeepsLayer(o, a, b, l);
      GrowTwiceKeepsLayer(o, b, a, l);
    }
  }
}

=== FILE: wrappers.dfy ===
/** Failure-compatible wrappers used across the model: `Option` stands for a
    Java reference that may be null, `Result` for an operation that may throw. */
module Wrappers {

  datatype Option<+T> = None | Some(value: T) {
    /** The value, or `default` for a null reference. */
    function GetOr(default: T): T {
      match this
      case Some(v) => v
      case None => default
    }
  }

  datatype Result<+T, +E> = Success(value: T) | Failure(error: E) {
    predicate IsFailure() {
      Failure?
    }

    function PropagateFailure<U>(): Result<U, E>
      requires Failure?
    {
      Failure(error)
    }

    function Extract(): T
      requires Success?
    {
      value
    }
  }
}
